=== FILE: README.md ===
# CV analyser core, modelled in Dafny

This project models the rule-based core of a bilingual (English and
Indonesian) CV analyser. The model covers these stages:

- **date normalisation**: date phrases become `YYYY-MM-DD` strings. A period
  is read from the dates that occur in a text.
- **skill matching**: an exact dictionary lookup, then fuzzy phrase
  matching, with duplicate skills merged.
- **entity extraction**: personal data, skills, education, experience,
  languages, certifications and a summary are taken from an NLP document,
  with confidence scores for each.
- **validation**: each field gets a flag, and the section scores are
  weighted into an overall score.
- **utility helpers**: text cleanup, file extensions, language names and
  a deep dictionary merge.
- **the exporter**: one result, or many, become JSON, a CSV row or an
  Excel workbook.

The model follows the Python modules under `modules/`:

| file | Dafny module |
|---|---|
| `date_normalizer.py` | `DateNormalizer` in `date_normalizer.dfy` |
| `skills_matcher.py` | `SkillsMatcher` in `skills_matcher.dfy` |
| `entity_extractor.py` | `EntityExtractor` in `entity_extractor.dfy` |
| `validation.py` | `Validation` in `validation.dfy` |
| `utils.py` | `Utils` in `utils.dfy` |
| `exporter.py` | `Exporter` in `exporter.dfy` |

Shared modules:

- `Wrappers` holds `Option` and `Result`.
- `Text` holds Python string semantics: `lower`, `in`/`find`, `split`,
  `strip`, `join` and `replace(…, 1)`.
- `Json` holds the dictionary and list values the exporter and
  `merge_dictionaries` work on.

Raised exceptions are error values:

- `KeyError` for an unknown language code;
- `ValueError` for an unknown export format;
- `TypeError` for `', '.join` over `None`.

The parts that need a regex engine, a language model or a clock are
function parameters of the model:

- the `finditer` stage of date extraction;
- the email and phone regexes;
- the fuzzy string scorer;
- today's date.

The small fixed regexes are written out as recognisers. These are the year
token `\b(19|20)\d{2}\b`, the day, the `d/m/yyyy` and `yyyy-m-d` shapes and
the five-digit postal code.

Where the code and its documentation disagree, the model follows the code:

- **`extract_entities` and Indonesian.** Only the keyword tables for
  education, experience and summary have Indonesian entries. So
  `extract_entities` with `ind` raises `KeyError` as soon as the document
  has a sentence, because the language and certification keyword lookups
  only exist for English. `ExtractEntities` is therefore `Ok` exactly for
  `eng`, or for `ind` on a document with no sentences.
- **Fuzzy matches raise `ValueError`.** `process.extract` returns
  (choice, score, index) triples, but the code unpacks the first one into
  two names. Every fuzzy hit therefore raises `ValueError`; this is listed
  under Findings.
- **Bulk Excel export with no skills.** When no result lists a skill, the
  frequency frame has no `Count` column and sorting it raises `KeyError`.
  `ExportBulkResults` fails in that case.
- **Dead newline step in `cleanup_text`.** The step that collapses runs of
  three or more newlines never fires. The `\s+` substitution before it has
  already turned every newline into a space.

## Model

| member | source | states |
|---|---|---|
| DateNormalizer.LocaleFor | modules/date_normalizer.py:86 | the Indonesian tables are chosen exactly for code `ind`; every other code falls back to the English tables |
| DateNormalizer.Formats | modules/date_normalizer.py:13-40 | each language has seven patterns, in source order: month-day-year, day-month-year, numeric d/m/y, numeric y/m/d, 20xx, 19xx and the present words; all use the chosen language |
| DateNormalizer.FindYear | modules/date_normalizer.py:113 | a found year is four digits, at the leftmost offset where `\b(19\|20)\d{2}\b` matches; no result means the pattern matches nowhere |
| DateNormalizer.FindDay | modules/date_normalizer.py:122-127 | a found day is the one or two digits at the leftmost offset where `\b\d{1,2}\b` matches; no result means it matches nowhere |
| DateNormalizer.SlashAt | modules/date_normalizer.py:134 | a match at an offset has groups of 1-2, 1-2 and 4 digits |
| DateNormalizer.IsoAt | modules/date_normalizer.py:148 | a match at an offset has groups of 4, 1-2 and 1-2 digits |
| DateNormalizer.FindSlash | modules/date_normalizer.py:134 | `re.search` semantics: the result is the match at the leftmost matching offset; no result means no offset matches |
| DateNormalizer.FindIso | modules/date_normalizer.py:148 | the same leftmost-match semantics for the ISO-shaped pattern |
| DateNormalizer.MonthPath | modules/date_normalizer.py:118-130 | a month-name reading needs a year token; its month comes from the table and its day is at most 28 |
| DateNormalizer.MonthNumbersInRange | modules/date_normalizer.py:43-72 | every month-name table entry maps to a month from 1 to 12 |
| DateNormalizer.MonthPathPicksFirstEntry | modules/date_normalizer.py:118-130 | the first table entry that occurs in the lower-cased text decides the month; the day is the first 1-2 digit token (default 1), capped at 28 |
| DateNormalizer.MonthPathNeedsYear | modules/date_normalizer.py:123-130 | with no year token, the month-name rule yields nothing |
| DateNormalizer.MonthPathNeedsName | modules/date_normalizer.py:118-130 | with no month name in the text, the month-name rule yields nothing |
| DateNormalizer.ParseDate | modules/date_normalizer.py:107-157 | every reading has a four-digit year, a month of at most 12 and a day of at most 28; the reading is "today" exactly when the text has a present word of its language |
| DateNormalizer.NumericPath | modules/date_normalizer.py:133-155 | the numeric rules yield only year-month-day readings with a four-digit year, a month of at most 12 and a day of at most 28 |
| DateNormalizer.Render | modules/date_normalizer.py:115 | the rendering is `YYYY-MM-DD` with two-digit, zero-padded month and day that read back as the month and day |
| DateNormalizer.NormalizeDate | modules/date_normalizer.py:107-157 | a present word gives today's date; the result is `None` exactly when no rule reads the text |
| DateNormalizer.NormalizeRoundTrip | modules/date_normalizer.py:148-155 | re-normalising any rendered date gives back the same date and the same string (round trip) |
| DateNormalizer.BareYearRule | modules/date_normalizer.py:113-115 | a stripped text of at most five characters with a year token becomes January 1st of that year |
| DateNormalizer.MonthNameRule | modules/date_normalizer.py:112-130 | past the present and bare-year rules, the first month name of the language decides the reading |
| DateNormalizer.SlashReadingSwapsForOtherCodes | modules/date_normalizer.py:134-145 | for any code other than `eng`, a slash date with both leading fields at most 12 is read day-first, with the day and month of the English reading swapped |
| DateNormalizer.DigitsHaveNoWords | modules/date_normalizer.py:109-130 | a text of digits and hyphens triggers neither the present rule nor the month-name rule |
| DateNormalizer.IsoShapedHasNoSlash | modules/date_normalizer.py:134 | a `YYYY-MM-DD` text does not match the `d/m/yyyy` pattern |
| DateNormalizer.IsoShapedReadsWhole | modules/date_normalizer.py:148 | on a `YYYY-MM-DD` text the ISO pattern matches the whole text, group by group |
| DateNormalizer.ParseIsoShaped | modules/date_normalizer.py:148-155 | a `YYYY-MM-DD` text is read as that year, with the month clamped to 12 and the day to 28 |
| DateNormalizer.SlashShapedReadsWhole | modules/date_normalizer.py:134 | on a `DD/MM/YYYY` text the slash pattern matches the whole text, group by group |
| DateNormalizer.NumericPathOfSlash | modules/date_normalizer.py:134-145 | a slash match is read month-first for `eng` and day-first otherwise, with the month clamped to 12 and the day to 28 |
| DateNormalizer.ParseSlashShaped | modules/date_normalizer.py:107-157 | a `DD/MM/YYYY` text is read as that year, month-first for `eng` and day-first for other codes, clamped to 12 and 28 |
| DateNormalizer.NumericPathOfIso | modules/date_normalizer.py:148-155 | with no slash match, the ISO groups give year, clamped month and clamped day |
| DateNormalizer.OnlyNumericRulesLeft | modules/date_normalizer.py:133-157 | once the present, year-only and month-name rules do not apply, the numeric rules decide |
| DateNormalizer.IsoShapedIsLong | modules/date_normalizer.py:113 | a `YYYY-MM-DD` text is too long for the bare-year rule |
| DateNormalizer.YearAtStart | modules/date_normalizer.py:113 | a year token at offset 0 is the one `re.search` finds |
| DateNormalizer.BareYearExample | modules/date_normalizer.py:113-115 | `"2019"` is read as 2019-01-01 |
| DateNormalizer.BareYearNormalizes | modules/date_normalizer.py:113-115 | `normalize_date("2019")` is `"2019-01-01"` |
| DateNormalizer.RenderExample | modules/date_normalizer.py:115 | the rendering of 2019-01-01 is `"2019-01-01"` |
| DateNormalizer.PresentExample | modules/date_normalizer.py:109-110 | `normalize_date("Present")` is today's date |
| DateNormalizer.SpanOf | modules/date_normalizer.py:93-103 | a match is kept exactly when its text normalises to a non-empty string; the span keeps that normalised form, the match's own text, start and end, and the present flag of that text |
| DateNormalizer.SpansOfMatches | modules/date_normalizer.py:92-103 | every kept span comes from a match whose normalisation succeeds, and every such match is kept |
| DateNormalizer.SpansOfMatchesAppend | modules/date_normalizer.py:92-103 | match order is kept: the spans of two runs of matches are those of the first run followed by those of the second |
| DateNormalizer.SpansOfMatchesOne | modules/date_normalizer.py:93-103 | one match yields its own span, or nothing |
| DateNormalizer.SpansOfPatterns | modules/date_normalizer.py:90-103 | the same correspondence, over all patterns and their matches |
| DateNormalizer.SpansOfPatternsAppend | modules/date_normalizer.py:90-103 | pattern order is kept: the spans of earlier patterns come before those of later ones |
| DateNormalizer.SpansOfPatternsOne | modules/date_normalizer.py:90-103 | one pattern yields the spans of its own matches |
| DateNormalizer.ExtractDates | modules/date_normalizer.py:80-105 | empty text gives no dates; every date found is the normalisation of its original text, is non-empty, and carries the present flag of that text; every successful match of a language pattern is reported |
| DateNormalizer.ExtractDatesInOrder | modules/date_normalizer.py:80-105 | the dates come pattern by pattern in table order: those of the first k patterns precede those of the rest |
| DateNormalizer.InsertByStart | modules/date_normalizer.py:183 | the insertion adds exactly the new element, and keeps a start-sorted list sorted |
| DateNormalizer.InsertKeepsOrder | modules/date_normalizer.py:183 | among the spans of any one start, the inserted span goes ahead of those already present, which keep their order |
| DateNormalizer.SortByStart | modules/date_normalizer.py:183 | the sort result is ordered by start offset and is a permutation of its input |
| DateNormalizer.SortIsStable | modules/date_normalizer.py:183 | the sort is stable: spans with the same start keep their input order, as Python's `sorted` promises |
| DateNormalizer.Between | modules/date_normalizer.py:188 | the text between two spans is the slice from the end of the first to the start of the second, and empty when they overlap |
| DateNormalizer.FirstSeparated | modules/date_normalizer.py:186-193 | the result is the first adjacent pair with a range separator between them; no result means no pair has one |
| DateNormalizer.RangeOf | modules/date_normalizer.py:171-199 | no dates give an empty range; a single date is an end date when it is "present" and a start date otherwise; two or more follow the separator-pair rule over the sorted dates |
| DateNormalizer.RangeEndsAreFound | modules/date_normalizer.py:164-199 | every start or end date of the range is one of the dates found |
| DateNormalizer.ExtractDateRange | modules/date_normalizer.py:164-172 | empty text gives an empty range |
| DateNormalizer.RangeExample | modules/date_normalizer.py:186-193 | `"January 2019 - Present"` gives the range from 2019-01-01 to today |
| SkillsMatcher.ExactMatches | modules/skills_matcher.py:62-72 | a dictionary skill is reported with confidence 1.0 exactly when its lower-cased form occurs in the lower-cased text |
| SkillsMatcher.GramsAt | modules/skills_matcher.py:76-80 | the phrases starting at one word are exactly its runs of the given lengths, up to four words |
| SkillsMatcher.PhrasesFrom | modules/skills_matcher.py:76-80 | the phrases from one position on are exactly the runs of one to four words starting there or later |
| SkillsMatcher.Phrases | modules/skills_matcher.py:76-80 | a string is a candidate phrase exactly when it is a run of one to four consecutive words of the text |
| SkillsMatcher.Best | modules/skills_matcher.py:89-98 | the best match is a dictionary entry whose score reaches the cutoff, no other entry scores higher, and ties go to the earliest; there is none exactly when every entry scores below the cutoff |
| SkillsMatcher.PhraseMatch | modules/skills_matcher.py:83-105 | with the intended unpacking, a phrase shorter than three characters matches nothing; a fuzzy match is a dictionary skill not already matched exactly, with the best score, at or above the threshold, and confidence equal to the score divided by 100; conversely every phrase of three or more characters whose best score reaches the threshold, for a skill not already matched exactly, yields a match |
| SkillsMatcher.FuzzyMatches | modules/skills_matcher.py:83-105 | every fuzzy match comes from a candidate phrase, and every matching phrase contributes its match |
| SkillsMatcher.FuzzyMatchesAppend | modules/skills_matcher.py:83-105 | phrase order is kept: the matches of two runs of phrases are those of the first run followed by those of the second |
| SkillsMatcher.FuzzyMatchesOne | modules/skills_matcher.py:85-105 | one phrase yields its own match, or nothing |
| SkillsMatcher.IndexOf | modules/skills_matcher.py:110-117 | the result is the first entry that carries the skill; none means no entry carries it |
| SkillsMatcher.Skills | modules/skills_matcher.py:140-141 | the skill names, position by position |
| SkillsMatcher.Merge | modules/skills_matcher.py:108-117 | de-duplication keeps one entry per skill, in first-seen order, and it is the first entry of highest confidence for that skill |
| SkillsMatcher.MergeStep | modules/skills_matcher.py:110-117 | one merge step keeps the de-duplication invariant |
| SkillsMatcher.FirstSightingStays | modules/skills_matcher.py:110-117 | appending a match does not move the first sighting of a skill |
| SkillsMatcher.SkillListKnown | modules/skills_matcher.py:112-115 | a skill already seen does not change the first-seen order |
| SkillsMatcher.SkillListNew | modules/skills_matcher.py:116-117 | a new skill goes to the end of the first-seen order |
| SkillsMatcher.WinnerSurvives | modules/skills_matcher.py:110-117 | a match for another skill does not unseat a skill's winner |
| SkillsMatcher.MergeAppends | modules/skills_matcher.py:116-117 | a first sighting is appended and becomes its skill's winner |
| SkillsMatcher.MergeReplaces | modules/skills_matcher.py:113-115 | a strictly more confident sighting replaces the kept entry in place |
| SkillsMatcher.MergeKeeps | modules/skills_matcher.py:113-115 | a sighting that is not more confident leaves the merged list unchanged |
| SkillsMatcher.ExtractSkills | modules/skills_matcher.py:46-117 | the intended behaviour, with the score triple unpacked into three names: empty text, an unknown language or an empty dictionary give no skills; otherwise the result de-duplicates the exact matches followed by the fuzzy matches |
| SkillsMatcher.ExtractSkillsAsWritten | modules/skills_matcher.py:46-117 | the code as written: past the early returns it raises `ValueError` exactly when some phrase has a match at or above the threshold, since that match is a triple unpacked into two names; otherwise it agrees with ExtractSkills |
| SkillsMatcher.UnpackingRaises | modules/skills_matcher.py:89-98 | the text `"python"` with `python` in the English dictionary raises `ValueError`, where the intended code reports `python` with confidence 1.0 |
| SkillsMatcher.ExactCovers | modules/skills_matcher.py:62-72 | every dictionary skill whose lower-cased form occurs in the text is among the exact matches |
| SkillsMatcher.FuzzyOrigin | modules/skills_matcher.py:83-105 | every fuzzy match was produced by a candidate phrase of the text |
| SkillsMatcher.FuzzyJustified | modules/skills_matcher.py:83-105 | a fuzzy match is a dictionary skill that was not matched exactly, and is justified by a phrase scoring at or above the threshold |
| SkillsMatcher.CandidatesJustified | modules/skills_matcher.py:62-105 | every candidate, exact or fuzzy, is a dictionary skill justified by the text |
| SkillsMatcher.ExtractSkillsSound | modules/skills_matcher.py:46-117 | the skills returned are distinct dictionary skills, each justified by the text |
| SkillsMatcher.ExactSkillsReported | modules/skills_matcher.py:62-117 | a dictionary skill occurring in the lower-cased text is returned with confidence 1.0, so no fuzzy match displaces it |
| SkillsMatcher.ConfidenceInRange | modules/skills_matcher.py:103 | with scores of at most 100 and a positive threshold, every confidence is in (0, 1] |
| SkillsMatcher.SoftOf | modules/skills_matcher.py:125-144 | the soft skills are the listed skills in the soft-skill list, each kept |
| SkillsMatcher.HardOf | modules/skills_matcher.py:125-146 | the hard skills are the listed skills not in that list, each kept |
| SkillsMatcher.SelectMembers | modules/skills_matcher.py:140-146 | a filter pass keeps exactly the names on its side of the soft-skill test |
| SkillsMatcher.SelectDistributes | modules/skills_matcher.py:140-146 | filtering distributes over concatenation, so the input order is kept |
| SkillsMatcher.SelectPartition | modules/skills_matcher.py:140-146 | the two filter passes together keep every name with its multiplicity |
| SkillsMatcher.SplitDistributes | modules/skills_matcher.py:140-146 | the soft and the hard lists of a concatenation are the concatenations of the parts' lists, so both keep input order |
| SkillsMatcher.SplitOne | modules/skills_matcher.py:140-146 | one name goes to exactly one of the soft and hard lists, according to the soft-skill list |
| SkillsMatcher.SplitIsPartition | modules/skills_matcher.py:140-146 | hard and soft together are a permutation of the input names |
| SkillsMatcher.CategorizeSkills | modules/skills_matcher.py:119-151 | the categories partition the skill names into soft and hard, with multiplicities |
| EntityExtractor.TextsWith | modules/entity_extractor.py:65-84 | the texts of the entities with the given labels, in document order; non-empty exactly when such an entity exists |
| EntityExtractor.TextsWithAppend | modules/entity_extractor.py:65-84 | the texts of two entity lists concatenated are the concatenation of their texts, so document order is kept |
| EntityExtractor.FirstTextIsFirstEntity | modules/entity_extractor.py:65-66 | the first text listed belongs to the first entity with a matching label |
| EntityExtractor.FirstText | modules/entity_extractor.py:65-66 | the name is absent exactly when no entity carries the label, and otherwise is the first such entity's text |
| EntityExtractor.FirstMatch | modules/entity_extractor.py:56-62 | the first regex match, absent exactly when there is none |
| EntityExtractor.FirstPostal | modules/entity_extractor.py:87-88 | a found postal code is the five digits at the leftmost offset where `\b\d{5}\b` matches; none means it matches nowhere |
| EntityExtractor.AddressParts | modules/entity_extractor.py:78-98 | no places give no parts; otherwise the parts are the first one or two place names, then the postal code last when one exists, and nothing else |
| EntityExtractor.ExtractAddress | modules/entity_extractor.py:78-98 | the address is `None` exactly when the document has no GPE or LOC entity, and otherwise the comma join of the parts |
| EntityExtractor.ExtractPersonalInfo | modules/entity_extractor.py:52-76 | the name is the first PERSON entity (absent exactly when there is none); email and phone are the first regex matches; the address is as above |
| EntityExtractor.NamesIn | modules/entity_extractor.py:120-123 | the list names kept are exactly those that occur, lower-cased, in the lower-cased text |
| EntityExtractor.ExtractSkills | modules/entity_extractor.py:100-125 | the skill set is the SKILL entity texts together with the listed programming skills that occur in the text |
| EntityExtractor.JavaScriptImpliesJava | modules/entity_extractor.py:120-123 | a text mentioning "javascript" reports both JavaScript and Java, since the substring test also finds "java" |
| EntityExtractor.Bilingual | modules/entity_extractor.py:133-161 | a keyword table lookup succeeds exactly for `eng` and `ind`, and otherwise raises `KeyError` with that code |
| EntityExtractor.FirstTwoDates | modules/entity_extractor.py:144-150 | the dates of a sentence are absent exactly when it has no DATE entity, and are otherwise exactly its first one or two DATE texts |
| EntityExtractor.EducationOf | modules/entity_extractor.py:137-151 | a sentence gives an entry exactly when it mentions a keyword and has an ORG; the institution is the first ORG, degree and field are `None`, and the dates are as above |
| EntityExtractor.ExperienceOf | modules/entity_extractor.py:165-179 | the same rule for work experience: the company is the first ORG, the title is `None` and there are no responsibilities |
| EntityExtractor.EducationEntries | modules/entity_extractor.py:136-153 | the entries are exactly the per-sentence entries, at most one per sentence |
| EntityExtractor.ExperienceEntries | modules/entity_extractor.py:164-181 | the same for work experience |
| EntityExtractor.CollectMembers | modules/entity_extractor.py:136-181 | the loop over sentences keeps exactly the entries some sentence yields, at most one per sentence |
| EntityExtractor.CollectAppend | modules/entity_extractor.py:136-181 | the loop over two runs of sentences gives the concatenation of their entries, in sentence order |
| EntityExtractor.EducationEntriesAppend | modules/entity_extractor.py:136-153 | the education entries follow sentence order: those of two runs of sentences concatenate |
| EntityExtractor.ExperienceEntriesAppend | modules/entity_extractor.py:164-181 | the same for work experience |
| EntityExtractor.ExtractEducation | modules/entity_extractor.py:127-153 | succeeds exactly for `eng` and `ind` (otherwise `KeyError`), with the entries found using that language's keywords |
| EntityExtractor.ExtractExperience | modules/entity_extractor.py:155-181 | the same for work experience |
| EntityExtractor.EnglishOnly | modules/entity_extractor.py:187-209 | the language and certification keyword tables exist only for `eng`; any other code raises `KeyError` with that code |
| EntityExtractor.LanguagesIn | modules/entity_extractor.py:192-199 | a common language is reported exactly when some sentence mentions a language keyword and contains that language's name |
| EntityExtractor.ExtractLanguages | modules/entity_extractor.py:183-201 | fails exactly when the code is not `eng` and there is a sentence to look up keywords for; otherwise gives the languages above |
| EntityExtractor.ProperNouns | modules/entity_extractor.py:215-217 | the proper-noun tokens of more than two characters |
| EntityExtractor.CertificationsIn | modules/entity_extractor.py:211-217 | a certification is such a proper noun in a sentence that mentions a certification keyword |
| EntityExtractor.ExtractCertifications | modules/entity_extractor.py:203-219 | fails exactly when the code is not `eng` and the document has sentences; otherwise gives the certifications above |
| EntityExtractor.CutAtOtherHeaders | modules/entity_extractor.py:236-240 | the section is cut to a prefix that contains none of the other non-empty headers |
| EntityExtractor.CutKeepsWithoutOthers | modules/entity_extractor.py:236-240 | a section containing no other header is kept whole |
| EntityExtractor.CutAtHeaderStart | modules/entity_extractor.py:236-240 | a section is either kept whole or cut exactly where some other header begins |
| EntityExtractor.CutStep | modules/entity_extractor.py:237-240 | one cut keeps a prefix and removes that header |
| EntityExtractor.DropHeader | modules/entity_extractor.py:243 | removing the header never lengthens the section; with no exact-case header it only strips |
| EntityExtractor.SectionAfter | modules/entity_extractor.py:232-243 | the section after a header is at most 300 characters |
| EntityExtractor.SectionAfterContent | modules/entity_extractor.py:232-243 | the section is the 300-character window from the first occurrence of the header, either whole or cut exactly where another header begins, holding none of the other headers before the cut, with the header removed and the rest trimmed |
| EntityExtractor.FirstHeader | modules/entity_extractor.py:230-231 | the result is the first header, in table order, that occurs in the lower-cased text |
| EntityExtractor.FirstHeaderUnique | modules/entity_extractor.py:230-231 | the header search finds the first table entry occurring in the text, and nothing exactly when no entry occurs |
| EntityExtractor.LongSentence | modules/entity_extractor.py:246-251 | the fallback summary is the first sentence of more than ten words among the first three; none exactly when none of them is long |
| EntityExtractor.ExtractSummary | modules/entity_extractor.py:221-251 | succeeds exactly for `eng` and `ind` (otherwise `KeyError` naming the code); when a header occurs, the summary is the section after the first such header, at most 300 characters; otherwise it is the long-sentence fallback |
| EntityExtractor.CapitalisedHeaderStays | modules/entity_extractor.py:243 | `"Summary: SQL"` keeps its capitalised header, because the removal is case-sensitive while the search is not |
| EntityExtractor.OverallConfidence | modules/entity_extractor.py:253-271 | the four levels 0.5, 0.6, 0.7 and 0.9, each exactly under its condition on name, email, skill count, education and experience |
| EntityExtractor.OverallConfidenceMonotone | modules/entity_extractor.py:253-271 | extracting more never lowers the overall confidence |
| EntityExtractor.PersonalTerms | modules/entity_extractor.py:275-296 | the terms in source order: 1.0 for each of name, matching email and matching phone, then 0.8 for an address; nothing else |
| EntityExtractor.Terms | modules/entity_extractor.py:277-296 | one 1.0 term per present name, email and phone, followed by 0.8 exactly when the address is present |
| EntityExtractor.PersonalConfidence | modules/entity_extractor.py:273-298 | 0 with no fields present; otherwise the average of the terms: with n terms, n times the confidence is n, less 0.2 when an address is present |
| EntityExtractor.AverageOfTerms | modules/entity_extractor.py:298 | the average of such terms lies between 0.8 and 1.0, and reaches 1.0 exactly without an address term |
| EntityExtractor.SectionConfidence | modules/entity_extractor.py:45-47 | 0.85 when the section was found and 0 otherwise |
| EntityExtractor.ExtractEntities | modules/entity_extractor.py:29-50 | succeeds exactly for `eng`, or `ind` with no sentences (otherwise `KeyError`); each section is the result of its extractor, and the confidence scores agree with the extracted sections |
| Validation.NameValidIff | modules/validation.py:54-59 | a name is valid exactly when it is present, has at least three characters and has a non-space character |
| Validation.SplitEmptyIff | modules/validation.py:56 | `split()` is empty exactly when the string is all whitespace |
| Validation.CleanPhone | modules/validation.py:73 | cleaning removes exactly the space, hyphen, parenthesis and dot characters and keeps every other character with its count |
| Validation.ShortPhoneInvalid | modules/validation.py:70-77 | a phone with fewer than seven characters left after cleaning is invalid |
| Validation.ValidatePersonalInfo | modules/validation.py:49-87 | each flag holds exactly under its rule, the fields are kept, and no present fields give all flags false |
| Validation.ValidateEducation | modules/validation.py:89-119 | institution of at least three characters, degree present, dates present; the entry is valid exactly when its institution is |
| Validation.ValidateExperience | modules/validation.py:121-158 | company of at least two characters, title, dates and responsibilities present; the entry is valid exactly when its company is |
| Validation.EducationValidityIsInstitution | modules/validation.py:94-117 | an education entry is valid exactly when its institution has at least three characters |
| Validation.ValidateSkills | modules/validation.py:160-166 | the skills kept are exactly those of at least two characters |
| Validation.ValidateSkillsKeepsOrder | modules/validation.py:166 | filtering distributes over concatenation, so order is kept |
| Validation.ValidateSkillsCounts | modules/validation.py:166 | each kept skill keeps its multiplicity, and short skills are dropped |
| Validation.ValidateSkillsIdempotent | modules/validation.py:160-166 | validating twice is validating once |
| Validation.FlagCount | modules/validation.py:196-200 | the count of valid flags, 4 exactly when all hold and 0 exactly when none does |
| Validation.PersonalScore | modules/validation.py:191-207 | the score is in [0, 1]; it is 1 exactly with all four flags, or with name, email and one more; with name and email the score is 1 with three or more flags and 2/3 otherwise; without both it is the number of flags divided by 4 |
| Validation.EmptyPersonalScore | modules/validation.py:193-194 | missing personal data and no valid field both score 0 |
| Validation.PersonalScoreMonotone | modules/validation.py:191-207 | more valid flags never lower the score |
| Validation.EntriesScore | modules/validation.py:209-229 | 1 exactly when some entry is valid, and 0 exactly when none is |
| Validation.ValidCount | modules/validation.py:215-226 | the number of valid entries, positive exactly when one is valid |
| Validation.EducationScore | modules/validation.py:209-218 | 1 exactly when some education entry is valid, 0 otherwise |
| Validation.ExperienceScore | modules/validation.py:220-229 | 1 exactly when some experience entry is valid, 0 otherwise |
| Validation.SkillsScore | modules/validation.py:231-245 | 1 from five skills, 0.8 for three or four, 0.5 for one or two, and 0 for none |
| Validation.SkillsScoreMonotone | modules/validation.py:231-245 | more skills never lower the score |
| Validation.WeightedInRange | modules/validation.py:168-189 | the 40/20/20/20 weighting of scores in [0, 1] lies in [0, 1], and is 1 exactly when every score is 1 |
| Validation.MapEducation | modules/validation.py:27-28 | every education entry is validated, position by position |
| Validation.MapExperience | modules/validation.py:31-32 | every experience entry is validated, position by position |
| Validation.ValidateExtractedData | modules/validation.py:15-47 | the sections present stay present; each is validated by its validator, entry by entry; other keys are untouched; each section score is that section's scoring rule and the overall score is their weighting, in [0, 1] |
| Utils.MergeDictionaries | modules/utils.py:174-187 | the keys are the union; left-only keys keep their value; right values win unless both are dictionaries, which are merged recursively |
| Utils.MergeEmptyRight | modules/utils.py:174-187 | merging with an empty dictionary gives the left one back |
| Utils.MergeEmptyLeft | modules/utils.py:174-187 | merging into an empty dictionary gives the right one back |
| Utils.MergeShallow | modules/utils.py:180-185 | when no right value is a dictionary, the merge is a plain update |
| Utils.MergeIdempotent | modules/utils.py:174-187 | merging a dictionary with itself gives it back |
| Utils.CollapseSpaces | modules/utils.py:100 | the result is empty exactly when the text is; a text that starts with whitespace starts with one space, one that starts with a word character starts with it; no two spaces are adjacent and only plain spaces remain |
| Utils.CollapseWordThen | modules/utils.py:100 | a run of non-whitespace characters is copied unchanged, whatever follows it |
| Utils.CollapseRunThen | modules/utils.py:100 | a maximal whitespace run, of any length and any whitespace kind, becomes exactly one plain space |
| Utils.CollapseTabExample | modules/utils.py:100 | a tab between two word characters becomes one space, so the words stay apart (`"a\tb"` gives `"a b"`) |
| Utils.CollapseKeepsNonSpaces | modules/utils.py:100 | collapsing whitespace keeps every other character, in order |
| Utils.KeepPrintable | modules/utils.py:103 | only characters in the printable ASCII range, newline, tab or carriage return remain |
| Utils.KeepPrintableAppend | modules/utils.py:103 | the filter works character by character: it distributes over concatenation |
| Utils.KeepPrintableCounts | modules/utils.py:103 | every kept character keeps its count, so nothing printable is lost |
| Utils.NonSpacesOfKept | modules/utils.py:100-103 | the non-space characters of the filtered text are the filtered non-space characters |
| Utils.NewlineRun | modules/utils.py:106 | the length of the leading newline run |
| Utils.CollapseNewlines | modules/utils.py:106 | a text without newlines is unchanged |
| Utils.CollapseNewlinesNoTriple | modules/utils.py:105-106 | the result holds no run of three newlines |
| Utils.CollapseNewlinesKeepsText | modules/utils.py:105-106 | every character other than a newline is kept, in order |
| Utils.CollapseNewlinesKeepsCollapsed | modules/utils.py:105-106 | a text without a run of three newlines is unchanged |
| Utils.CleanupText | modules/utils.py:94-108 | empty or missing text gives `""`; the result is printable and has no leading or trailing space |
| Utils.CleanupKeepsContent | modules/utils.py:94-108 | cleanup changes only whitespace and removes only non-printable characters: the non-space characters of the result are the printable non-space characters of the input, in order |
| Utils.StripKeepsNonSpaces | modules/utils.py:108 | `strip` removes only whitespace |
| Utils.CleanupLeavesDoubleSpace | modules/utils.py:99-103 | removing the non-printable character from `"a \x01 b"` leaves a double space |
| Utils.CleanupNotIdempotent | modules/utils.py:94-108 | cleaning the cleaned text changes it again |
| Utils.CleanupNoLonger | modules/utils.py:94-108 | cleanup never makes a text longer than its space-collapsed form |
| Utils.CleanupTextCorrected | modules/utils.py:94-108 | with the two substitutions in the intended order, the result is printable, trimmed and single-spaced |
| Utils.CollapseKeepsSingleSpaced | modules/utils.py:100 | collapsing an already single-spaced text changes nothing |
| Utils.LastIndex | modules/utils.py:68 | the last position of a character, absent exactly when the character does not occur |
| Utils.Extension | modules/utils.py:68 | `os.path.splitext`: the extension is empty, or one leading dot with no further dot or slash |
| Utils.GetFileExtension | modules/utils.py:66-69 | the extension has no dot or slash and no upper-case letter |
| Utils.ExtensionRoundTrip | modules/utils.py:66-69 | for `stem.ext`, the extension read back is the lower-cased `ext` |
| Utils.SupportedIff | modules/utils.py:72-75 | a file is supported exactly when its lower-cased extension is listed |
| Utils.DotFileHasNoExtension | modules/utils.py:66-69 | a hidden file such as `dir/.profile` has no extension |
| Utils.LanguageNames | modules/utils.py:160-169 | a translation exists exactly for interface and language codes among `eng` and `ind` |
| Utils.TranslateLanguageName | modules/utils.py:158-171 | the translated name, or the code itself when there is no translation |
| Utils.TranslateUnchangedIff | modules/utils.py:158-171 | the code comes back unchanged exactly when there is no translation for it |
| Exporter.JoinValue | modules/exporter.py:148 | `', '.join` succeeds exactly on a list of strings, giving their comma join; on `None` it raises `TypeError` |
| Exporter.JoinDates | modules/exporter.py:167-174 | missing dates join to `""`; a list of strings joins with commas; `None` raises `TypeError` |
| Exporter.OrderIsRanked | modules/exporter.py:130-181 | the column order is the order of the assignments, and it holds every column |
| Exporter.CellsIn | modules/exporter.py:126-183 | a column appears exactly when its cell is set, with that cell's value, in column order |
| Exporter.Cells | modules/exporter.py:126-183 | the row holds exactly the set columns, with their values, in insertion order |
| Exporter.FirstEntry | modules/exporter.py:163-171 | the first entry exists exactly when the key is present and the list is non-empty |
| Exporter.JoinedList | modules/exporter.py:147-156 | a list column is set exactly when its key is present, and holds the comma join; non-string items raise `TypeError` |
| Exporter.FirstEntryCells | modules/exporter.py:162-174 | the entry columns are set exactly when there is a first entry, with its `.get` values and joined dates |
| Exporter.LanguageName | modules/exporter.py:135 | `English` exactly for code `eng`, and `Bahasa Indonesia` for anything else |
| Exporter.FilenameCell | modules/exporter.py:131-132 | the filename column is set exactly when the key is present |
| Exporter.LanguageOf | modules/exporter.py:134-136 | the language columns are set exactly when `language` is present; the confidence defaults to `""` |
| Exporter.PersonalOf | modules/exporter.py:139-144 | the personal columns are set exactly when `personal_info` is present, each defaulting to `""` |
| Exporter.SummaryOf | modules/exporter.py:159-160 | the summary column is set exactly when the key is present |
| Exporter.ConfidenceOf | modules/exporter.py:177-181 | the confidence columns are set exactly when `confidence_scores` is present, each defaulting to `""` |
| Exporter.Flatten | modules/exporter.py:126-183 | flattening fails, with `TypeError`, exactly when a join meets a non-string; otherwise every section of the row is as stated by its helper |
| Exporter.FlattenColumnsGated | modules/exporter.py:126-183 | a column is in the row exactly when the key that guards it is present |
| Exporter.FlattenFirstEntryOnly | modules/exporter.py:162-174 | only the first education or experience entry matters: replacing the others leaves the row unchanged |
| Exporter.FlattenConfidenceOnlyThree | modules/exporter.py:177-181 | only `overall`, `personal_info` and `skills` of the scores reach the row |
| Exporter.FlattenFailsOnNoneDates | modules/exporter.py:167-174 | a first entry whose dates are `None` makes flattening raise `TypeError` |
| Exporter.ParseFormat | modules/exporter.py:22-29 | `json`, `csv` and `xlsx` are accepted regardless of case; anything else raises `ValueError` naming the format |
| Exporter.ParseFormatIgnoresCase | modules/exporter.py:22-29 | formats that agree when lower-cased dispatch alike |
| Exporter.UpperCaseCsv | modules/exporter.py:24 | `CSV` selects the CSV exporter |
| Exporter.SheetList | modules/exporter.py:76-90 | a detail sheet lists the section's entries, or nothing when the key is missing |
| Exporter.Deliver | modules/exporter.py:33-124 | a non-empty output path means written to that path; otherwise the content is returned |
| Exporter.ExportResults | modules/exporter.py:20-124 | an unknown format fails exactly as above; JSON returns or writes the data unchanged; CSV and Excel succeed exactly when flattening does, and carry the flattened row |
| Exporter.FlattenAll | modules/exporter.py:311-323 | every result is flattened, in order; this fails exactly when one of them fails |
| Exporter.AllSkills | modules/exporter.py:330-333 | a skill is in the union exactly when some result lists it |
| Exporter.CountWith | modules/exporter.py:338-341 | a count never exceeds the number of results |
| Exporter.CountWithPositive | modules/exporter.py:330-342 | a skill is counted at least once exactly when it is in the union |
| Exporter.CountWithAppend | modules/exporter.py:338-341 | counts over two batches of results add up |
| Exporter.SkillCounts | modules/exporter.py:336-342 | the frequency table has exactly the union's skills, each with the number of results that list it |
| Exporter.RowsOf | modules/exporter.py:350-380 | one row per entry; this fails with `KeyError` when `personal_info` is missing and there are entries, and with `TypeError` when some dates are `None` |
| Exporter.EntriesOf | modules/exporter.py:351-372 | the section's entries, or none when it is missing |
| Exporter.EntryRows | modules/exporter.py:348-380 | the rows of all results, one per entry, succeeding exactly when every result's rows do |
| Exporter.EntryRowsAppend | modules/exporter.py:348-380 | result order is kept: the rows of two lists of results are those of the first followed by those of the second, and the first failing result decides the error |
| Exporter.EntryRowsOne | modules/exporter.py:350-360 | one result gives the rows of its own entries, under its file name or `Unknown` |
| Exporter.EntrySheets | modules/exporter.py:348-380 | the detail sheets succeed exactly when every result's education and experience rows do, with one row per entry; the summary rows are kept, the skill table is the frequency table and the detail sheets are the entry rows |
| Exporter.BulkExcel | modules/exporter.py:325-386 | the workbook is written exactly when some result lists a skill and every flattening and entry row succeeds; with no skills at all, building the frequency sheet raises `KeyError`; the written skill table is the frequency table and the detail sheets are the entry rows |
| Exporter.ExportBulkResults | modules/exporter.py:290-386 | an unknown format fails; JSON keeps the results; CSV flattens every result and fails exactly when a flattening fails; Excel also fails when an entry row fails or no result lists a skill, and otherwise writes the frequency table and the entry rows |
| Exporter.DatesValue | modules/entity_extractor.py:150 | extracted dates become a list of strings, or `None` when there are none |
| Exporter.EducationValue | modules/entity_extractor.py:146-151 | the dictionary form of an education entry carries its dates |
| Exporter.EducationListValue | modules/entity_extractor.py:140-153 | the list form of the entries, entry by entry |
| Exporter.ExperienceValue | modules/entity_extractor.py:174-179 | the dictionary form of an experience entry carries its dates |
| Exporter.ExperienceListValue | modules/entity_extractor.py:168-181 | the list form of the entries, entry by entry |
| Exporter.UndatedEducationSentence | modules/entity_extractor.py:139-151 | a first sentence with an education keyword and an ORG but no DATE gives a first entry whose dates are `None` |
| Exporter.UndatedEducationBreaksExport | modules/exporter.py:162-167 | exporting such extracted education to CSV or Excel raises `TypeError` |
| Exporter.UndatedExperienceBreaksExport | modules/exporter.py:169-174 | the same for work experience |

## Left out

- The contents of written files are not modelled: no CSV text, Excel bytes or JSON text. Timestamped default file names, `open` and logging are not modelled either. An export returns or "writes" a content value.
- `export_annotated_pdf` (`modules/exporter.py:185-288`) is not modelled. It drives a PDF library.
- The column set and order of a multi-row CSV is not modelled. pandas takes the union of keys across rows. Each row is modelled, in order.
- The sort of the `Skills_Frequency` sheet by count is not modelled. The model states the counts, as a map. The `KeyError` that sorting an empty frame raises is modelled.
- Exporter.Flatten: its requires says values have the shapes the extractor produces (`extracted_info` and its sections are dictionaries and lists). Values of other shapes (a string where a list is expected, and so on) are not modelled.
- Json values do not keep dictionary key order. The export column order is modelled explicitly instead.
- The date `finditer` stage, the email and phone regexes, the fuzzy scorer (`rapidfuzz`) and the clock are function parameters. Their behaviour is assumed, not modelled.
- `lower()` is ASCII-only. `\b`, `\w` and `\d` are approximated by their ASCII classes. `\s` is the full `str.isspace` set.
- Scores are exact reals. IEEE rounding of the averages and weights is not modelled: EntityExtractor.PersonalConfidence is `14/15` where Python gives `0.9333333333333332`, and Validation.PersonalScore is `2/3` where Python gives `0.6666666666666666`. The same holds for the other section scores and the weighted overall score.
- Python set iteration order is not modelled: extracted skills, languages and certifications are Dafny sets. The skill dictionary is a sequence whose order is a parameter.
- spaCy is not modelled. The document is given as its text, its entities and its sentences with their entities and tokens.
- File paths use POSIX separators only.
- `detect_image_orientation`, `setup_logging`, `load_config`, `create_temp_directory`, `generate_file_hash` and `get_memory_usage` (`modules/utils.py`) are not modelled. They do image processing, I/O and process inspection.
- OCR, language detection, the NLP pipeline, the command-line interface and the web UI are not part of this model.
- DateNormalizer.ExtractDateRange: its contract only states the empty-text case. The non-empty case is stated by RangeOf over the spans ExtractDates finds.
- EntityExtractor.SectionAfter: its own contract states only the 300-character bound. The content of the section is stated by SectionAfterContent.
- Utils.MergeDictionaries: it states the nested key union, not the nested values. Those follow by the same rule one level down, as MergeIdempotent uses.
- DateNormalizer.NumericPath: its own contract states only the bounds. Which slash field is the month, for `eng` and for other codes, is stated by NumericPathOfSlash and ParseSlashShaped; the ISO reading by NumericPathOfIso.
- SkillsMatcher.PhraseMatch: it models the intended three-name unpacking, so a scoring phrase yields a match (both directions are in its contract). The code as written raises `ValueError` there; that is ExtractSkillsAsWritten (see Findings).
- SkillsMatcher.FuzzyMatches: the same; every scoring phrase contributes a match, where the code as written raises `ValueError`. Its own contract states membership; phrase order is stated by FuzzyMatchesAppend and FuzzyMatchesOne.
- SkillsMatcher.ExtractSkills: the corrected definition; it always gives a list. The `ValueError` of the code as written is stated by ExtractSkillsAsWritten.
- SkillsMatcher.SoftOf: its own contract states membership. Order is stated by SplitDistributes and SplitOne, multiplicity by SelectPartition.
- SkillsMatcher.HardOf: the same; order by SplitDistributes and SplitOne, multiplicity by SelectPartition.
- EntityExtractor.TextsWith: its own contract states membership. Document order is stated by TextsWithAppend and TextsWithOne.
- EntityExtractor.EducationEntries: its own contract states membership and the count bound. Sentence order is stated by EducationEntriesAppend.
- EntityExtractor.ExperienceEntries: the same; sentence order is stated by ExperienceEntriesAppend.
- EntityExtractor.CutAtOtherHeaders: its own contract states that the result is a prefix free of other headers. That it is kept whole without other headers, and otherwise cut where one begins, is stated by CutKeepsWithoutOthers and CutAtHeaderStart. Which of several headers cuts first is not stated.
- Utils.CollapseSpaces: its own contract states the shape of the result. That it is `re.sub(r'\s+', ' ', s)` exactly is stated by CollapseWordThen (a word is copied), CollapseRunThen (a maximal whitespace run becomes one space) and CollapseKeepsNonSpaces (every other character is kept, in order). Together they fix the result for every input.
- Utils.KeepPrintable: its own contract states what remains. That every printable character is kept with its count, and in order, is stated by KeepPrintableCounts and KeepPrintableAppend.
- Utils.CleanupText: its own contract states the shape. The content kept is stated by CleanupKeepsContent.
- Utils.CollapseNewlines: its own contract states only the newline-free case. The collapse is stated by CollapseNewlinesNoTriple, CollapseNewlinesKeepsText and CollapseNewlinesKeepsCollapsed; that a run of three or more newlines becomes exactly two is not stated.
- DateNormalizer.SpansOfMatches: its own contract states membership. Match order is stated by SpansOfMatchesAppend and SpansOfMatchesOne.
- DateNormalizer.SpansOfPatterns: the same; pattern order is stated by SpansOfPatternsAppend and SpansOfPatternsOne.
- DateNormalizer.ExtractDates: its own contract states membership. The order of the dates is stated by ExtractDatesInOrder.
- Exporter.EntryRows: its own contract states success and the row count. Result order is stated by EntryRowsAppend, the rows of one result by EntryRowsOne.

## Findings

| source | as written | input that shows it | evidently intended | confidence | as-written member | corrected member |
|---|---|---|---|---|---|---|
| modules/utils.py:99-103 | whitespace runs are collapsed before non-printable characters are removed, so removing a character between two spaces leaves a double space | `"a \x01 b"` gives `"a  b"` | whitespace runs are collapsed in the final text, so the result is single-spaced | not executed | Utils.CleanupLeavesDoubleSpace | Utils.CleanupTextCorrected |
| modules/skills_matcher.py:89-98 | the (choice, score, index) triple from `process.extract` is unpacked into two names, which raises `ValueError` on every fuzzy hit | text `"python"` with `python` in the English dictionary and a scorer giving 100 | `skill, score, _ = matches[0]` | not executed | SkillsMatcher.ExtractSkillsAsWritten | SkillsMatcher.ExtractSkills |

=== FILE: date_normalizer.dfy ===
/**
 * The date normaliser of the CV analyser (modules/date_normalizer.py):
 * single date expressions are normalised to `YYYY-MM-DD`, and the matches
 * found in a text are assembled into a start/end range.
 *
 * The regex engine's `finditer` over the per-language format list is an
 * oracle (`finder`); the small regexes that `normalize_date` itself runs are
 * written out as recognisers below. The clock is the `today` argument: the
 * already formatted `datetime.now().strftime('%Y-%m-%d')`.
 */
module DateNormalizer {
  import opened Wrappers
  import opened Text

  // ---------------------------------------------------------------------------
  // Per-language tables
  // ---------------------------------------------------------------------------

  /** The two language tables the normaliser knows. */
  datatype Locale = English | Indonesian

  /** `dict.get(lang_code, <English entry>)`: every code other than `ind`
      reads the English tables. */
  function LocaleFor(code: string): (l: Locale)
    ensures l == Indonesian <==> code == "ind"
  {
    if code == "ind" then Indonesian else English
  }

  /** The regex categories of a format list, in the order they are tried. */
  datatype PatternKind =
    | MonthDayYear   // `<month>[,.\s]+(\d{1,2})[,.\s]+(\d{4})`
    | DayMonthYear   // `(\d{1,2})[,.\s]+<month>[,.\s]+(\d{4})`
    | NumericDmy     // `(\d{1,2})[/\-](\d{1,2})[/\-](\d{4})`
    | NumericYmd     // `(\d{4})[/\-](\d{1,2})[/\-](\d{1,2})`
    | Year20         // `\b(20\d{2})\b`
    | Year19         // `\b(19\d{2})\b`
    | PresentWord    // `(?:Present|Current|Now)` / `(?:Sekarang|Saat ini)`

  /** One regex of a language's format list. */
  datatype DatePattern = DatePattern(locale: Locale, kind: PatternKind)

  /** The format list for a language code. */
  function Formats(code: string): (ps: seq<DatePattern>)
    ensures |ps| == 7
    ensures forall i :: 0 <= i < |ps| ==> ps[i].locale == LocaleFor(code)
    ensures ps[0].kind == MonthDayYear && ps[1].kind == DayMonthYear
    ensures ps[2].kind == NumericDmy && ps[3].kind == NumericYmd
    ensures ps[4].kind == Year20 && ps[5].kind == Year19 && ps[6].kind == PresentWord
  {
    var l := LocaleFor(code);
    [ DatePattern(l, MonthDayYear), DatePattern(l, DayMonthYear), DatePattern(l, NumericDmy),
      DatePattern(l, NumericYmd), DatePattern(l, Year20), DatePattern(l, Year19),
      DatePattern(l, PresentWord) ]
  }

  /** Month names in the table's iteration order, with their numbers. */
  function MonthNames(l: Locale): seq<(string, nat)> {
    match l
    case English =>
      [ ("jan", 1), ("january", 1), ("feb", 2), ("february", 2), ("mar", 3), ("march", 3),
        ("apr", 4), ("april", 4), ("may", 5), ("jun", 6), ("june", 6), ("jul", 7),
        ("july", 7), ("aug", 8), ("august", 8), ("sep", 9), ("september", 9),
        ("oct", 10), ("october", 10), ("nov", 11), ("november", 11), ("dec", 12),
        ("december", 12) ]
    case Indonesian =>
      [ ("januari", 1), ("februari", 2), ("maret", 3), ("april", 4), ("mei", 5),
        ("juni", 6), ("juli", 7), ("agustus", 8), ("september", 9), ("oktober", 10),
        ("november", 11), ("desember", 12) ]
  }

  /** Words that mark an ongoing period ("until now"). */
  function PresentWords(l: Locale): seq<string> {
    match l
    case English => ["present", "current", "now", "ongoing"]
    case Indonesian => ["sekarang", "saat ini", "hingga kini", "sampai sekarang"]
  }

  /** `is_present_indicator`: some present word of the language occurs in
      the lower-cased text. */
  predicate IsPresentIndicator(text: string, code: string) {
    ContainsAny(Lower(text), PresentWords(LocaleFor(code)))
  }

  // ---------------------------------------------------------------------------
  // Recognisers for the regexes `normalize_date` searches with
  // ---------------------------------------------------------------------------

  /** `s[i..i+n]` exists and is made of digits. */
  predicate DigitsAt(s: string, i: nat, n: nat) {
    i + n <= |s| && AllDigits(s[i..i + n])
  }

  /** The separator class `[/\-]`. */
  predicate SepAt(s: string, i: nat) {
    i < |s| && (s[i] == '/' || s[i] == '-')
  }

  /** `\b(19|20)\d{2}\b` matches at offset `i`. */
  predicate YearAt(s: string, i: nat) {
    && i + 4 <= |s|
    && WordBoundary(s, i)
    && (s[i..i + 2] == "19" || s[i..i + 2] == "20")
    && IsDigit(s[i + 2]) && IsDigit(s[i + 3])
    && WordBoundary(s, i + 4)
  }

  /** No year token starts before offset `i`. */
  predicate FirstYearAt(s: string, i: nat) {
    forall j: nat :: j < i ==> !YearAt(s, j)
  }

  /** `re.search(r'\b(19|20)\d{2}\b', s).group(0)`. */
  function FindYear(s: string): (r: Option<string>)
    ensures r.Some? ==> |r.value| == 4 && AllDigits(r.value)
    ensures r.Some? ==> exists i: nat :: YearAt(s, i) && r.value == s[i..i + 4] && FirstYearAt(s, i)
    ensures r.None? ==> forall i: nat :: !YearAt(s, i)
  {
    var at := (i: nat) => YearAt(s, i);
    match FirstFrom(at, 0, |s|)
    case Some(i) =>
      assert at(i) && YearAt(s, i);
      assert FirstYearAt(s, i) by {
        forall j: nat | j < i ensures !YearAt(s, j) { assert !at(j); }
      }
      var y := s[i..i + 4];
      var century := s[i..i + 2];
      assert century == "19" || century == "20";
      assert IsDigit(century[0]) && IsDigit(century[1]);
      assert y[0] == century[0] && y[1] == century[1] && y[2] == s[i + 2] && y[3] == s[i + 3];
      Some(y)
    case None =>
      assert forall i: nat :: !YearAt(s, i) by {
        forall i: nat ensures !YearAt(s, i) {
          if i <= |s| { assert !at(i); }
        }
      }
      None
  }

  /** The length of the match of `\b(\d{1,2})\b` at offset `i` (greedy: two
      digits are tried before one), or 0 when it does not match there. */
  function DayLengthAt(s: string, i: nat): (n: nat)
    ensures n <= 2
    ensures n > 0 ==> DigitsAt(s, i, n)
  {
    if i > |s| || !WordBoundary(s, i) then 0
    else if DigitsAt(s, i, 2) && WordBoundary(s, i + 2) then 2
    else if DigitsAt(s, i, 1) && WordBoundary(s, i + 1) then 1
    else 0
  }

  /** No day token starts before offset `i`. */
  predicate FirstDayAt(s: string, i: nat) {
    forall j: nat :: j < i ==> DayLengthAt(s, j) == 0
  }

  /** `re.search(r'\b(\d{1,2})\b', s).group(0)`: the token at the leftmost
      offset where the pattern matches. */
  function FindDay(s: string): (r: Option<string>)
    ensures r.Some? ==> 0 < |r.value| <= 2 && AllDigits(r.value)
    ensures r.Some? ==> exists i: nat :: DayLengthAt(s, i) > 0 && r.value == s[i..i + DayLengthAt(s, i)] && FirstDayAt(s, i)
    ensures r.None? ==> forall i: nat :: DayLengthAt(s, i) == 0
  {
    var at := (i: nat) => DayLengthAt(s, i) > 0;
    match FirstFrom(at, 0, |s|)
    case Some(i) =>
      assert FirstDayAt(s, i) by {
        forall j: nat | j < i ensures DayLengthAt(s, j) == 0 { assert !at(j); }
      }
      Some(s[i..i + DayLengthAt(s, i)])
    case None =>
      assert forall i: nat :: DayLengthAt(s, i) == 0 by {
        forall i: nat ensures DayLengthAt(s, i) == 0 {
          if i <= |s| { assert !at(i); }
        }
      }
      None
  }

  /** The three groups of a numeric date match. */
  datatype Groups = Groups(first: string, second: string, third: string)

  predicate GroupsAreDigits(g: Groups) {
    AllDigits(g.first) && AllDigits(g.second) && AllDigits(g.third)
  }

  /** A numeric date at offset `i` with group widths `a`, `b`, `c` and a
      separator after the first two groups. */
  function NumericWith(s: string, i: nat, a: nat, b: nat, c: nat): (r: Option<Groups>)
    ensures r.Some? ==> GroupsAreDigits(r.value)
    ensures r.Some? ==> |r.value.first| == a && |r.value.second| == b && |r.value.third| == c
  {
    if DigitsAt(s, i, a) && SepAt(s, i + a) && DigitsAt(s, i + a + 1, b)
       && SepAt(s, i + a + 1 + b) && DigitsAt(s, i + a + b + 2, c)
    then Some(Groups(s[i..i + a], s[i + a + 1..i + a + 1 + b], s[i + a + b + 2..i + a + b + 2 + c]))
    else None
  }

  function OrElse(x: Option<Groups>, y: Option<Groups>): Option<Groups> {
    if x.Some? then x else y
  }

  /** `(\d{1,2})[/\-](\d{1,2})[/\-](\d{4})` at offset `i`, with the regex
      engine's backtracking order (wider groups first). */
  function SlashAt(s: string, i: nat): (r: Option<Groups>)
    ensures r.Some? ==> GroupsAreDigits(r.value)
    ensures r.Some? ==> 1 <= |r.value.first| <= 2 && 1 <= |r.value.second| <= 2 && |r.value.third| == 4
  {
    OrElse(NumericWith(s, i, 2, 2, 4), OrElse(NumericWith(s, i, 2, 1, 4),
      OrElse(NumericWith(s, i, 1, 2, 4), NumericWith(s, i, 1, 1, 4))))
  }

  /** `(\d{4})[/\-](\d{1,2})[/\-](\d{1,2})` at offset `i`. */
  function IsoAt(s: string, i: nat): (r: Option<Groups>)
    ensures r.Some? ==> GroupsAreDigits(r.value)
    ensures r.Some? ==> |r.value.first| == 4 && 1 <= |r.value.second| <= 2 && 1 <= |r.value.third| <= 2
  {
    OrElse(NumericWith(s, i, 4, 2, 2), OrElse(NumericWith(s, i, 4, 2, 1),
      OrElse(NumericWith(s, i, 4, 1, 2), NumericWith(s, i, 4, 1, 1))))
  }

  /** `re.search` of the slash pattern: the match at the least offset. */
  function FindSlash(s: string): (r: Option<Groups>)
    ensures r.Some? ==> GroupsAreDigits(r.value)
    ensures r.Some? ==> 1 <= |r.value.first| <= 2 && 1 <= |r.value.second| <= 2 && |r.value.third| == 4
    ensures r.Some? ==> exists i: nat :: r == SlashAt(s, i) && forall j: nat :: j < i ==> SlashAt(s, j).None?
    ensures r.None? ==> forall i: nat :: SlashAt(s, i).None?
  {
    var at := (i: nat) => SlashAt(s, i).Some?;
    match FirstFrom(at, 0, |s|)
    case Some(i) =>
      assert forall j: nat :: j < i ==> SlashAt(s, j).None? by {
        forall j: nat | j < i ensures SlashAt(s, j).None? { assert !at(j); }
      }
      SlashAt(s, i)
    case None =>
      assert forall i: nat :: SlashAt(s, i).None? by {
        forall i: nat ensures SlashAt(s, i).None? {
          if i <= |s| { assert !at(i); }
        }
      }
      None
  }

  /** `re.search` of the year-first pattern: the match at the least offset. */
  function FindIso(s: string): (r: Option<Groups>)
    ensures r.Some? ==> GroupsAreDigits(r.value)
    ensures r.Some? ==> |r.value.first| == 4 && 1 <= |r.value.second| <= 2 && 1 <= |r.value.third| <= 2
    ensures r.Some? ==> exists i: nat :: r == IsoAt(s, i) && forall j: nat :: j < i ==> IsoAt(s, j).None?
    ensures r.None? ==> forall i: nat :: IsoAt(s, i).None?
  {
    var at := (i: nat) => IsoAt(s, i).Some?;
    match FirstFrom(at, 0, |s|)
    case Some(i) =>
      assert forall j: nat :: j < i ==> IsoAt(s, j).None? by {
        forall j: nat | j < i ensures IsoAt(s, j).None? { assert !at(j); }
      }
      IsoAt(s, i)
    case None =>
      assert forall i: nat :: IsoAt(s, i).None? by {
        forall i: nat ensures IsoAt(s, i).None? {
          if i <= |s| { assert !at(i); }
        }
      }
      None
  }

  // ---------------------------------------------------------------------------
  // normalize_date
  // ---------------------------------------------------------------------------

  /** A normalised date before formatting: the clock's date, or a year
      string with month and day numbers. */
  datatype DateValue = Today | Ymd(year: string, month: nat, day: nat)

  /** The shape every non-clock value has: a four-digit year, month at most
      12 and day at most 28. */
  predicate WellShaped(v: DateValue) {
    v.Ymd? ==> |v.year| == 4 && AllDigits(v.year) && v.month <= 12 && v.day <= 28
  }

  /** The day a month-name date carries: its first one- or two-digit
      number, or 1 when it has none. */
  function DayOf(text: string): nat {
    match FindDay(text)
    case Some(d) => NumberOf(d)
    case None => 1
  }

  /** The month-name loop: the first table entry that occurs in the
      lower-cased text, provided the text holds a 19xx/20xx year. A missing
      day defaults to 1 and a larger day is capped at 28. */
  function MonthPath(text: string, table: seq<(string, nat)>): (r: Option<DateValue>)
    ensures r.Some? ==> r.value.Ymd? && r.value.day <= 28
    ensures r.Some? ==> FindYear(text) == Some(r.value.year)
    ensures r.Some? ==> exists i :: 0 <= i < |table| && r.value.month == table[i].1
  {
    if table == [] then None
    else if Contains(Lower(text), table[0].0) && FindYear(text).Some? then
      Some(Ymd(FindYear(text).value, table[0].1, Min(DayOf(text), 28)))
    else
      var r := MonthPath(text, table[1..]);
      assert r.Some? ==> exists i :: 1 <= i < |table| && r.value.month == table[i].1;
      r
  }

  /** `normalize_date` without the final formatting: the present check
      first, then the bare year, the month-name table, the slash pattern
      (month first for `eng` only) and the year-first pattern. */
  function ParseDate(text: string, code: string): (r: Option<DateValue>)
    ensures r.Some? ==> WellShaped(r.value)
    ensures IsPresentIndicator(text, code) <==> r == Some(Today)
  {
    if IsPresentIndicator(text, code) then Some(Today)
    else if FindYear(text).Some? && |Strip(text)| <= 5 then Some(Ymd(FindYear(text).value, 1, 1))
    else
      var byName := MonthPath(text, MonthNames(LocaleFor(code)));
      if byName.Some? then
        MonthNumbersInRange(LocaleFor(code));
        byName
      else NumericPath(text, code)
  }

  /** Every month number of either table lies in 1..12. */
  lemma MonthNumbersInRange(l: Locale)
    ensures forall i :: 0 <= i < |MonthNames(l)| ==> 1 <= MonthNames(l)[i].1 <= 12
  {
  }

  /** The two numeric paths of `normalize_date`: `A/B/YYYY` read month
      first for `eng` and day first for every other code, then `YYYY/M/D`;
      the month is capped at 12 and the day at 28. */
  function NumericPath(text: string, code: string): (r: Option<DateValue>)
    ensures r.Some? ==> r.value.Ymd? && WellShaped(r.value)
  {
    match FindSlash(text)
    case Some(g) =>
      if code == "eng" then Some(Ymd(g.third, Min(NumberOf(g.first), 12), Min(NumberOf(g.second), 28)))
      else Some(Ymd(g.third, Min(NumberOf(g.second), 12), Min(NumberOf(g.first), 28)))
    case None =>
      match FindIso(text)
      case Some(g) => Some(Ymd(g.first, Min(NumberOf(g.second), 12), Min(NumberOf(g.third), 28)))
      case None => None
  }

  function DigitChar(d: nat): (c: char)
    requires d < 10
    ensures IsDigit(c) && DigitValue(c) == d
  {
    ('0' as int + d) as char
  }

  /** `f"{n:02d}"` for `n < 100`. */
  function Pad2(n: nat): (s: string)
    requires n < 100
    ensures |s| == 2 && AllDigits(s) && NumberOf(s) == n
  {
    var s := [DigitChar(n / 10), DigitChar(n % 10)];
    assert s[..1] == [DigitChar(n / 10)];
    s
  }

  /** The ISO text of a value: `today` for the clock, else
      `f"{year}-{month:02d}-{day:02d}"`. */
  function Render(v: DateValue, today: string): (s: string)
    requires WellShaped(v)
    ensures v.Ymd? ==> |s| == 10 && s[4] == '-' && s[7] == '-'
    ensures v.Ymd? ==> s[..4] == v.year
    ensures v.Ymd? ==> AllDigits(s[5..7]) && NumberOf(s[5..7]) == v.month
    ensures v.Ymd? ==> AllDigits(s[8..10]) && NumberOf(s[8..10]) == v.day
  {
    match v
    case Today => today
    case Ymd(y, m, d) =>
      var a := y + "-";
      var b := a + Pad2(m);
      var c := b + "-";
      var s := c + Pad2(d);
      assert |a| == 5 && |b| == 7 && |c| == 8;
      assert s[..4] == y;
      assert s[5..7] == b[5..7] == Pad2(m);
      assert s[8..10] == Pad2(d);
      s
  }

  /** `normalize_date(date_text, lang_code)`. */
  function NormalizeDate(text: string, code: string, today: string): (r: Option<string>)
    ensures IsPresentIndicator(text, code) ==> r == Some(today)
    ensures ParseDate(text, code).None? <==> r.None?
  {
    match ParseDate(text, code)
    case Some(v) => Some(Render(v, today))
    case None => None
  }

  // ---------------------------------------------------------------------------
  // extract_dates
  // ---------------------------------------------------------------------------

  /** One regex match: the matched text and its `span()`. */
  datatype RawMatch = RawMatch(text: string, start: nat, end: nat)

  /** One recognised date of a text. */
  datatype DateSpan = DateSpan(original: string, normalized: string, isPresent: bool, start: nat, end: nat)

  /** The span a match yields, when its normalisation is a non-empty string
      (`if normalized:`). */
  function SpanOf(m: RawMatch, code: string, today: string): (r: Option<DateSpan>)
    ensures r.Some? ==> r.value.normalized != "" && NormalizeDate(m.text, code, today) == Some(r.value.normalized)
    ensures r.None? <==> NormalizeDate(m.text, code, today) in {None, Some("")}
    ensures r.Some? ==> && r.value.original == m.text
                        && r.value.isPresent == IsPresentIndicator(m.text, code)
                        && r.value.start == m.start && r.value.end == m.end
  {
    match NormalizeDate(m.text, code, today)
    case Some(n) =>
      if n != "" then Some(DateSpan(m.text, n, IsPresentIndicator(m.text, code), m.start, m.end)) else None
    case None => None
  }

  /** What one match adds to the list of dates. */
  function SpanHead(m: RawMatch, code: string, today: string): seq<DateSpan> {
    match SpanOf(m, code, today) case Some(s) => [s] case None => []
  }

  /** The loop over one pattern's matches. */
  function SpansRun(ms: seq<RawMatch>, code: string, today: string): seq<DateSpan> {
    if ms == [] then [] else SpanHead(ms[0], code, today) + SpansRun(ms[1..], code, today)
  }

  lemma {:induction false} SpansRunMembers(ms: seq<RawMatch>, code: string, today: string)
    ensures forall s :: s in SpansRun(ms, code, today) ==> exists m :: m in ms && SpanOf(m, code, today) == Some(s)
    ensures forall m :: m in ms && SpanOf(m, code, today).Some? ==> SpanOf(m, code, today).value in SpansRun(ms, code, today)
    decreases |ms|
  {
    if ms != [] {
      SpansRunMembers(ms[1..], code, today);
      assert forall m :: m in ms <==> m == ms[0] || m in ms[1..] by {
        assert ms == [ms[0]] + ms[1..];
      }
    }
  }

  lemma {:induction false} SpansRunAppend(a: seq<RawMatch>, b: seq<RawMatch>, code: string, today: string)
    ensures SpansRun(a + b, code, today) == SpansRun(a, code, today) + SpansRun(b, code, today)
    decreases |a|
  {
    if a == [] {
      assert a + b == b;
    } else {
      var head := SpanHead(a[0], code, today);
      assert (a + b)[0] == a[0] && (a + b)[1..] == a[1..] + b;
      SpansRunAppend(a[1..], b, code, today);
      calc {
        SpansRun(a + b, code, today);
        head + SpansRun(a[1..] + b, code, today);
        head + (SpansRun(a[1..], code, today) + SpansRun(b, code, today));
        (head + SpansRun(a[1..], code, today)) + SpansRun(b, code, today);
      }
    }
  }

  /** The spans of one pattern's matches, in match order. */
  function SpansOfMatches(ms: seq<RawMatch>, code: string, today: string): (r: seq<DateSpan>)
    ensures forall s :: s in r ==> exists m :: m in ms && SpanOf(m, code, today) == Some(s)
    ensures forall m :: m in ms && SpanOf(m, code, today).Some? ==> SpanOf(m, code, today).value in r
  {
    SpansRunMembers(ms, code, today);
    SpansRun(ms, code, today)
  }

  /** Match order is kept: the spans of two runs of matches are those of
      the first run followed by those of the second. */
  lemma SpansOfMatchesAppend(a: seq<RawMatch>, b: seq<RawMatch>, code: string, today: string)
    ensures SpansOfMatches(a + b, code, today) == SpansOfMatches(a, code, today) + SpansOfMatches(b, code, today)
  {
    SpansRunAppend(a, b, code, today);
  }

  /** One match yields exactly its own span, or nothing. */
  lemma SpansOfMatchesOne(m: RawMatch, code: string, today: string)
    ensures SpansOfMatches([m], code, today) == match SpanOf(m, code, today) case Some(s) => [s] case None => []
  {
    assert [m][1..] == [];
    assert SpansRun([m], code, today) == SpanHead(m, code, today) + [];
  }

  /** The loop over the patterns. */
  function PatternsRun(ps: seq<DatePattern>, text: string, code: string, today: string,
                       finder: (DatePattern, string) -> seq<RawMatch>): seq<DateSpan>
  {
    if ps == [] then []
    else SpansOfMatches(finder(ps[0], text), code, today) + PatternsRun(ps[1..], text, code, today, finder)
  }

  lemma {:induction false} PatternsRunMembers(ps: seq<DatePattern>, text: string, code: string, today: string,
                                              finder: (DatePattern, string) -> seq<RawMatch>)
    ensures forall s :: s in PatternsRun(ps, text, code, today, finder) ==>
      exists p, m :: p in ps && m in finder(p, text) && SpanOf(m, code, today) == Some(s)
    ensures forall p, m :: p in ps && m in finder(p, text) && SpanOf(m, code, today).Some? ==>
      SpanOf(m, code, today).value in PatternsRun(ps, text, code, today, finder)
    decreases |ps|
  {
    if ps != [] {
      PatternsRunMembers(ps[1..], text, code, today, finder);
      assert forall p :: p in ps <==> p == ps[0] || p in ps[1..] by {
        assert ps == [ps[0]] + ps[1..];
      }
    }
  }

  lemma {:induction false} PatternsRunAppend(a: seq<DatePattern>, b: seq<DatePattern>, text: string, code: string,
                                             today: string, finder: (DatePattern, string) -> seq<RawMatch>)
    ensures PatternsRun(a + b, text, code, today, finder)
         == PatternsRun(a, text, code, today, finder) + PatternsRun(b, text, code, today, finder)
    decreases |a|
  {
    if a == [] {
      assert a + b == b;
    } else {
      var head := SpansOfMatches(finder(a[0], text), code, today);
      assert (a + b)[0] == a[0] && (a + b)[1..] == a[1..] + b;
      PatternsRunAppend(a[1..], b, text, code, today, finder);
      calc {
        PatternsRun(a + b, text, code, today, finder);
        head + PatternsRun(a[1..] + b, text, code, today, finder);
        head + (PatternsRun(a[1..], text, code, today, finder) + PatternsRun(b, text, code, today, finder));
        (head + PatternsRun(a[1..], text, code, today, finder)) + PatternsRun(b, text, code, today, finder);
      }
    }
  }

  /** The spans of every pattern of a list, pattern by pattern. */
  function SpansOfPatterns(ps: seq<DatePattern>, text: string, code: string, today: string,
                           finder: (DatePattern, string) -> seq<RawMatch>): (r: seq<DateSpan>)
    ensures forall s :: s in r ==>
      exists p, m :: p in ps && m in finder(p, text) && SpanOf(m, code, today) == Some(s)
    ensures forall p, m :: p in ps && m in finder(p, text) && SpanOf(m, code, today).Some? ==>
      SpanOf(m, code, today).value in r
  {
    PatternsRunMembers(ps, text, code, today, finder);
    PatternsRun(ps, text, code, today, finder)
  }

  /** Pattern order is kept: the spans of earlier patterns come first. */
  lemma SpansOfPatternsAppend(a: seq<DatePattern>, b: seq<DatePattern>, text: string, code: string,
                              today: string, finder: (DatePattern, string) -> seq<RawMatch>)
    ensures SpansOfPatterns(a + b, text, code, today, finder)
         == SpansOfPatterns(a, text, code, today, finder) + SpansOfPatterns(b, text, code, today, finder)
  {
    PatternsRunAppend(a, b, text, code, today, finder);
  }

  /** One pattern yields the spans of its own matches. */
  lemma SpansOfPatternsOne(p: DatePattern, text: string, code: string, today: string,
                           finder: (DatePattern, string) -> seq<RawMatch>)
    ensures SpansOfPatterns([p], text, code, today, finder) == SpansOfMatches(finder(p, text), code, today)
  {
    assert [p][1..] == [];
    assert PatternsRun([p], text, code, today, finder) == SpansOfMatches(finder(p, text), code, today) + [];
  }

  /** `extract_dates(text, lang_code)`: empty text gives no spans; otherwise
      every match of the language's patterns whose normalisation succeeds
      yields its span, and nothing else does. The order (pattern by pattern,
      each in match order) is stated by ExtractDatesInOrder. */
  function ExtractDates(text: string, code: string, today: string,
                        finder: (DatePattern, string) -> seq<RawMatch>): (r: seq<DateSpan>)
    ensures text == "" ==> r == []
    ensures forall s :: s in r ==>
      && s.normalized != ""
      && NormalizeDate(s.original, code, today) == Some(s.normalized)
      && s.isPresent == IsPresentIndicator(s.original, code)
    ensures text != "" ==> forall s :: s in r ==>
      exists p, m :: p in Formats(code) && m in finder(p, text) && SpanOf(m, code, today) == Some(s)
    ensures text != "" ==> forall p, m ::
      (p in Formats(code) && m in finder(p, text) && SpanOf(m, code, today).Some?) ==>
      SpanOf(m, code, today).value in r
  {
    if text == "" then [] else SpansOfPatterns(Formats(code), text, code, today, finder)
  }

  /** The dates come pattern by pattern: those found by the first `k`
      patterns of the table precede those of the rest. */
  lemma ExtractDatesInOrder(text: string, code: string, today: string,
                            finder: (DatePattern, string) -> seq<RawMatch>, k: nat)
    requires text != "" && k <= |Formats(code)|
    ensures ExtractDates(text, code, today, finder)
         == SpansOfPatterns(Formats(code)[..k], text, code, today, finder)
          + SpansOfPatterns(Formats(code)[k..], text, code, today, finder)
  {
    var ps := Formats(code);
    assert ps == ps[..k] + ps[k..];
    SpansOfPatternsAppend(ps[..k], ps[k..], text, code, today, finder);
  }

  // ---------------------------------------------------------------------------
  // extract_date_range
  // ---------------------------------------------------------------------------

  /** A start/end pair; either end may be missing. */
  datatype DateRange = DateRange(startDate: Option<string>, endDate: Option<string>)

  predicate SortedByStart(ds: seq<DateSpan>) {
    forall i, j :: 0 <= i < j < |ds| ==> ds[i].start <= ds[j].start
  }

  /** The spans that start at offset `k`, in their order in `ds`. */
  function WithStart(ds: seq<DateSpan>, k: nat): seq<DateSpan> {
    if ds == [] then []
    else (if ds[0].start == k then [ds[0]] else []) + WithStart(ds[1..], k)
  }

  /** Insert `x` before the first span that starts at or after it. */
  function InsertByStart(x: DateSpan, ds: seq<DateSpan>): (r: seq<DateSpan>)
    ensures SortedByStart(ds) ==> SortedByStart(r)
    ensures multiset(r) == multiset(ds) + multiset{x}
  {
    if ds == [] || x.start <= ds[0].start then [x] + ds
    else
      var rest := InsertByStart(x, ds[1..]);
      InsertStep(x, ds, rest);
      [ds[0]] + rest
  }

  /** The head of `ds` goes before the insertion into its tail. */
  lemma InsertStep(x: DateSpan, ds: seq<DateSpan>, rest: seq<DateSpan>)
    requires ds != [] && ds[0].start < x.start
    requires SortedByStart(ds[1..]) ==> SortedByStart(rest)
    requires multiset(rest) == multiset(ds[1..]) + multiset{x}
    ensures SortedByStart(ds) ==> SortedByStart([ds[0]] + rest)
    ensures multiset([ds[0]] + rest) == multiset(ds) + multiset{x}
  {
    assert ds == [ds[0]] + ds[1..];
    if SortedByStart(ds) {
      assert SortedByStart(ds[1..]);
      forall j | 0 <= j < |rest| ensures ds[0].start <= rest[j].start {
        assert rest[j] in multiset(rest);
        assert rest[j] == x || rest[j] in multiset(ds[1..]);
      }
    }
  }

  /** Inserting keeps the spans of every start offset in order, with `x`
      ahead of the spans that share its start: the spans `x` is put after
      all start before it. */
  lemma {:induction false} InsertKeepsOrder(x: DateSpan, ds: seq<DateSpan>, k: nat)
    ensures WithStart(InsertByStart(x, ds), k) == (if x.start == k then [x] else []) + WithStart(ds, k)
    decreases |ds|
  {
    if ds == [] || x.start <= ds[0].start {
      assert ([x] + ds)[1..] == ds;
    } else {
      var rest := InsertByStart(x, ds[1..]);
      assert ([ds[0]] + rest)[1..] == rest;
      InsertKeepsOrder(x, ds[1..], k);
    }
  }

  /** `dates.sort(key=lambda x: x['position'][0])`. */
  function SortByStart(ds: seq<DateSpan>): (r: seq<DateSpan>)
    ensures SortedByStart(r)
    ensures multiset(r) == multiset(ds) && |r| == |ds|
  {
    if ds == [] then []
    else
      assert ds == [ds[0]] + ds[1..];
      InsertByStart(ds[0], SortByStart(ds[1..]))
  }

  /** Python's sort is stable: the spans that share a start offset keep
      their relative order. */
  lemma {:induction false} SortIsStable(ds: seq<DateSpan>, k: nat)
    ensures WithStart(SortByStart(ds), k) == WithStart(ds, k)
    decreases |ds|
  {
    if ds != [] {
      SortIsStable(ds[1..], k);
      InsertKeepsOrder(ds[0], SortByStart(ds[1..]), k);
    }
  }

  /** `text[a['position'][1]:b['position'][0]]`: the text strictly between
      two spans; empty when they overlap. */
  function Between(text: string, a: DateSpan, b: DateSpan): (r: string)
    ensures b.start <= a.end ==> r == ""
    ensures a.end <= b.start <= |text| ==> r == text[a.end..b.start]
  {
    Slice(text, a.end, b.start)
  }

  /** A hyphen, or `to` / `hingga` in any letter case, marks a range. */
  predicate HasRangeSeparator(between: string) {
    Contains(between, "-") || Contains(Lower(between), "to") || Contains(Lower(between), "hingga")
  }

  predicate SeparatedAt(text: string, ds: seq<DateSpan>, i: nat)
    requires i + 1 < |ds|
  {
    HasRangeSeparator(Between(text, ds[i], ds[i + 1]))
  }

  /** The first consecutive pair at or after `i` with a separator between. */
  function FirstSeparated(text: string, ds: seq<DateSpan>, i: nat): (r: Option<nat>)
    requires i <= |ds|
    ensures r.Some? ==> i <= r.value && r.value + 1 < |ds| && SeparatedAt(text, ds, r.value)
    ensures r.Some? ==> forall j: nat :: i <= j < r.value ==> !SeparatedAt(text, ds, j)
    ensures r.None? ==> forall j: nat :: i <= j && j + 1 < |ds| ==> !SeparatedAt(text, ds, j)
    decreases |ds| - i
  {
    if i + 1 >= |ds| then None
    else if SeparatedAt(text, ds, i) then Some(i)
    else FirstSeparated(text, ds, i + 1)
  }

  /** The rule for two or more spans `s`, already sorted: either the pair
      at the least separated position, or, when no pair is separated, the
      first and the last span. */
  predicate PairRule(text: string, s: seq<DateSpan>, r: DateRange)
    requires |s| >= 2
  {
    || (exists i: nat :: i + 1 < |s| && FirstSeparatedAt(text, s, i)
          && r == DateRange(Some(s[i].normalized), Some(s[i + 1].normalized)))
    || ((forall j: nat :: j + 1 < |s| ==> !SeparatedAt(text, s, j))
          && r == DateRange(Some(s[0].normalized), Some(s[|s| - 1].normalized)))
  }

  /** Position `i` is separated and no earlier position is. */
  predicate FirstSeparatedAt(text: string, s: seq<DateSpan>, i: nat)
    requires i + 1 < |s|
  {
    SeparatedAt(text, s, i) && forall j: nat :: j < i ==> !SeparatedAt(text, s, j)
  }

  /** Range assembly over the spans found in `text`. No span gives no dates;
      one span fills only the end (present) or only the start; with two or
      more, after a stable sort by start offset, the first consecutive pair
      with a separator between wins, else the first and last spans. */
  function RangeOf(text: string, dates: seq<DateSpan>): (r: DateRange)
    ensures |dates| == 0 ==> r == DateRange(None, None)
    ensures |dates| == 1 && dates[0].isPresent ==> r == DateRange(None, Some(dates[0].normalized))
    ensures |dates| == 1 && !dates[0].isPresent ==> r == DateRange(Some(dates[0].normalized), None)
    ensures |dates| >= 2 ==> PairRule(text, SortByStart(dates), r)
  {
    if |dates| == 0 then DateRange(None, None)
    else if |dates| == 1 then
      if dates[0].isPresent then DateRange(None, Some(dates[0].normalized))
      else DateRange(Some(dates[0].normalized), None)
    else
      var s := SortByStart(dates);
      match FirstSeparated(text, s, 0)
      case Some(i) => DateRange(Some(s[i].normalized), Some(s[i + 1].normalized))
      case None => DateRange(Some(s[0].normalized), Some(s[|s| - 1].normalized))
  }

  /** `extract_date_range(text, lang_code)`. */
  function ExtractDateRange(text: string, code: string, today: string,
                            finder: (DatePattern, string) -> seq<RawMatch>): (r: DateRange)
    ensures text == "" ==> r == DateRange(None, None)
  {
    RangeOf(text, ExtractDates(text, code, today, finder))
  }

  /** Both ends of a range are normalised values of spans that were found. */
  lemma RangeEndsAreFound(text: string, dates: seq<DateSpan>)
    ensures RangeOf(text, dates).startDate.Some? ==>
      exists d :: d in dates && RangeOf(text, dates).startDate.value == d.normalized
    ensures RangeOf(text, dates).endDate.Some? ==>
      exists d :: d in dates && RangeOf(text, dates).endDate.value == d.normalized
  {
    var r := RangeOf(text, dates);
    if |dates| == 1 {
      assert dates[0] in dates;
    } else if |dates| >= 2 {
      var s := SortByStart(dates);
      match FirstSeparated(text, s, 0)
      case Some(i) =>
        assert r == DateRange(Some(s[i].normalized), Some(s[i + 1].normalized));
        assert s[i] in multiset(dates) && s[i + 1] in multiset(dates);
        assert s[i] in dates && s[i + 1] in dates;
      case None =>
        assert r == DateRange(Some(s[0].normalized), Some(s[|s| - 1].normalized));
        assert s[0] in multiset(dates) && s[|s| - 1] in multiset(dates);
        assert s[0] in dates && s[|s| - 1] in dates;
    }
  }

  // ---------------------------------------------------------------------------
  // Properties of normalize_date
  // ---------------------------------------------------------------------------

  /** The month-name loop picks the first table entry that occurs in the
      lower-cased text, when the text holds a year. */
  lemma {:induction false} MonthPathPicksFirstEntry(text: string, table: seq<(string, nat)>, i: nat)
    requires i < |table| && Contains(Lower(text), table[i].0)
    requires forall j :: 0 <= j < i ==> !Contains(Lower(text), table[j].0)
    requires FindYear(text).Some?
    ensures MonthPath(text, table) == Some(Ymd(FindYear(text).value, table[i].1, Min(DayOf(text), 28)))
    decreases i
  {
    if i > 0 {
      assert !Contains(Lower(text), table[0].0);
      MonthPathPicksFirstEntry(text, table[1..], i - 1);
    }
  }

  /** Without a 19xx/20xx year the month-name loop yields nothing. */
  lemma {:induction false} MonthPathNeedsYear(text: string, table: seq<(string, nat)>)
    requires FindYear(text).None?
    ensures MonthPath(text, table) == None
    decreases |table|
  {
    if table != [] {
      MonthPathNeedsYear(text, table[1..]);
    }
  }

  /** Without any month name in the text the month-name loop yields nothing. */
  lemma {:induction false} MonthPathNeedsName(text: string, table: seq<(string, nat)>)
    requires forall j :: 0 <= j < |table| ==> !Contains(Lower(text), table[j].0)
    ensures MonthPath(text, table) == None
    decreases |table|
  {
    if table != [] {
      MonthPathNeedsName(text, table[1..]);
    }
  }

  /** The month-name rule of `normalize_date`: when neither the present
      check nor the bare-year rule applies, the first month name of the
      language's table that occurs in the text gives the month, the text's
      year the year, and its first short number (default 1, capped at 28)
      the day. */
  lemma MonthNameRule(text: string, code: string, i: nat)
    requires !IsPresentIndicator(text, code)
    requires !(FindYear(text).Some? && |Strip(text)| <= 5)
    requires FindYear(text).Some?
    requires i < |MonthNames(LocaleFor(code))| && Contains(Lower(text), MonthNames(LocaleFor(code))[i].0)
    requires forall j :: 0 <= j < i ==> !Contains(Lower(text), MonthNames(LocaleFor(code))[j].0)
    ensures ParseDate(text, code)
      == Some(Ymd(FindYear(text).value, MonthNames(LocaleFor(code))[i].1, Min(DayOf(text), 28)))
  {
    MonthPathPicksFirstEntry(text, MonthNames(LocaleFor(code)), i);
  }

  /** `A/B/YYYY` is read month first only for `eng`: any other code swaps
      the roles of the two leading groups; the year-first pattern does not
      depend on the code. */
  lemma SlashReadingSwapsForOtherCodes(text: string, code: string)
    requires code != "eng"
    ensures FindSlash(text).None? ==> NumericPath(text, code) == NumericPath(text, "eng")
    ensures FindSlash(text).Some? && NumberOf(FindSlash(text).value.first) <= 12
            && NumberOf(FindSlash(text).value.second) <= 12 ==>
      && NumericPath(text, code).value.month == NumericPath(text, "eng").value.day
      && NumericPath(text, code).value.day == NumericPath(text, "eng").value.month
      && NumericPath(text, code).value.year == NumericPath(text, "eng").value.year
  {
  }

  /** A text made only of digits, hyphens and slashes. */
  predicate NumericText(s: string) {
    forall k :: 0 <= k < |s| ==> IsDigit(s[k]) || s[k] == '-' || s[k] == '/'
  }

  /** No word that starts with a letter occurs in digits, hyphens and
      slashes, in either letter case. */
  lemma NoWordInDigits(s: string, w: string)
    requires NumericText(s)
    requires |w| > 0 && 'a' <= w[0] <= 'z'
    ensures Lower(s) == s
    ensures !Contains(Lower(s), w)
  {
    assert Lower(s) == s;
  }

  /** The layout of a rendered value: digits everywhere except the hyphens
      at offsets 4 and 7. */
  lemma RenderLayout(v: DateValue, today: string)
    requires v.Ymd? && WellShaped(v)
    ensures var s := Render(v, today);
      && NumericText(s) && s[4] == '-' && s[7] == '-'
      && (forall k :: 0 <= k < 10 && k != 4 && k != 7 ==> IsDigit(s[k]))
  {
    var s := Render(v, today);
    assert s[..4] == v.year;
    assert forall k :: 0 <= k < 4 ==> s[k] == s[..4][k];
    assert forall k :: 5 <= k < 7 ==> s[k] == s[5..7][k - 5];
    assert forall k :: 8 <= k < 10 ==> s[k] == s[8..10][k - 8];
  }

  /** Digits, hyphens and slashes hold no present word and no month name,
      so neither of the language rules applies to them. */
  lemma {:induction false} DigitsHaveNoWords(s: string, code: string)
    requires NumericText(s)
    ensures !IsPresentIndicator(s, code)
    ensures MonthPath(s, MonthNames(LocaleFor(code))) == None
  {
    var words := PresentWords(LocaleFor(code));
    forall i | 0 <= i < |words| ensures !Contains(Lower(s), words[i]) {
      NoWordInDigits(s, words[i]);
    }
    var table := MonthNames(LocaleFor(code));
    forall j | 0 <= j < |table| ensures !Contains(Lower(s), table[j].0) {
      NoWordInDigits(s, table[j].0);
    }
    MonthPathNeedsName(s, table);
  }

  /** The shape `DDDD-DD-DD`. */
  predicate IsoShaped(s: string) {
    && |s| == 10 && s[4] == '-' && s[7] == '-'
    && forall k :: 0 <= k < 10 && k != 4 && k != 7 ==> IsDigit(s[k])
  }

  /** In `DDDD-DD-DD` the hyphens are three apart, too close for the
      slash pattern's middle group and too far left for its four-digit
      year, so the slash pattern never matches. */
  lemma {:induction false} IsoShapedHasNoSlash(s: string)
    requires IsoShaped(s)
    ensures FindSlash(s).None?
  {
    forall i: nat ensures SlashAt(s, i).None? {
      assert NumericWith(s, i, 2, 2, 4).None? && NumericWith(s, i, 2, 1, 4).None?;
      assert NumericWith(s, i, 1, 2, 4).None? && NumericWith(s, i, 1, 1, 4).None?;
    }
  }

  /** The year-first pattern reads `DDDD-DD-DD` at offset 0 with its
      longest alternative. */
  lemma {:induction false} IsoShapedReadsWhole(s: string)
    requires IsoShaped(s)
    ensures FindIso(s) == Some(Groups(s[..4], s[5..7], s[8..10]))
  {
    assert DigitsAt(s, 0, 4) by { assert forall k :: 0 <= k < 4 ==> s[0..4][k] == s[k]; }
    assert DigitsAt(s, 5, 2) by { assert forall k :: 0 <= k < 2 ==> s[5..7][k] == s[5 + k]; }
    assert DigitsAt(s, 8, 2) by { assert forall k :: 0 <= k < 2 ==> s[8..10][k] == s[8 + k]; }
    assert IsoAt(s, 0) == Some(Groups(s[..4], s[5..7], s[8..10]));
  }

  /** A text of the shape `DDDD-DD-DD` is read by the year-first rule,
      whatever the language code: year, then month capped at 12, then day
      capped at 28. */
  lemma {:induction false} ParseIsoShaped(s: string, code: string)
    requires IsoShaped(s)
    ensures AllDigits(s[5..7]) && AllDigits(s[8..10])
    ensures ParseDate(s, code) == Some(Ymd(s[..4], Min(NumberOf(s[5..7]), 12), Min(NumberOf(s[8..10]), 28)))
  {
    assert NumericText(s);
    DigitsHaveNoWords(s, code);
    IsoShapedIsLong(s);
    OnlyNumericRulesLeft(s, code);
    IsoShapedHasNoSlash(s);
    IsoShapedReadsWhole(s);
    NumericPathOfIso(s, code, Groups(s[..4], s[5..7], s[8..10]));
  }

  /** The shape `DD/DD/DDDD`, with either separator in each place. */
  predicate SlashShaped(s: string) {
    && |s| == 10 && SepAt(s, 2) && SepAt(s, 5)
    && forall k :: 0 <= k < 10 && k != 2 && k != 5 ==> IsDigit(s[k])
  }

  /** The slash pattern reads `DD/DD/DDDD` at offset 0 with its widest
      alternative. */
  lemma {:induction false} SlashShapedReadsWhole(s: string)
    requires SlashShaped(s)
    ensures FindSlash(s) == Some(Groups(s[..2], s[3..5], s[6..10]))
  {
    assert DigitsAt(s, 0, 2) by { assert forall k :: 0 <= k < 2 ==> s[0..2][k] == s[k]; }
    assert DigitsAt(s, 3, 2) by { assert forall k :: 0 <= k < 2 ==> s[3..5][k] == s[3 + k]; }
    assert DigitsAt(s, 6, 4) by { assert forall k :: 0 <= k < 4 ==> s[6..10][k] == s[6 + k]; }
    assert SlashAt(s, 0) == Some(Groups(s[..2], s[3..5], s[6..10]));
  }

  /** `DD/DD/DDDD` has no surrounding whitespace, so it is too long for the
      bare-year rule. */
  lemma SlashShapedIsLong(s: string)
    requires SlashShaped(s)
    ensures |Strip(s)| == 10
  {
    StripKeepsTrimmed(s);
  }

  /** The slash reading of the groups `A`, `B` and `YYYY`: month first for
      `eng`, day first for every other code. */
  lemma NumericPathOfSlash(text: string, code: string, g: Groups)
    requires FindSlash(text) == Some(g)
    ensures GroupsAreDigits(g)
    ensures code == "eng" ==> NumericPath(text, code) == Some(Ymd(g.third, Min(NumberOf(g.first), 12), Min(NumberOf(g.second), 28)))
    ensures code != "eng" ==> NumericPath(text, code) == Some(Ymd(g.third, Min(NumberOf(g.second), 12), Min(NumberOf(g.first), 28)))
  {
  }

  /** A text of the shape `A/B/YYYY` with two-digit `A` and `B` is read by
      the slash rule: for `eng` as month `A` and day `B`, for every other
      code as day `A` and month `B`, the month capped at 12 and the day at
      28. */
  lemma {:induction false} ParseSlashShaped(s: string, code: string)
    requires SlashShaped(s)
    ensures AllDigits(s[..2]) && AllDigits(s[3..5]) && AllDigits(s[6..10])
    ensures code == "eng" ==>
      ParseDate(s, code) == Some(Ymd(s[6..10], Min(NumberOf(s[..2]), 12), Min(NumberOf(s[3..5]), 28)))
    ensures code != "eng" ==>
      ParseDate(s, code) == Some(Ymd(s[6..10], Min(NumberOf(s[3..5]), 12), Min(NumberOf(s[..2]), 28)))
  {
    SlashShapedIsNumeric(s, code);
    SlashShapedReadsWhole(s);
    NumericPathOfSlash(s, code, Groups(s[..2], s[3..5], s[6..10]));
  }

  /** Only the numeric rules apply to `DD/DD/DDDD`. */
  lemma SlashShapedIsNumeric(s: string, code: string)
    requires SlashShaped(s)
    ensures ParseDate(s, code) == NumericPath(s, code)
  {
    assert NumericText(s);
    DigitsHaveNoWords(s, code);
    SlashShapedIsLong(s);
    OnlyNumericRulesLeft(s, code);
  }

  /** The year-first reading when no slash date is present. */
  lemma NumericPathOfIso(text: string, code: string, g: Groups)
    requires FindSlash(text).None? && FindIso(text) == Some(g)
    ensures GroupsAreDigits(g)
    ensures NumericPath(text, code) == Some(Ymd(g.first, Min(NumberOf(g.second), 12), Min(NumberOf(g.third), 28)))
  {
  }

  /** When the text is no present word, is longer than a bare year and
      names no month, only the numeric patterns decide. */
  lemma OnlyNumericRulesLeft(text: string, code: string)
    requires !IsPresentIndicator(text, code) && |Strip(text)| > 5
    requires MonthPath(text, MonthNames(LocaleFor(code))) == None
    ensures ParseDate(text, code) == NumericPath(text, code)
  {
  }

  /** `DDDD-DD-DD` has no surrounding whitespace, so it is too long for the
      bare-year rule. */
  lemma IsoShapedIsLong(s: string)
    requires IsoShaped(s)
    ensures |Strip(s)| == 10
  {
    StripKeepsTrimmed(s);
  }

  /** Normalising an already normalised `YYYY-MM-DD` gives it back: none of
      the present, bare-year, month-name or slash rules applies to it, and
      the year-first rule reads it unchanged. */
  lemma {:induction false} NormalizeRoundTrip(v: DateValue, code: string, today: string)
    requires v.Ymd? && WellShaped(v)
    ensures ParseDate(Render(v, today), code) == Some(v)
    ensures NormalizeDate(Render(v, today), code, today) == Some(Render(v, today))
  {
    var s := Render(v, today);
    RenderLayout(v, today);
    assert IsoShaped(s);
    ParseIsoShaped(s, code);
  }

  // ---------------------------------------------------------------------------
  // Worked examples
  // ---------------------------------------------------------------------------

  /** The bare-year rule: a text that is a year with at most one
      character besides (after stripping) starts on the first of January. */
  lemma BareYearRule(text: string, code: string)
    requires !IsPresentIndicator(text, code)
    requires FindYear(text).Some? && |Strip(text)| <= 5
    ensures ParseDate(text, code) == Some(Ymd(FindYear(text).value, 1, 1))
  {
  }

  /** A year token at the very start of a text is the one the year search
      returns. */
  lemma YearAtStart(s: string)
    requires YearAt(s, 0)
    ensures FindYear(s) == Some(s[..4])
  {
    var r := FindYear(s);
    assert r.Some?;
    var i: nat :| YearAt(s, i) && r.value == s[i..i + 4] && FirstYearAt(s, i);
    assert i == 0;
  }

  /** A bare year is read as the first of January of that year. */
  lemma BareYearExample()
    ensures ParseDate("2019", "eng") == Some(Ymd("2019", 1, 1))
  {
    ExampleNotPresent();
    ExampleYear();
    ExampleShort();
    BareYearRule("2019", "eng");
  }

  lemma ExampleNotPresent()
    ensures !IsPresentIndicator("2019", "eng")
  {
    assert NumericText("2019");
    DigitsHaveNoWords("2019", "eng");
  }

  lemma ExampleYear()
    ensures FindYear("2019") == Some("2019")
  {
    assert "2019"[0..2] == "20";
    assert YearAt("2019", 0);
    YearAtStart("2019");
    assert "2019"[..4] == "2019";
  }

  lemma ExampleShort()
    ensures |Strip("2019")| <= 5
  {
    StripKeepsTrimmed("2019");
  }

  /** Rendering pads month and day to two digits. */
  lemma RenderExample(today: string)
    ensures Render(Ymd("2019", 1, 1), today) == "2019-01-01"
  {
    assert Pad2(1) == "01";
  }

  /** So a bare year normalises to `YYYY-01-01`. */
  lemma BareYearNormalizes(today: string)
    ensures NormalizeDate("2019", "eng", today) == Some("2019-01-01")
  {
    BareYearExample();
    RenderExample(today);
  }

  /** A present word normalises to the clock's date. */
  lemma PresentExample(today: string)
    ensures NormalizeDate("Present", "eng", today) == Some(today)
  {
    assert Lower("Present") == "present";
    assert OccursAt("present", "present", 0);
    assert Contains(Lower("Present"), PresentWords(English)[0]);
  }

  /** `January 2019 - Present`: the year (offsets 8 to 12) and the present
      word (offsets 15 to 22) are separated by a hyphen, so they make the
      range, the present word standing for the clock's date. */
  lemma RangeExample(today: string)
    ensures var text := "January 2019 - Present";
      var year := DateSpan("2019", "2019-01-01", false, 8, 12);
      var now := DateSpan("Present", today, true, 15, 22);
      RangeOf(text, [year, now]) == DateRange(Some("2019-01-01"), Some(today))
  {
    var text := "January 2019 - Present";
    var year := DateSpan("2019", "2019-01-01", false, 8, 12);
    var now := DateSpan("Present", today, true, 15, 22);
    assert SortByStart([now]) == [now];
    assert [year, now][1..] == [now];
    assert SortByStart([year, now]) == [year, now];
    assert Between(text, year, now) == " - ";
    assert OccursAt(" - ", "-", 1);
    assert SeparatedAt(text, [year, now], 0);
  }
}

=== FILE: entity_extractor.dfy ===
/**
 * The rule-based entity extractor. It works over an annotated document
 * (the output of the NLP pipeline, taken as given): the document text, its
 * entity spans with their labels, and its sentences with their own spans
 * and tokens. From it the extractor picks personal details, skills,
 * education and work entries, languages, certifications and a summary, and
 * scores its own confidence with fixed rule ladders.
 *
 * The e-mail and phone regexes are parameters (`Matchers`); the postal-code
 * pattern `\b\d{5}\b` is written out.
 */
module EntityExtractor {
  import opened Wrappers
  import opened Text

  // ---------------------------------------------------------------------------
  // The annotated document
  // ---------------------------------------------------------------------------

  /** The entity labels the extractor looks at; every other label is `OtherLabel`. */
  datatype Label = Person | Org | Gpe | Loc | Date | Skill | OtherLabel

  datatype Entity = Entity(text: string, tag: Label)

  /** A token with its text and whether its part of speech is `PROPN`. */
  datatype Token = Token(text: string, properNoun: bool)

  datatype Sentence = Sentence(text: string, ents: seq<Entity>, tokens: seq<Token>)

  datatype Doc = Doc(text: string, ents: seq<Entity>, sents: seq<Sentence>)

  /** The two regexes of the extractor: `findall` over a text (the matches
      in order) and `re.match` (a match at the start). */
  datatype Matchers = Matchers(
    emailAll: string -> seq<string>,
    phoneAll: string -> seq<string>,
    emailAtStart: string -> bool,
    phoneAtStart: string -> bool)

  /** Indexing a dictionary with a language code it has no entry for. */
  datatype ExtractError = KeyError(code: string)

  // ---------------------------------------------------------------------------
  // The extracted record
  // ---------------------------------------------------------------------------

  datatype PersonalInfo = PersonalInfo(name: Option<string>, email: Option<string>,
                                       phone: Option<string>, address: Option<string>)

  datatype EducationEntry = EducationEntry(institution: string, degree: Option<string>,
                                           field: Option<string>, dates: Option<seq<string>>)

  datatype ExperienceEntry = ExperienceEntry(company: string, title: Option<string>,
                                             dates: Option<seq<string>>, responsibilities: seq<string>)

  datatype Confidence = Confidence(overall: real, personalInfo: real, skills: real,
                                   education: real, workExperience: real)

  datatype Extraction = Extraction(
    personalInfo: PersonalInfo,
    skills: set<string>,
    education: seq<EducationEntry>,
    workExperience: seq<ExperienceEntry>,
    languages: set<string>,
    certifications: set<string>,
    summary: Option<string>,
    confidence: Confidence)

  /** Python truthiness of an optional string. */
  predicate Truthy(o: Option<string>) {
    o.Some? && o.value != ""
  }

  // ---------------------------------------------------------------------------
  // Entity selection
  // ---------------------------------------------------------------------------

  /** The texts of the entities carrying a label in `labels`, in order. */
  function TextsWith(ents: seq<Entity>, labels: set<Label>): (r: seq<string>)
    ensures |r| <= |ents|
    ensures forall t :: t in r <==> exists e :: e in ents && e.tag in labels && e.text == t
    ensures r != [] <==> exists i :: 0 <= i < |ents| && ents[i].tag in labels
  {
    if ents == [] then []
    else
      var rest := TextsWith(ents[1..], labels);
      assert forall e :: e in ents[1..] ==> e in ents;
      assert ents == [ents[0]] + ents[1..];
      (if ents[0].tag in labels then [ents[0].text] else []) + rest
  }

  /** Selecting from two lists of entities is selecting from each in turn:
      the texts keep the order of the entities. */
  lemma {:induction false} TextsWithAppend(a: seq<Entity>, b: seq<Entity>, labels: set<Label>)
    ensures TextsWith(a + b, labels) == TextsWith(a, labels) + TextsWith(b, labels)
    decreases |a|
  {
    if a == [] {
      assert a + b == b;
    } else {
      var head := if a[0].tag in labels then [a[0].text] else [];
      assert (a + b)[0] == a[0] && (a + b)[1..] == a[1..] + b;
      TextsWithAppend(a[1..], b, labels);
      calc {
        TextsWith(a + b, labels);
        head + TextsWith(a[1..] + b, labels);
        head + (TextsWith(a[1..], labels) + TextsWith(b, labels));
        (head + TextsWith(a[1..], labels)) + TextsWith(b, labels);
      }
    }
  }

  /** One entity yields its text exactly when it carries a wanted label. */
  lemma TextsWithOne(e: Entity, labels: set<Label>)
    ensures TextsWith([e], labels) == if e.tag in labels then [e.text] else []
  {
    assert [e][1..] == [];
  }

  /** The first entity carrying a label in `labels` is at index `i`. */
  predicate FirstWithAt(ents: seq<Entity>, labels: set<Label>, i: nat) {
    i < |ents| && ents[i].tag in labels && forall j :: 0 <= j < i ==> ents[j].tag !in labels
  }

  /** The first text of `TextsWith` is that of the first entity with the label. */
  lemma {:induction false} FirstTextIsFirstEntity(ents: seq<Entity>, labels: set<Label>)
    requires TextsWith(ents, labels) != []
    ensures exists i: nat :: FirstWithAt(ents, labels, i) && TextsWith(ents, labels)[0] == ents[i].text
    decreases |ents|
  {
    if ents[0].tag in labels {
      assert FirstWithAt(ents, labels, 0);
    } else {
      FirstTextIsFirstEntity(ents[1..], labels);
      var i: nat :| FirstWithAt(ents[1..], labels, i) && TextsWith(ents[1..], labels)[0] == ents[1..][i].text;
      assert FirstWithAt(ents, labels, i + 1);
    }
  }

  /** The text of the first entity carrying a label in `labels`. */
  function FirstText(ents: seq<Entity>, labels: set<Label>): (r: Option<string>)
    ensures r.None? <==> forall e :: e in ents ==> e.tag !in labels
    ensures r.Some? ==> exists i: nat :: FirstWithAt(ents, labels, i) && r.value == ents[i].text
  {
    var texts := TextsWith(ents, labels);
    if texts == [] then None
    else
      FirstTextIsFirstEntity(ents, labels);
      Some(texts[0])
  }

  // ---------------------------------------------------------------------------
  // Personal information
  // ---------------------------------------------------------------------------

  /** The first match of a `findall`, or None. */
  function FirstMatch(matches: seq<string>): (r: Option<string>)
    ensures r.None? <==> matches == []
    ensures r.Some? ==> r.value == matches[0]
  {
    if matches == [] then None else Some(matches[0])
  }

  /** `\b\d{5}\b` matches at offset `i`. */
  predicate PostalAt(s: string, i: nat) {
    i + 5 <= |s| && WordBoundary(s, i) && AllDigits(s[i..i + 5]) && WordBoundary(s, i + 5)
  }

  /** The first postal code of a text (`re.findall(...)[:1]`). */
  function FirstPostal(s: string): (r: Option<string>)
    ensures r.Some? ==> exists i: nat :: && PostalAt(s, i) && r.value == s[i..i + 5]
                                         && forall j: nat :: j < i ==> !PostalAt(s, j)
    ensures r.None? ==> forall i: nat :: !PostalAt(s, i)
  {
    var at := (i: nat) => PostalAt(s, i);
    match FirstFrom(at, 0, |s|)
    case Some(i) =>
      assert forall j: nat :: j < i ==> !PostalAt(s, j) by {
        forall j: nat | j < i ensures !PostalAt(s, j) {
          assert !at(j);
        }
      }
      Some(s[i..i + 5])
    case None =>
      assert forall i: nat :: !PostalAt(s, i) by {
        forall i: nat ensures !PostalAt(s, i) {
          if i <= |s| { assert !at(i); }
        }
      }
      None
  }

  const Places: set<Label> := {Gpe, Loc}

  /** The pieces of an address: the first two place names and the first
      postal code, when there is at least one place name. */
  function AddressParts(doc: Doc): (parts: seq<string>)
    ensures parts == [] <==> TextsWith(doc.ents, Places) == []
    ensures parts != [] ==> parts[0] == TextsWith(doc.ents, Places)[0]
    ensures parts != [] ==>
      |parts| == Min(2, |TextsWith(doc.ents, Places)|) + (if FirstPostal(doc.text).Some? then 1 else 0)
    ensures parts != [] && FirstPostal(doc.text).Some? ==> parts[|parts| - 1] == FirstPostal(doc.text).value
    ensures forall k :: 0 <= k < |parts| && k < 2 && k < |TextsWith(doc.ents, Places)| ==>
      parts[k] == TextsWith(doc.ents, Places)[k]
  {
    var places := TextsWith(doc.ents, Places);
    if places == [] then []
    else
      var firstTwo := places[..Min(2, |places|)];
      match FirstPostal(doc.text)
      case Some(code) => firstTwo + [code]
      case None => firstTwo
  }

  /** `extract_address(doc, lang_code)` (lines 78-98); the postal pattern
      is the same for every language. */
  function ExtractAddress(doc: Doc): (r: Option<string>)
    ensures r.None? <==> forall e :: e in doc.ents ==> e.tag != Gpe && e.tag != Loc
    ensures r.Some? ==> r.value == Join(", ", AddressParts(doc))
  {
    var parts := AddressParts(doc);
    if parts == [] then None else Some(Join(", ", parts))
  }

  /** `extract_personal_info(doc, lang_code)` (lines 52-76). */
  function ExtractPersonalInfo(doc: Doc, matchers: Matchers): (p: PersonalInfo)
    ensures p.name.None? <==> forall e :: e in doc.ents ==> e.tag != Person
    ensures p.name.Some? ==> exists i: nat :: FirstWithAt(doc.ents, {Person}, i) && p.name.value == doc.ents[i].text
    ensures p.email == FirstMatch(matchers.emailAll(doc.text))
    ensures p.phone == FirstMatch(matchers.phoneAll(doc.text))
    ensures p.address == ExtractAddress(doc)
  {
    PersonalInfo(
      FirstText(doc.ents, {Person}),
      FirstMatch(matchers.emailAll(doc.text)),
      FirstMatch(matchers.phoneAll(doc.text)),
      ExtractAddress(doc))
  }

  // ---------------------------------------------------------------------------
  // Skills
  // ---------------------------------------------------------------------------

  const ProgrammingSkills: seq<string> := ["Python", "Java", "JavaScript", "HTML", "CSS", "SQL"]

  /** The fixed names whose lower-case form occurs in `textLower`, in list order. */
  function NamesIn(names: seq<string>, textLower: string): (r: seq<string>)
    ensures forall n :: n in r <==> n in names && Contains(textLower, Lower(n))
  {
    if names == [] then []
    else
      assert names == [names[0]] + names[1..];
      (if Contains(textLower, Lower(names[0])) then [names[0]] else []) + NamesIn(names[1..], textLower)
  }

  function ToSet(xs: seq<string>): (s: set<string>)
    ensures forall x :: x in s <==> x in xs
  {
    set x | x in xs
  }

  /** `extract_skills(doc, lang_code)` (lines 100-125): the `SKILL` entity
      texts and the programming names found in the text, without
      duplicates. */
  function ExtractSkills(doc: Doc): (r: set<string>)
    ensures forall s :: s in r <==>
      || (exists e :: e in doc.ents && e.tag == Skill && e.text == s)
      || (s in ProgrammingSkills && Contains(Lower(doc.text), Lower(s)))
  {
    ToSet(TextsWith(doc.ents, {Skill}) + NamesIn(ProgrammingSkills, Lower(doc.text)))
  }

  /** Because "java" is part of "javascript", a text naming JavaScript
      also yields Java. */
  lemma JavaScriptImpliesJava(doc: Doc)
    requires Contains(Lower(doc.text), "javascript")
    ensures "JavaScript" in ExtractSkills(doc) && "Java" in ExtractSkills(doc)
  {
    assert "java" + "script" == "javascript";
    ContainsPrefix(Lower(doc.text), "java", "script");
    LowerJava();
    NameFound(doc, "JavaScript");
    NameFound(doc, "Java");
  }

  lemma LowerJava()
    ensures Lower("JavaScript") == "javascript" && Lower("Java") == "java"
  {
  }

  /** A programming name whose lower-case form is in the text is reported. */
  lemma NameFound(doc: Doc, name: string)
    requires name in ProgrammingSkills && Contains(Lower(doc.text), Lower(name))
    ensures name in ExtractSkills(doc)
  {
  }

  /** A text containing `p + q` contains `p`. */
  lemma ContainsPrefix(s: string, p: string, q: string)
    requires Contains(s, p + q)
    ensures Contains(s, p)
  {
    var j := Find(s, p + q).value;
    var w := s[j..j + |p + q|];
    assert w == p + q;
    assert w[..|p|] == p;
    assert s[j..j + |p|] == w[..|p|];
    assert OccursAt(s, p, j);
  }

  // ---------------------------------------------------------------------------
  // Education and work experience
  // ---------------------------------------------------------------------------

  const EducationKeywordsEng: seq<string> :=
    ["education", "university", "college", "degree", "bachelor", "master", "phd", "diploma"]
  const EducationKeywordsInd: seq<string> :=
    ["pendidikan", "universitas", "kuliah", "gelar", "sarjana", "magister", "doktor", "diploma"]
  const ExperienceKeywordsEng: seq<string> :=
    ["experience", "work", "employment", "job", "position", "role", "career"]
  const ExperienceKeywordsInd: seq<string> :=
    ["pengalaman", "kerja", "pekerjaan", "posisi", "jabatan", "karir"]

  /** A two-language keyword table indexed by language code. */
  function Bilingual(code: string, eng: seq<string>, ind: seq<string>): (r: Result<seq<string>, ExtractError>)
    ensures r.Ok? <==> code == "eng" || code == "ind"
    ensures r.Err? ==> r.error == KeyError(code)
  {
    if code == "eng" then Ok(eng) else if code == "ind" then Ok(ind) else Err(KeyError(code))
  }

  /** A sentence mentions one of the keywords (lower-cased text). */
  predicate Mentions(sent: Sentence, keywords: seq<string>) {
    ContainsAny(Lower(sent.text), keywords)
  }

  /** `dates[:2] if dates else None` over the sentence's `DATE` texts. */
  function FirstTwoDates(sent: Sentence): (r: Option<seq<string>>)
    ensures r.None? <==> forall e :: e in sent.ents ==> e.tag != Date
    ensures r.Some? ==> |r.value| == Min(2, |TextsWith(sent.ents, {Date})|) && r.value <= TextsWith(sent.ents, {Date})
  {
    var dates := TextsWith(sent.ents, {Date});
    if dates == [] then None else Some(dates[..Min(2, |dates|)])
  }

  /** The education entry of one sentence, if it mentions a keyword and
      names an organisation. */
  function EducationOf(sent: Sentence, keywords: seq<string>): (r: Option<EducationEntry>)
    ensures r.Some? <==> Mentions(sent, keywords) && exists e :: e in sent.ents && e.tag == Org
    ensures r.Some? ==> && r.value.degree.None? && r.value.field.None?
                        && r.value.dates == FirstTwoDates(sent)
                        && exists i: nat :: FirstWithAt(sent.ents, {Org}, i) && r.value.institution == sent.ents[i].text
  {
    if !Mentions(sent, keywords) then None
    else
      match FirstText(sent.ents, {Org})
      case None => None
      case Some(org) => Some(EducationEntry(org, None, None, FirstTwoDates(sent)))
  }

  /** The work entry of one sentence, if it mentions a keyword and names an
      organisation. */
  function ExperienceOf(sent: Sentence, keywords: seq<string>): (r: Option<ExperienceEntry>)
    ensures r.Some? <==> Mentions(sent, keywords) && exists e :: e in sent.ents && e.tag == Org
    ensures r.Some? ==> && r.value.title.None? && r.value.responsibilities == []
                        && r.value.dates == FirstTwoDates(sent)
                        && exists i: nat :: FirstWithAt(sent.ents, {Org}, i) && r.value.company == sent.ents[i].text
  {
    if !Mentions(sent, keywords) then None
    else
      match FirstText(sent.ents, {Org})
      case None => None
      case Some(org) => Some(ExperienceEntry(org, None, FirstTwoDates(sent), []))
  }

  /** The values `f` gives for the items, in item order, skipping the items
      it gives none for: the shape of the sentence loops, which append at
      most one entry per sentence. */
  function Collect<S, T>(xs: seq<S>, f: S -> Option<T>): seq<T> {
    if xs == [] then []
    else (match f(xs[0]) case Some(y) => [y] case None => []) + Collect(xs[1..], f)
  }

  lemma {:induction false} CollectMembers<S, T>(xs: seq<S>, f: S -> Option<T>)
    ensures |Collect(xs, f)| <= |xs|
    ensures forall y :: y in Collect(xs, f) <==> exists x :: x in xs && f(x) == Some(y)
    decreases |xs|
  {
    if xs != [] {
      CollectMembers(xs[1..], f);
      assert xs == [xs[0]] + xs[1..];
      assert forall x :: x in xs <==> x == xs[0] || x in xs[1..];
    }
  }

  lemma {:induction false} CollectAppend<S, T>(a: seq<S>, b: seq<S>, f: S -> Option<T>)
    ensures Collect(a + b, f) == Collect(a, f) + Collect(b, f)
    decreases |a|
  {
    if a == [] {
      assert a + b == b;
    } else {
      var head := match f(a[0]) case Some(y) => [y] case None => [];
      assert (a + b)[0] == a[0] && (a + b)[1..] == a[1..] + b;
      CollectAppend(a[1..], b, f);
      calc {
        Collect(a + b, f);
        head + Collect(a[1..] + b, f);
        head + (Collect(a[1..], f) + Collect(b, f));
        (head + Collect(a[1..], f)) + Collect(b, f);
      }
    }
  }

  function EducationFor(keywords: seq<string>): Sentence -> Option<EducationEntry> {
    s => EducationOf(s, keywords)
  }

  function ExperienceFor(keywords: seq<string>): Sentence -> Option<ExperienceEntry> {
    s => ExperienceOf(s, keywords)
  }

  /** The entries of the sentences, in sentence order, at most one each. */
  function EducationEntries(sents: seq<Sentence>, keywords: seq<string>): (r: seq<EducationEntry>)
    ensures |r| <= |sents|
    ensures forall x :: x in r <==> exists s :: s in sents && EducationOf(s, keywords) == Some(x)
  {
    CollectMembers(sents, EducationFor(keywords));
    Collect(sents, EducationFor(keywords))
  }

  function ExperienceEntries(sents: seq<Sentence>, keywords: seq<string>): (r: seq<ExperienceEntry>)
    ensures |r| <= |sents|
    ensures forall x :: x in r <==> exists s :: s in sents && ExperienceOf(s, keywords) == Some(x)
  {
    CollectMembers(sents, ExperienceFor(keywords));
    Collect(sents, ExperienceFor(keywords))
  }

  /** The entries of two runs of sentences are those of the first run
      followed by those of the second: sentence order is kept. */
  lemma EducationEntriesAppend(a: seq<Sentence>, b: seq<Sentence>, keywords: seq<string>)
    ensures EducationEntries(a + b, keywords) == EducationEntries(a, keywords) + EducationEntries(b, keywords)
  {
    CollectAppend(a, b, EducationFor(keywords));
  }

  /** One sentence contributes its entry, if it has one. */
  lemma EducationEntriesOne(s: Sentence, keywords: seq<string>)
    ensures EducationEntries([s], keywords) == match EducationOf(s, keywords) case Some(x) => [x] case None => []
  {
    assert [s][1..] == [];
    EducationEntriesCons([s], keywords);
    assert EducationEntries([], keywords) == [];
  }

  /** The entries of a list of sentences: those of its first sentence, then
      those of the rest. */
  lemma EducationEntriesCons(sents: seq<Sentence>, keywords: seq<string>)
    requires sents != []
    ensures EducationEntries(sents, keywords)
      == (match EducationOf(sents[0], keywords) case Some(x) => [x] case None => []) + EducationEntries(sents[1..], keywords)
  {
    assert EducationFor(keywords)(sents[0]) == EducationOf(sents[0], keywords);
  }

  lemma ExperienceEntriesAppend(a: seq<Sentence>, b: seq<Sentence>, keywords: seq<string>)
    ensures ExperienceEntries(a + b, keywords) == ExperienceEntries(a, keywords) + ExperienceEntries(b, keywords)
  {
    CollectAppend(a, b, ExperienceFor(keywords));
  }

  lemma ExperienceEntriesOne(s: Sentence, keywords: seq<string>)
    ensures ExperienceEntries([s], keywords) == match ExperienceOf(s, keywords) case Some(x) => [x] case None => []
  {
    assert [s][1..] == [];
    ExperienceEntriesCons([s], keywords);
    assert ExperienceEntries([], keywords) == [];
  }

  lemma ExperienceEntriesCons(sents: seq<Sentence>, keywords: seq<string>)
    requires sents != []
    ensures ExperienceEntries(sents, keywords)
      == (match ExperienceOf(sents[0], keywords) case Some(x) => [x] case None => []) + ExperienceEntries(sents[1..], keywords)
  {
    assert ExperienceFor(keywords)(sents[0]) == ExperienceOf(sents[0], keywords);
  }

  /** `extract_education(doc, lang_code)` (lines 127-153): the keyword
      table is looked up before the loop, so a code other than `eng` or
      `ind` fails even for a document without sentences. */
  function ExtractEducation(doc: Doc, code: string): (r: Result<seq<EducationEntry>, ExtractError>)
    ensures r.Ok? <==> code == "eng" || code == "ind"
    ensures r.Err? ==> r.error == KeyError(code)
    ensures r.Ok? ==> r.value == EducationEntries(doc.sents, Bilingual(code, EducationKeywordsEng, EducationKeywordsInd).value)
  {
    var keywords :- Bilingual(code, EducationKeywordsEng, EducationKeywordsInd);
    Ok(EducationEntries(doc.sents, keywords))
  }

  /** `extract_work_experience(doc, lang_code)` (lines 155-181). */
  function ExtractExperience(doc: Doc, code: string): (r: Result<seq<ExperienceEntry>, ExtractError>)
    ensures r.Ok? <==> code == "eng" || code == "ind"
    ensures r.Err? ==> r.error == KeyError(code)
    ensures r.Ok? ==> r.value == ExperienceEntries(doc.sents, Bilingual(code, ExperienceKeywordsEng, ExperienceKeywordsInd).value)
  {
    var keywords :- Bilingual(code, ExperienceKeywordsEng, ExperienceKeywordsInd);
    Ok(ExperienceEntries(doc.sents, keywords))
  }

  // ---------------------------------------------------------------------------
  // Languages and certifications
  // ---------------------------------------------------------------------------

  const LanguageKeywords: seq<string> := ["language", "languages", "speak", "fluent"]
  const CommonLanguages: seq<string> := ["English", "Indonesian", "French", "Spanish", "German", "Chinese"]
  const CertificationKeywords: seq<string> := ["certification", "certificate", "certified"]

  /** A table with an entry for `eng` only. */
  function EnglishOnly(code: string, eng: seq<string>): (r: Result<seq<string>, ExtractError>)
    ensures r.Ok? <==> code == "eng"
    ensures r.Err? ==> r.error == KeyError(code)
  {
    if code == "eng" then Ok(eng) else Err(KeyError(code))
  }

  /** The languages named in the keyword sentences, in order. */
  function LanguagesIn(sents: seq<Sentence>): (r: seq<string>)
    ensures forall l :: l in r <==> (l in CommonLanguages &&
      exists s :: s in sents && Mentions(s, LanguageKeywords) && Contains(Lower(s.text), Lower(l)))
  {
    if sents == [] then []
    else
      assert sents == [sents[0]] + sents[1..];
      (if Mentions(sents[0], LanguageKeywords) then NamesIn(CommonLanguages, Lower(sents[0].text)) else [])
        + LanguagesIn(sents[1..])
  }

  /** `extract_languages(doc, lang_code)` (lines 183-201): the keyword table
      is looked up inside the sentence loop, so a code other than `eng`
      fails only when there is a sentence. */
  function ExtractLanguages(doc: Doc, code: string): (r: Result<set<string>, ExtractError>)
    ensures r.Err? <==> code != "eng" && doc.sents != []
    ensures r.Err? ==> r.error == KeyError(code)
    ensures r.Ok? ==> forall l :: l in r.value <==> (l in CommonLanguages &&
      exists s :: s in doc.sents && Mentions(s, LanguageKeywords) && Contains(Lower(s.text), Lower(l)))
  {
    if doc.sents == [] then Ok({})
    else if code != "eng" then Err(KeyError(code))
    else Ok(ToSet(LanguagesIn(doc.sents)))
  }

  /** The proper-noun tokens longer than two characters. */
  function ProperNouns(tokens: seq<Token>): (r: seq<string>)
    ensures forall t :: t in r <==> exists k :: k in tokens && k.properNoun && |k.text| > 2 && k.text == t
  {
    if tokens == [] then []
    else
      assert tokens == [tokens[0]] + tokens[1..];
      (if tokens[0].properNoun && |tokens[0].text| > 2 then [tokens[0].text] else []) + ProperNouns(tokens[1..])
  }

  function CertificationsIn(sents: seq<Sentence>): (r: seq<string>)
    ensures forall t :: t in r <==> exists s :: s in sents && Mentions(s, CertificationKeywords) && t in ProperNouns(s.tokens)
  {
    if sents == [] then []
    else
      assert sents == [sents[0]] + sents[1..];
      (if Mentions(sents[0], CertificationKeywords) then ProperNouns(sents[0].tokens) else [])
        + CertificationsIn(sents[1..])
  }

  /** `extract_certifications(doc, lang_code)` (lines 203-219). */
  function ExtractCertifications(doc: Doc, code: string): (r: Result<set<string>, ExtractError>)
    ensures r.Err? <==> code != "eng" && doc.sents != []
    ensures r.Err? ==> r.error == KeyError(code)
    ensures r.Ok? ==> forall t :: t in r.value <==>
      exists s :: s in doc.sents && Mentions(s, CertificationKeywords) && t in ProperNouns(s.tokens)
  {
    if doc.sents == [] then Ok({})
    else if code != "eng" then Err(KeyError(code))
    else Ok(ToSet(CertificationsIn(doc.sents)))
  }

  // ---------------------------------------------------------------------------
  // Summary
  // ---------------------------------------------------------------------------

  const SummaryHeadersEng: seq<string> := ["summary", "profile", "professional summary", "about me"]
  const SummaryHeadersInd: seq<string> := ["ringkasan", "profil", "tentang saya"]

  /** The longest text a summary section is cut to. */
  const SectionLength: nat := 300

  /** The inner loop of lines 237-240: every other header found in the
      (already shortened) section cuts it at that header's first
      lower-case occurrence, so none of them is left in the result. */
  function CutAtOtherHeaders(section: string, header: string, others: seq<string>): (r: string)
    ensures |r| <= |section| && r == section[..|r|]
    ensures forall k :: 0 <= k < |others| && others[k] != header && others[k] != [] ==> !Contains(Lower(r), others[k])
    decreases |others|
  {
    if others == [] then section
    else
      var next := others[0];
      var cut :=
        if next != header && Contains(Lower(section), next) then section[..Find(Lower(section), next).value]
        else section;
      var r := CutAtOtherHeaders(cut, header, others[1..]);
      CutStep(section, header, next, cut, r);
      assert forall k :: 1 <= k < |others| ==> others[k] == others[1..][k - 1];
      r
  }

  /** One step of the cut: after cutting at `next`, no prefix of the
      result contains it. */
  lemma CutStep(section: string, header: string, next: string, cut: string, r: string)
    requires cut == if next != header && Contains(Lower(section), next) then section[..Find(Lower(section), next).value] else section
    requires |r| <= |cut| && r == cut[..|r|]
    ensures |r| <= |section| && r == section[..|r|]
    ensures next != header && next != [] ==> !Contains(Lower(r), next)
  {
    if next != header && next != [] {
      if Contains(Lower(section), next) {
        var f := Find(Lower(section), next).value;
        NothingBeforeFirst(Lower(section), next);
        LowerPrefix(section, f);
        LowerPrefix(cut, |r|);
        PrefixKeepsAbsence(Lower(cut), |r|, next);
      } else {
        LowerPrefix(section, |r|);
        PrefixKeepsAbsence(Lower(section), |r|, next);
      }
    }
  }

  /** Where no other header occurs in the section, nothing is cut. */
  lemma {:induction false} CutKeepsWithoutOthers(section: string, header: string, others: seq<string>)
    requires forall k :: 0 <= k < |others| ==> others[k] == header || !Contains(Lower(section), others[k])
    ensures CutAtOtherHeaders(section, header, others) == section
    decreases |others|
  {
    if others != [] {
      assert others[0] == header || !Contains(Lower(section), others[0]);
      assert forall k :: 0 <= k < |others[1..]| ==> others[1..][k] == others[k + 1];
      CutKeepsWithoutOthers(section, header, others[1..]);
    }
  }

  /** Another header than `header` begins at offset `n` of the lower-cased
      section. */
  predicate OtherHeaderAt(section: string, header: string, others: seq<string>, n: nat) {
    exists k :: 0 <= k < |others| && others[k] != header && OccursAt(Lower(section), others[k], n)
  }

  /** The section is cut, if at all, exactly where another header begins. */
  lemma {:induction false} CutAtHeaderStart(section: string, header: string, others: seq<string>)
    ensures var r := CutAtOtherHeaders(section, header, others);
      r == section || OtherHeaderAt(section, header, others, |r|)
    decreases |others|
  {
    if others != [] {
      var next := others[0];
      var cut :=
        if next != header && Contains(Lower(section), next) then section[..Find(Lower(section), next).value]
        else section;
      var r := CutAtOtherHeaders(cut, header, others[1..]);
      CutUnfold(section, header, others);
      CutAtHeaderStart(cut, header, others[1..]);
      if r == cut {
        if cut != section {
          HeaderHere(section, header, others, |r|);
        }
      } else {
        HeaderLater(section, |cut|, header, others, |r|);
      }
    }
  }

  lemma HeaderHere(section: string, header: string, others: seq<string>, n: nat)
    requires others != [] && others[0] != header && OccursAt(Lower(section), others[0], n)
    ensures OtherHeaderAt(section, header, others, n)
  {
  }

  lemma HeaderLater(section: string, m: nat, header: string, others: seq<string>, n: nat)
    requires others != [] && m <= |section| && OtherHeaderAt(section[..m], header, others[1..], n)
    ensures OtherHeaderAt(section, header, others, n)
  {
    var k :| 0 <= k < |others[1..]| && others[1..][k] != header && OccursAt(Lower(section[..m]), others[1..][k], n);
    OccursInPrefix(section, m, others[k + 1], n);
    assert k + 1 < |others| && others[k + 1] != header && OccursAt(Lower(section), others[k + 1], n);
  }

  lemma CutUnfold(section: string, header: string, others: seq<string>)
    requires others != []
    ensures CutAtOtherHeaders(section, header, others) == CutAtOtherHeaders(
      if others[0] != header && Contains(Lower(section), others[0]) then section[..Find(Lower(section), others[0]).value]
      else section, header, others[1..])
  {
  }

  /** An occurrence in the lower-cased prefix is one in the lower-cased text. */
  lemma OccursInPrefix(s: string, n: nat, p: string, i: nat)
    requires n <= |s| && OccursAt(Lower(s[..n]), p, i)
    ensures OccursAt(Lower(s), p, i)
  {
    LowerPrefix(s, n);
    assert Lower(s)[..n][i..i + |p|] == Lower(s)[i..i + |p|];
  }

  /** Line 243: the first case-sensitive occurrence of the header is
      removed and the rest trimmed. */
  function DropHeader(section: string, header: string): (r: string)
    ensures |r| <= |section|
    ensures !Contains(section, header) ==> r == Strip(section)
  {
    var replaced := ReplaceOnce(section, header, "");
    assert |replaced| <= |section| by {
      if Find(section, header).Some? {
        var i := Find(section, header).value;
        assert |replaced| == i + (|section| - (i + |header|));
      }
    }
    Strip(replaced)
  }

  /** The header path for one header found in the lower-cased text: a
      window of at most 300 characters from the header's first lower-case
      occurrence, cut before any other header, without the header itself. */
  function SectionAfter(text: string, header: string, headers: seq<string>): (r: string)
    requires Contains(Lower(text), header)
    ensures |r| <= SectionLength
  {
    var pos := Find(Lower(text), header).value;
    var window := Slice(text, pos, pos + SectionLength);
    var cut := CutAtOtherHeaders(window, header, headers);
    DropHeader(cut, header)
  }

  /** No header other than the given one occurs in the section. */
  predicate NoOtherHeader(section: string, header: string, headers: seq<string>) {
    forall k :: 0 <= k < |headers| && headers[k] != header && headers[k] != [] ==>
      !Contains(Lower(section), headers[k])
  }

  /** The window of up to 300 characters of the text from `pos` on. */
  function Window(text: string, pos: nat): (w: string)
    requires pos <= |text|
    ensures |w| <= SectionLength
  {
    text[pos..pos + Min(SectionLength, |text| - pos)]
  }

  /** `r` is the first `n` characters of the window at `pos`, with the
      header removed and the rest trimmed. Those characters hold no other
      header, and they are the whole window, or end exactly where another
      header begins in it. */
  predicate CutFrom(text: string, header: string, headers: seq<string>, pos: nat, n: nat, r: string) {
    && pos <= |text| && n <= |Window(text, pos)|
    && NoOtherHeader(Window(text, pos)[..n], header, headers)
    && (n == |Window(text, pos)| || OtherHeaderAt(Window(text, pos), header, headers, n))
    && r == DropHeader(Window(text, pos)[..n], header)
  }

  /** The section is text from the header's position on: the 300-character
      window, cut where another header begins, with the header removed and
      the rest trimmed. */
  lemma SectionAfterContent(text: string, header: string, headers: seq<string>)
    requires Contains(Lower(text), header)
    ensures exists n: nat :: CutFrom(text, header, headers, Find(Lower(text), header).value, n,
                                     SectionAfter(text, header, headers))
  {
    var pos := Find(Lower(text), header).value;
    var cut := CutAtOtherHeaders(Slice(text, pos, pos + SectionLength), header, headers);
    WindowCut(text, header, headers, pos);
    assert CutFrom(text, header, headers, pos, |cut|, SectionAfter(text, header, headers));
  }

  /** The window from `pos`, cut at the other headers, is a cut in the
      sense of `CutFrom`. */
  lemma WindowCut(text: string, header: string, headers: seq<string>, pos: nat)
    requires pos <= |text|
    ensures var cut := CutAtOtherHeaders(Slice(text, pos, pos + SectionLength), header, headers);
      CutFrom(text, header, headers, pos, |cut|, DropHeader(cut, header))
  {
    var window := Window(text, pos);
    assert Slice(text, pos, pos + SectionLength) == window;
    CutFacts(window, header, headers);
  }

  /** The cut section is a prefix free of other headers, and either the
      whole section or ends where another header begins. */
  lemma CutFacts(section: string, header: string, headers: seq<string>)
    ensures var cut := CutAtOtherHeaders(section, header, headers);
      && cut == section[..|cut|]
      && NoOtherHeader(cut, header, headers)
      && (|cut| == |section| || OtherHeaderAt(section, header, headers, |cut|))
  {
    CutAtHeaderStart(section, header, headers);
  }

  /** The index of the first header of the list that occurs in the
      lower-cased text. */
  function FirstHeader(textLower: string, headers: seq<string>, i: nat): (r: Option<nat>)
    requires i <= |headers|
    ensures r.Some? ==> i <= r.value < |headers| && Contains(textLower, headers[r.value])
    ensures r.Some? ==> forall j :: i <= j < r.value ==> !Contains(textLower, headers[j])
    ensures r.None? ==> forall j :: i <= j < |headers| ==> !Contains(textLower, headers[j])
    decreases |headers| - i
  {
    if i == |headers| then None
    else if Contains(textLower, headers[i]) then Some(i)
    else FirstHeader(textLower, headers, i + 1)
  }

  /** `headers[h]` is the first header of the list found in the text. */
  predicate FirstHeaderAt(textLower: string, headers: seq<string>, h: nat) {
    h < |headers| && Contains(textLower, headers[h]) && forall j :: 0 <= j < h ==> !Contains(textLower, headers[j])
  }

  /** The search finds the first header of the list that the text contains,
      and none when the text contains none. */
  lemma FirstHeaderUnique(textLower: string, headers: seq<string>)
    ensures forall h: nat :: FirstHeaderAt(textLower, headers, h) ==> FirstHeader(textLower, headers, 0) == Some(h)
    ensures FirstHeader(textLower, headers, 0).None? <==> !ContainsAny(textLower, headers)
  {
    var f := FirstHeader(textLower, headers, 0);
    forall h: nat | FirstHeaderAt(textLower, headers, h) ensures f == Some(h) {
    }
  }

  /** A sentence of more than ten words. */
  predicate IsLong(sent: Sentence) {
    |Split(sent.text)| > 10
  }

  /** `sents[k]` is the first sentence of the list with more than ten words. */
  predicate FirstLongAt(sents: seq<Sentence>, k: nat) {
    k < |sents| && IsLong(sents[k]) && forall j :: 0 <= j < k ==> !IsLong(sents[j])
  }

  /** The fallback of lines 246-251: the first of the first three
      sentences with more than ten words. */
  function LongSentence(sents: seq<Sentence>): (r: Option<string>)
    ensures r.Some? ==> exists k: nat :: k < 3 && FirstLongAt(sents, k) && sents[k].text == r.value
    ensures r.None? <==> forall k :: 0 <= k < 3 && k < |sents| ==> !IsLong(sents[k])
  {
    var at := (k: nat) => k < Min(3, |sents|) && IsLong(sents[k]);
    match FirstFrom(at, 0, 2)
    case Some(k) =>
      assert forall j :: 0 <= j < k ==> !IsLong(sents[j]) by {
        forall j | 0 <= j < k ensures !IsLong(sents[j]) {
          assert !at(j);
        }
      }
      assert FirstLongAt(sents, k);
      Some(sents[k].text)
    case None =>
      assert forall k :: 0 <= k < 3 && k < |sents| ==> !IsLong(sents[k]) by {
        forall k | 0 <= k < 3 && k < |sents| ensures !IsLong(sents[k]) {
          assert !at(k);
        }
      }
      None
  }

  /** `extract_summary(doc, lang_code)` (lines 221-251). */
  function ExtractSummary(doc: Doc, code: string): (r: Result<Option<string>, ExtractError>)
    ensures r.Ok? <==> code == "eng" || code == "ind"
    ensures r.Err? ==> r.error == KeyError(code)
    ensures r.Ok? && r.value.Some? && ContainsAny(Lower(doc.text), Bilingual(code, SummaryHeadersEng, SummaryHeadersInd).value) ==>
      |r.value.value| <= SectionLength
    ensures r.Ok? ==> var headers := Bilingual(code, SummaryHeadersEng, SummaryHeadersInd).value;
      && (!ContainsAny(Lower(doc.text), headers) ==> r.value == LongSentence(doc.sents))
      && (forall h: nat :: FirstHeaderAt(Lower(doc.text), headers, h) ==>
            r.value == Some(SectionAfter(doc.text, headers[h], headers)))
  {
    var headers :- Bilingual(code, SummaryHeadersEng, SummaryHeadersInd);
    FirstHeaderUnique(Lower(doc.text), headers);
    match FirstHeader(Lower(doc.text), headers, 0)
    case Some(h) => Ok(Some(SectionAfter(doc.text, headers[h], headers)))
    case None =>
      Ok(LongSentence(doc.sents))
  }

  // ---------------------------------------------------------------------------
  // Confidence
  // ---------------------------------------------------------------------------

  /** `calculate_overall_confidence(result)` (lines 253-271). */
  function OverallConfidence(p: PersonalInfo, skills: set<string>, education: seq<EducationEntry>,
                             experience: seq<ExperienceEntry>): (c: real)
    ensures c == 0.5 <==> !Truthy(p.name) || !Truthy(p.email)
    ensures c == 0.6 <==> Truthy(p.name) && Truthy(p.email) && |skills| < 2
    ensures c == 0.7 <==> Truthy(p.name) && Truthy(p.email) && |skills| >= 2 && (education == [] || experience == [])
    ensures c == 0.9 <==> Truthy(p.name) && Truthy(p.email) && |skills| >= 2 && education != [] && experience != []
  {
    if !Truthy(p.name) || !Truthy(p.email) then 0.5
    else if |skills| < 2 then 0.6
    else if education == [] || experience == [] then 0.7
    else 0.9
  }

  /** Finding more never lowers the overall confidence. */
  lemma OverallConfidenceMonotone(p1: PersonalInfo, s1: set<string>, e1: seq<EducationEntry>, x1: seq<ExperienceEntry>,
                                  p2: PersonalInfo, s2: set<string>, e2: seq<EducationEntry>, x2: seq<ExperienceEntry>)
    requires Truthy(p1.name) ==> Truthy(p2.name)
    requires Truthy(p1.email) ==> Truthy(p2.email)
    requires |s1| <= |s2|
    requires e1 != [] ==> e2 != []
    requires x1 != [] ==> x2 != []
    ensures OverallConfidence(p1, s1, e1, x1) <= OverallConfidence(p2, s2, e2, x2)
  {
  }

  /** The terms of `calculate_personal_info_confidence`: a 1.0 for each of
      a name, an e-mail that the pattern matches again from its start and
      such a phone number, then 0.8 for an address. */
  function PersonalTerms(p: PersonalInfo, m: Matchers): (terms: seq<real>)
    ensures |terms| <= 4
    ensures forall t :: t in terms ==> t == 1.0 || t == 0.8
    ensures 0.8 in terms <==> Truthy(p.address)
    ensures var ones := OneIf(Truthy(p.name)) + OneIf(Truthy(p.email) && m.emailAtStart(p.email.value))
                        + OneIf(Truthy(p.phone) && m.phoneAtStart(p.phone.value));
      && |terms| == ones + OneIf(Truthy(p.address))
      && (forall i :: 0 <= i < ones ==> terms[i] == 1.0)
      && (Truthy(p.address) ==> terms[ones] == 0.8)
  {
    Terms(Truthy(p.name), Truthy(p.email) && m.emailAtStart(p.email.value),
          Truthy(p.phone) && m.phoneAtStart(p.phone.value), Truthy(p.address))
  }

  /** 1 when the field counts, else 0. */
  function OneIf(b: bool): nat {
    if b then 1 else 0
  }

  /** The terms for the fields that count, in field order: the 1.0 terms
      first, then the address term. */
  function Terms(name: bool, email: bool, phone: bool, address: bool): (terms: seq<real>)
    ensures forall t :: t in terms ==> t == 1.0 || t == 0.8
    ensures 0.8 in terms <==> address
    ensures var ones := OneIf(name) + OneIf(email) + OneIf(phone);
      && |terms| == ones + OneIf(address)
      && (forall i :: 0 <= i < ones ==> terms[i] == 1.0)
      && (address ==> terms[ones] == 0.8)
  {
    var a, b, c := (if name then [1.0] else []), (if email then [1.0] else []), (if phone then [1.0] else []);
    var d := if address then [0.8] else [];
    a + b + c + d
  }

  function Sum(xs: seq<real>): real {
    if xs == [] then 0.0 else xs[0] + Sum(xs[1..])
  }

  /** `calculate_personal_info_confidence(personal_info)` (lines 273-298):
      0 when no field counts, else an average of terms 1.0 and 0.8, so in
      [0.8, 1.0] and exactly 1.0 when there is no address. */
  function PersonalConfidence(p: PersonalInfo, m: Matchers): (c: real)
    ensures PersonalTerms(p, m) == [] ==> c == 0.0
    ensures PersonalTerms(p, m) != [] ==> 0.8 <= c <= 1.0
    ensures PersonalTerms(p, m) != [] ==> (c == 1.0 <==> !Truthy(p.address))
    ensures var n := |PersonalTerms(p, m)| as real;
      c * n == n - (if Truthy(p.address) then 0.2 else 0.0)
  {
    PersonalAverage(p, m);
    Average(PersonalTerms(p, m))
  }

  /** The mean of the terms, 0 for none. */
  function Average(terms: seq<real>): real {
    if terms == [] then 0.0 else Sum(terms) / (|terms| as real)
  }

  lemma PersonalAverage(p: PersonalInfo, m: Matchers)
    ensures PersonalTerms(p, m) == [] ==> Average(PersonalTerms(p, m)) == 0.0
    ensures PersonalTerms(p, m) != [] ==> 0.8 <= Average(PersonalTerms(p, m)) <= 1.0
    ensures PersonalTerms(p, m) != [] ==> (Average(PersonalTerms(p, m)) == 1.0 <==> !Truthy(p.address))
    ensures Average(PersonalTerms(p, m)) * (|PersonalTerms(p, m)| as real)
         == (|PersonalTerms(p, m)| as real) - (if Truthy(p.address) then 0.2 else 0.0)
  {
    var terms := PersonalTerms(p, m);
    var ones := OneIf(Truthy(p.name)) + OneIf(Truthy(p.email) && m.emailAtStart(p.email.value))
                + OneIf(Truthy(p.phone) && m.phoneAtStart(p.phone.value));
    var n := |terms| as real;
    if terms == [] {
      ProductWithNoTerms(Average(terms), n, Truthy(p.address));
    } else {
      SumOfPersonalTerms(terms, ones, Truthy(p.address));
      ConfidenceOfSum(Average(terms), Sum(terms), n, Truthy(p.address));
    }
  }

  lemma ProductWithNoTerms(c: real, n: real, address: bool)
    requires c == 0.0 && n == 0.0 && !address
    ensures c * n == n - (if address then 0.2 else 0.0)
  {
  }

  /** The average of n terms adding up to n, less 0.2 with an address. */
  lemma ConfidenceOfSum(c: real, total: real, n: real, address: bool)
    requires n >= 1.0 && total == n - (if address then 0.2 else 0.0) && c == total / n
    ensures 0.8 <= c <= 1.0
    ensures c == 1.0 <==> !address
    ensures c * n == n - (if address then 0.2 else 0.0)
  {
    assert c * n == total;
    if address {
      assert c * n == n - 0.2;
      assert c == 1.0 - 0.2 / n;
      assert 0.2 / n <= 0.2;
    }
  }

  /** The terms of `PersonalTerms` add up to one per counted name, email
      and phone, plus 0.8 for an address. */
  lemma {:induction false} SumOfPersonalTerms(terms: seq<real>, ones: nat, address: bool)
    requires |terms| == ones + (if address then 1 else 0)
    requires forall i :: 0 <= i < ones ==> terms[i] == 1.0
    requires address ==> terms[ones] == 0.8
    ensures Sum(terms) == ones as real + (if address then 0.8 else 0.0)
    decreases ones
  {
    if ones == 0 {
      if address {
        assert terms[1..] == [];
      }
    } else {
      SumOfPersonalTerms(terms[1..], ones - 1, address);
    }
  }

  /** An average of terms 1.0 and 0.8 lies in [0.8, 1.0], and is 1.0
      exactly when no term is 0.8. */
  lemma {:induction false} AverageOfTerms(terms: seq<real>)
    requires terms != []
    requires forall t :: t in terms ==> t == 1.0 || t == 0.8
    ensures 0.8 * (|terms| as real) <= Sum(terms) <= |terms| as real
    ensures Sum(terms) == |terms| as real <==> 0.8 !in terms
    decreases |terms|
  {
    var rest := terms[1..];
    assert Sum(terms) == terms[0] + Sum(rest);
    assert terms[0] in terms;
    assert forall t :: t in terms <==> t == terms[0] || t in rest by {
      assert terms == [terms[0]] + rest;
    }
    if rest != [] {
      AverageOfTerms(rest);
    }
  }

  /** The per-section confidence: 0.85 when the section found anything. */
  function SectionConfidence(found: bool): (c: real)
    ensures c == 0.85 <==> found
    ensures c == 0.0 <==> !found
  {
    if found then 0.85 else 0.0
  }

  // ---------------------------------------------------------------------------
  // extract_entities
  // ---------------------------------------------------------------------------

  /** `extract_entities(doc, lang_code)` (lines 29-50): the sections in the
      order of the result literal, then the confidence scores. */
  function ExtractEntities(doc: Doc, code: string, m: Matchers): (r: Result<Extraction, ExtractError>)
    ensures r.Ok? <==> code == "eng" || (code == "ind" && doc.sents == [])
    ensures r.Err? ==> r.error == KeyError(code)
    ensures r.Ok? ==> && r.value.confidence.skills == SectionConfidence(r.value.skills != {})
                      && r.value.confidence.education == SectionConfidence(r.value.education != [])
                      && r.value.confidence.workExperience == SectionConfidence(r.value.workExperience != [])
                      && r.value.confidence.personalInfo == PersonalConfidence(r.value.personalInfo, m)
                      && r.value.confidence.overall == OverallConfidence(r.value.personalInfo, r.value.skills,
                                                                         r.value.education, r.value.workExperience)
    ensures r.Ok? ==> && r.value.personalInfo == ExtractPersonalInfo(doc, m)
                      && r.value.skills == ExtractSkills(doc)
                      && Ok(r.value.education) == ExtractEducation(doc, code)
                      && Ok(r.value.workExperience) == ExtractExperience(doc, code)
                      && Ok(r.value.languages) == ExtractLanguages(doc, code)
                      && Ok(r.value.certifications) == ExtractCertifications(doc, code)
                      && Ok(r.value.summary) == ExtractSummary(doc, code)
  {
    // Education is the first section to fail on an unknown code and
    // languages the first on `ind`; the other sections fail only when one
    // of these two does, with the same error.
    var education := ExtractEducation(doc, code);
    var languages := ExtractLanguages(doc, code);
    if education.Err? then Err(education.error)
    else if languages.Err? then Err(languages.error)
    else
    var personal := ExtractPersonalInfo(doc, m);
    var skills := ExtractSkills(doc);
    var experience := ExtractExperience(doc, code).value;
    var certifications := ExtractCertifications(doc, code).value;
    var summary := ExtractSummary(doc, code).value;
    var confidence := Confidence(
      OverallConfidence(personal, skills, education.value, experience),
      PersonalConfidence(personal, m),
      SectionConfidence(skills != {}),
      SectionConfidence(education.value != []),
      SectionConfidence(experience != []));
    Ok(Extraction(personal, skills, education.value, experience, languages.value, certifications, summary, confidence))
  }

  /** The header is found case-insensitively but removed case-sensitively,
      so a capitalised header stays in the summary. */
  lemma CapitalisedHeaderStays()
    ensures ExtractSummary(Doc("Summary: SQL", [], []), "eng") == Ok(Some("Summary: SQL"))
  {
    var text := "Summary: SQL";
    ExampleLower();
    assert OccursAt(Lower(text), "summary", 0);
    assert FirstHeader(Lower(text), SummaryHeadersEng, 0) == Some(0);
    ExampleSection();
  }

  lemma ExampleLower()
    ensures Lower("Summary: SQL") == "summary: sql"
  {
  }

  lemma ExampleNoOtherHeader()
    ensures !Contains("summary: sql", "profile")
    ensures !Contains("summary: sql", "about me")
    ensures !Contains("summary: sql", "professional summary")
  {
    AbsentWithoutStart("summary: sql", "profile");
    AbsentWithoutStart("summary: sql", "about me");
  }

  lemma ExampleCut()
    ensures CutAtOtherHeaders("Summary: SQL", "summary", SummaryHeadersEng) == "Summary: SQL"
  {
    ExampleLower();
    ExampleNoOtherHeader();
    var text := "Summary: SQL";
    var h := SummaryHeadersEng;
    assert forall k :: 0 <= k < |h| ==> h[k] == "summary" || !Contains(Lower(text), h[k]);
    CutKeepsWithoutOthers(text, "summary", h);
  }

  lemma ExampleSection()
    ensures SectionAfter("Summary: SQL", "summary", SummaryHeadersEng) == "Summary: SQL"
  {
    ExampleFind();
    ExampleWindow();
    ExampleCut();
    ExampleDrop();
  }

  lemma ExampleFind()
    ensures Find(Lower("Summary: SQL"), "summary") == Some(0)
  {
    ExampleLower();
    assert OccursAt(Lower("Summary: SQL"), "summary", 0);
  }

  lemma ExampleWindow()
    ensures Slice("Summary: SQL", 0, 0 + SectionLength) == "Summary: SQL"
  {
    var text := "Summary: SQL";
    assert text[0..|text|] == text;
  }

  lemma ExampleDrop()
    ensures DropHeader("Summary: SQL", "summary") == "Summary: SQL"
  {
    assert !Contains("Summary: SQL", "summary") by {
      AbsentWithoutStart("Summary: SQL", "summary");
    }
    StripKeepsTrimmed("Summary: SQL");
  }
}

=== FILE: exporter.dfy ===
/**
 * Export of an analysis result: the case-insensitive format dispatch, the
 * flattening of one nested result into a single table row, and the rows
 * and counts of the bulk workbook. Writing files (JSON text, CSV, Excel
 * workbooks, PDF annotations) is not modelled; the exports return the
 * data they would write.
 */
module Exporter {
  import opened Wrappers
  import opened Text
  import opened Json
  import EntityExtractor

  datatype ExportError =
    | UnsupportedFormat(format: string)
    | JoinTypeError          // `', '.join` over `None` or a non-string item
    | MissingPersonalInfo    // `result['extracted_info']['personal_info']` without the key
    | MissingCountColumn     // `sort_values('Count')` on the frame of an empty skill table

  /** The columns of the flattened export, in the order they are written. */
  datatype Col =
    | Filename | Language | LanguageConfidence
    | Name | Email | Phone | Address
    | Skills | Languages | Certifications | Summary
    | EducationInstitution | EducationDegree | EducationDates
    | ExperienceCompany | ExperienceTitle | ExperienceDates
    | OverallConfidence | PersonalInfoConfidence | SkillsConfidence

  /** The header each column carries in the CSV file and the workbook. */
  function Title(c: Col): string {
    match c
    case Filename => "Filename"
    case Language => "Language"
    case LanguageConfidence => "Language Confidence"
    case Name => "Name"
    case Email => "Email"
    case Phone => "Phone"
    case Address => "Address"
    case Skills => "Skills"
    case Languages => "Languages"
    case Certifications => "Certifications"
    case Summary => "Summary"
    case EducationInstitution => "Education Institution"
    case EducationDegree => "Education Degree"
    case EducationDates => "Education Dates"
    case ExperienceCompany => "Experience Company"
    case ExperienceTitle => "Experience Title"
    case ExperienceDates => "Experience Dates"
    case OverallConfidence => "Overall Confidence"
    case PersonalInfoConfidence => "Personal Info Confidence"
    case SkillsConfidence => "Skills Confidence"
  }

  /** The position of a column in the export's column order. */
  function Rank(c: Col): nat {
    match c
    case Filename => 0
    case Language => 1
    case LanguageConfidence => 2
    case Name => 3
    case Email => 4
    case Phone => 5
    case Address => 6
    case Skills => 7
    case Languages => 8
    case Certifications => 9
    case Summary => 10
    case EducationInstitution => 11
    case EducationDegree => 12
    case EducationDates => 13
    case ExperienceCompany => 14
    case ExperienceTitle => 15
    case ExperienceDates => 16
    case OverallConfidence => 17
    case PersonalInfoConfidence => 18
    case SkillsConfidence => 19
  }

  /** `d.get(k, default)`. */
  function Get(d: map<string, Value>, k: string, default: Value): Value {
    if k in d then d[k] else default
  }

  // ---------------------------------------------------------------------------
  // The shape of a result
  // ---------------------------------------------------------------------------

  /** A dates value as the extractor writes it: absent, `None` or a list. */
  predicate DatesShaped(entry: map<string, Value>) {
    "dates" in entry ==> entry["dates"].List? || entry["dates"].Null?
  }

  predicate EntriesShaped(v: Value) {
    v.List? && forall i :: 0 <= i < |v.items| ==> v.items[i].Obj? && DatesShaped(v.items[i].fields)
  }

  /** The shape of `extracted_info` that the exporter indexes into. */
  predicate InfoShaped(info: map<string, Value>) {
    && ("personal_info" in info ==> info["personal_info"].Obj?)
    && ("skills" in info ==> info["skills"].List?)
    && ("languages" in info ==> info["languages"].List?)
    && ("certifications" in info ==> info["certifications"].List?)
    && ("education" in info ==> EntriesShaped(info["education"]))
    && ("work_experience" in info ==> EntriesShaped(info["work_experience"]))
    && ("confidence_scores" in info ==> info["confidence_scores"].Obj?)
  }

  predicate WellShaped(data: map<string, Value>) {
    "extracted_info" in data ==> data["extracted_info"].Obj? && InfoShaped(data["extracted_info"].fields)
  }

  /** `data['extracted_info']`, or an empty dictionary when it is missing:
      every section below is guarded by `'extracted_info' in data`. */
  function Info(data: map<string, Value>): map<string, Value>
    requires WellShaped(data)
  {
    if "extracted_info" in data then data["extracted_info"].fields else map[]
  }

  // ---------------------------------------------------------------------------
  // Joining
  // ---------------------------------------------------------------------------

  predicate AllStrings(items: seq<Value>) {
    forall i :: 0 <= i < |items| ==> items[i].Str?
  }

  function Strings(items: seq<Value>): (r: seq<string>)
    requires AllStrings(items)
    ensures |r| == |items| && forall i :: 0 <= i < |items| ==> r[i] == items[i].s
  {
    seq(|items|, i requires 0 <= i < |items| => items[i].s)
  }

  /** `', '.join(v)` for a list or `None`: the strings in list order, or a
      type error for `None` and for a non-string item. */
  function JoinValue(v: Value): (r: Result<string, ExportError>)
    requires v.List? || v.Null?
    ensures r.Ok? <==> v.List? && AllStrings(v.items)
    ensures r.Ok? ==> r.value == Join(", ", Strings(v.items))
    ensures r.Err? ==> r.error == JoinTypeError
  {
    if v.List? && AllStrings(v.items) then Ok(Join(", ", Strings(v.items))) else Err(JoinTypeError)
  }

  /** `', '.join(entry.get('dates', []))`. */
  function JoinDates(entry: map<string, Value>): (r: Result<string, ExportError>)
    requires DatesShaped(entry)
    ensures r.Ok? <==> DatesJoinable(entry)
    ensures r.Ok? && "dates" !in entry ==> r.value == ""
    ensures r.Ok? && "dates" in entry ==> r.value == Join(", ", Strings(entry["dates"].items))
    ensures r.Err? ==> r.error == JoinTypeError
  {
    if "dates" in entry then JoinValue(entry["dates"]) else Ok("")
  }

  /** The dates of an entry can be joined: absent, or a list of strings. */
  predicate DatesJoinable(entry: map<string, Value>) {
    "dates" in entry ==> entry["dates"].List? && AllStrings(entry["dates"].items)
  }

  // ---------------------------------------------------------------------------
  // _flatten_data_for_export
  // ---------------------------------------------------------------------------

  datatype LanguageCells = LanguageCells(name: string, confidence: Value)
  datatype PersonalCells = PersonalCells(name: Value, email: Value, phone: Value, address: Value)
  /** The first entry of a list: two of its fields and its joined dates. */
  datatype EntryCells = EntryCells(first: Value, second: Value, dates: string)
  datatype ConfidenceCells = ConfidenceCells(overall: Value, personalInfo: Value, skills: Value)

  /** One flattened result, a section per group of columns; `None` means
      the section's columns are absent from the row. */
  datatype Flat = Flat(
    filename: Option<Value>,
    language: Option<LanguageCells>,
    personal: Option<PersonalCells>,
    skills: Option<string>,
    languages: Option<string>,
    certifications: Option<string>,
    summary: Option<Value>,
    education: Option<EntryCells>,
    experience: Option<EntryCells>,
    confidence: Option<ConfidenceCells>)

  /** The cell a flattened row holds in column `c`, if any. */
  function Cell(f: Flat, c: Col): Option<Value> {
    match c
    case Filename => f.filename
    case Language => if f.language.Some? then Some(Str(f.language.value.name)) else None
    case LanguageConfidence => if f.language.Some? then Some(f.language.value.confidence) else None
    case Name => if f.personal.Some? then Some(f.personal.value.name) else None
    case Email => if f.personal.Some? then Some(f.personal.value.email) else None
    case Phone => if f.personal.Some? then Some(f.personal.value.phone) else None
    case Address => if f.personal.Some? then Some(f.personal.value.address) else None
    case Skills => if f.skills.Some? then Some(Str(f.skills.value)) else None
    case Languages => if f.languages.Some? then Some(Str(f.languages.value)) else None
    case Certifications => if f.certifications.Some? then Some(Str(f.certifications.value)) else None
    case Summary => f.summary
    case EducationInstitution => if f.education.Some? then Some(f.education.value.first) else None
    case EducationDegree => if f.education.Some? then Some(f.education.value.second) else None
    case EducationDates => if f.education.Some? then Some(Str(f.education.value.dates)) else None
    case ExperienceCompany => if f.experience.Some? then Some(f.experience.value.first) else None
    case ExperienceTitle => if f.experience.Some? then Some(f.experience.value.second) else None
    case ExperienceDates => if f.experience.Some? then Some(Str(f.experience.value.dates)) else None
    case OverallConfidence => if f.confidence.Some? then Some(f.confidence.value.overall) else None
    case PersonalInfoConfidence => if f.confidence.Some? then Some(f.confidence.value.personalInfo) else None
    case SkillsConfidence => if f.confidence.Some? then Some(f.confidence.value.skills) else None
  }

  /** Every column in the export's order. */
  const Order: seq<Col> := [
    Filename, Language, LanguageConfidence, Name, Email, Phone, Address,
    Skills, Languages, Certifications, Summary,
    EducationInstitution, EducationDegree, EducationDates,
    ExperienceCompany, ExperienceTitle, ExperienceDates,
    OverallConfidence, PersonalInfoConfidence, SkillsConfidence]

  predicate Ordered(cols: seq<Col>) {
    forall i, j :: 0 <= i < j < |cols| ==> Rank(cols[i]) < Rank(cols[j])
  }

  lemma OrderIsRanked()
    ensures Ordered(Order)
    ensures forall c :: c in Order
  {
    assert forall i :: 0 <= i < |Order| ==> Rank(Order[i]) == i;
    forall c ensures c in Order {
      assert Order[Rank(c)] == c;
    }
  }

  function ColumnsOf(cells: seq<(Col, Value)>): seq<Col> {
    seq(|cells|, i requires 0 <= i < |cells| => cells[i].0)
  }

  /** The cells of `f` in the columns `cols`, keeping their order. */
  function CellsIn(f: Flat, cols: seq<Col>): (r: seq<(Col, Value)>)
    ensures forall c :: c in ColumnsOf(r) <==> c in cols && Cell(f, c).Some?
    ensures forall i :: 0 <= i < |r| ==> Cell(f, r[i].0) == Some(r[i].1)
    ensures Ordered(cols) ==> Ordered(ColumnsOf(r))
  {
    if cols == [] then []
    else
      var rest := CellsIn(f, cols[1..]);
      match Cell(f, cols[0])
      case Some(v) =>
        ConsCell(f, cols, v, rest);
        [(cols[0], v)] + rest
      case None =>
        SkipCell(f, cols, rest);
        rest
  }

  /** A set cell put in front of the cells of the later columns. */
  lemma ConsCell(f: Flat, cols: seq<Col>, v: Value, rest: seq<(Col, Value)>)
    requires cols != [] && Cell(f, cols[0]) == Some(v)
    requires forall c :: c in ColumnsOf(rest) <==> c in cols[1..] && Cell(f, c).Some?
    requires forall i :: 0 <= i < |rest| ==> Cell(f, rest[i].0) == Some(rest[i].1)
    requires Ordered(cols[1..]) ==> Ordered(ColumnsOf(rest))
    ensures var r := [(cols[0], v)] + rest;
      && (forall c :: c in ColumnsOf(r) <==> c in cols && Cell(f, c).Some?)
      && (forall i :: 0 <= i < |r| ==> Cell(f, r[i].0) == Some(r[i].1))
      && (Ordered(cols) ==> Ordered(ColumnsOf(r)))
  {
    var r := [(cols[0], v)] + rest;
    assert ColumnsOf(r) == [cols[0]] + ColumnsOf(rest);
    assert forall c :: c in cols <==> c == cols[0] || c in cols[1..];
    if Ordered(cols) {
      assert Ordered(cols[1..]);
      forall c | c in ColumnsOf(rest) ensures Rank(cols[0]) < Rank(c) {
        var j :| 0 <= j < |cols[1..]| && cols[1..][j] == c;
        assert cols[j + 1] == c;
      }
    }
  }

  /** An unset cell is skipped. */
  lemma SkipCell(f: Flat, cols: seq<Col>, rest: seq<(Col, Value)>)
    requires cols != [] && Cell(f, cols[0]).None?
    requires forall c :: c in ColumnsOf(rest) <==> c in cols[1..] && Cell(f, c).Some?
    requires Ordered(cols[1..]) ==> Ordered(ColumnsOf(rest))
    ensures forall c :: c in ColumnsOf(rest) <==> c in cols && Cell(f, c).Some?
    ensures Ordered(cols) ==> Ordered(ColumnsOf(rest))
  {
    assert forall c :: c in cols <==> c == cols[0] || c in cols[1..];
    if Ordered(cols) {
      assert Ordered(cols[1..]);
    }
  }

  /** The row as written by the CSV writer and as the overview sheet: the
      present cells in the order the flattening inserts them. Each column
      appears once, because the order is strictly increasing in rank. */
  function Cells(f: Flat): (r: seq<(Col, Value)>)
    ensures forall c :: c in ColumnsOf(r) <==> Cell(f, c).Some?
    ensures forall i :: 0 <= i < |r| ==> Cell(f, r[i].0) == Some(r[i].1)
    ensures Ordered(ColumnsOf(r))
  {
    OrderIsRanked();
    CellsIn(f, Order)
  }

  /** The first entry of a non-empty entry list under `key`. */
  function FirstEntry(info: map<string, Value>, key: string): (r: Option<map<string, Value>>)
    requires key in info ==> EntriesShaped(info[key])
    ensures r.Some? <==> key in info && info[key].items != []
    ensures r.Some? ==> r.value == info[key].items[0].fields && DatesShaped(r.value)
  {
    if key in info && info[key].items != [] then Some(info[key].items[0].fields) else None
  }

  /** Lines 147-156: the list under `key`, joined with `", "`, when present. */
  function JoinedList(info: map<string, Value>, key: string): (r: Result<Option<string>, ExportError>)
    requires key in info ==> info[key].List?
    ensures r.Ok? <==> key in info ==> AllStrings(info[key].items)
    ensures r.Ok? ==> (r.value.Some? <==> key in info)
    ensures r.Ok? && key in info ==> r.value.value == Join(", ", Strings(info[key].items))
    ensures r.Err? ==> r.error == JoinTypeError
  {
    if key in info then
      var joined :- JoinValue(info[key]);
      Ok(Some(joined))
    else Ok(None)
  }

  /** Lines 163-167 and 170-174: the fields `first` and `second` and the
      joined dates of the first entry under `key`; nothing for an empty list. */
  function FirstEntryCells(info: map<string, Value>, key: string, first: string, second: string)
    : (r: Result<Option<EntryCells>, ExportError>)
    requires key in info ==> EntriesShaped(info[key])
    ensures r.Ok? <==> FirstEntry(info, key).Some? ==> DatesJoinable(FirstEntry(info, key).value)
    ensures r.Ok? ==> (r.value.Some? <==> FirstEntry(info, key).Some?)
    ensures r.Ok? && r.value.Some? ==>
      var e := info[key].items[0].fields;
      && r.value.value.first == Get(e, first, Str(""))
      && r.value.value.second == Get(e, second, Str(""))
      && ("dates" !in e ==> r.value.value.dates == "")
      && ("dates" in e ==> r.value.value.dates == Join(", ", Strings(e["dates"].items)))
    ensures r.Err? ==> r.error == JoinTypeError
  {
    match FirstEntry(info, key)
    case None => Ok(None)
    case Some(e) =>
      var dates :- JoinDates(e);
      Ok(Some(EntryCells(Get(e, first, Str("")), Get(e, second, Str("")), dates)))
  }

  /** Lines 134-136. */
  function LanguageName(code: Value): (name: string)
    ensures name == "English" <==> code == Str("eng")
    ensures name == "English" || name == "Bahasa Indonesia"
  {
    if code == Str("eng") then "English" else "Bahasa Indonesia"
  }

  /** Line 132. */
  function FilenameCell(data: map<string, Value>): (r: Option<Value>)
    ensures r.Some? <==> "filename" in data
    ensures r.Some? ==> r.value == data["filename"]
  {
    if "filename" in data then Some(data["filename"]) else None
  }

  /** Lines 134-136. */
  function LanguageOf(data: map<string, Value>): (r: Option<LanguageCells>)
    ensures r.Some? <==> "language" in data
    ensures r.Some? ==>
      && (r.value.name == "English" <==> data["language"] == Str("eng"))
      && (r.value.name == "English" || r.value.name == "Bahasa Indonesia")
      && r.value.confidence == Get(data, "language_confidence", Str(""))
  {
    if "language" in data
    then Some(LanguageCells(LanguageName(data["language"]), Get(data, "language_confidence", Str(""))))
    else None
  }

  /** Lines 139-144. */
  function PersonalOf(info: map<string, Value>): (r: Option<PersonalCells>)
    requires InfoShaped(info)
    ensures r.Some? <==> "personal_info" in info
    ensures r.Some? ==>
      var p := info["personal_info"].fields;
      && r.value.name == Get(p, "name", Str(""))
      && r.value.email == Get(p, "email", Str(""))
      && r.value.phone == Get(p, "phone", Str(""))
      && r.value.address == Get(p, "address", Str(""))
  {
    if "personal_info" in info then
      var p := info["personal_info"].fields;
      Some(PersonalCells(Get(p, "name", Str("")), Get(p, "email", Str("")),
                         Get(p, "phone", Str("")), Get(p, "address", Str(""))))
    else None
  }

  /** Lines 159-160. */
  function SummaryOf(info: map<string, Value>): (r: Option<Value>)
    ensures r.Some? <==> "summary" in info
    ensures r.Some? ==> r.value == info["summary"]
  {
    if "summary" in info then Some(info["summary"]) else None
  }

  /** Lines 177-181: three of the scores, each defaulting to `''`. */
  function ConfidenceOf(info: map<string, Value>): (r: Option<ConfidenceCells>)
    requires InfoShaped(info)
    ensures r.Some? <==> "confidence_scores" in info
    ensures r.Some? ==>
      var s := info["confidence_scores"].fields;
      && r.value.overall == Get(s, "overall", Str(""))
      && r.value.personalInfo == Get(s, "personal_info", Str(""))
      && r.value.skills == Get(s, "skills", Str(""))
  {
    if "confidence_scores" in info then
      var s := info["confidence_scores"].fields;
      Some(ConfidenceCells(Get(s, "overall", Str("")), Get(s, "personal_info", Str("")), Get(s, "skills", Str(""))))
    else None
  }

  /** Every join of the flattening succeeds: the three lists hold only
      strings, and the first education and work entries have joinable dates. */
  predicate FlattenSucceeds(data: map<string, Value>)
    requires WellShaped(data)
  {
    var info := Info(data);
    && ("skills" in info ==> AllStrings(info["skills"].items))
    && ("languages" in info ==> AllStrings(info["languages"].items))
    && ("certifications" in info ==> AllStrings(info["certifications"].items))
    && (FirstEntry(info, "education").Some? ==> DatesJoinable(FirstEntry(info, "education").value))
    && (FirstEntry(info, "work_experience").Some? ==> DatesJoinable(FirstEntry(info, "work_experience").value))
  }

  /** For each section of the row, whether the key it is read from is
      present (for education and experience: a non-empty list). */
  datatype Gates = Gates(
    filename: bool, language: bool, personal: bool, skills: bool, languages: bool,
    certifications: bool, summary: bool, education: bool, experience: bool, confidence: bool)

  function GatesOf(data: map<string, Value>): Gates
    requires WellShaped(data)
  {
    var info := Info(data);
    Gates("filename" in data, "language" in data, "personal_info" in info, "skills" in info,
          "languages" in info, "certifications" in info, "summary" in info,
          FirstEntry(info, "education").Some?, FirstEntry(info, "work_experience").Some?,
          "confidence_scores" in info)
  }

  /** The gate of the section column `c` belongs to. */
  predicate Opens(g: Gates, c: Col) {
    match c
    case Filename => g.filename
    case Language | LanguageConfidence => g.language
    case Name | Email | Phone | Address => g.personal
    case Skills => g.skills
    case Languages => g.languages
    case Certifications => g.certifications
    case Summary => g.summary
    case EducationInstitution | EducationDegree | EducationDates => g.education
    case ExperienceCompany | ExperienceTitle | ExperienceDates => g.experience
    case OverallConfidence | PersonalInfoConfidence | SkillsConfidence => g.confidence
  }

  /** Which key of the result makes a column appear. */
  predicate Gated(data: map<string, Value>, c: Col)
    requires WellShaped(data)
  {
    Opens(GatesOf(data), c)
  }

  /** `_flatten_data_for_export(data)` (lines 126-183). */
  function Flatten(data: map<string, Value>): (r: Result<Flat, ExportError>)
    requires WellShaped(data)
    ensures r.Ok? <==> FlattenSucceeds(data)
    ensures r.Err? ==> r.error == JoinTypeError
    ensures r.Ok? ==> var f := r.value; var info := Info(data);
      && f.filename == FilenameCell(data)
      && f.language == LanguageOf(data)
      && f.personal == PersonalOf(info)
      && (f.skills.Some? <==> "skills" in info)
      && (f.skills.Some? ==> f.skills.value == Join(", ", Strings(info["skills"].items)))
      && (f.languages.Some? <==> "languages" in info)
      && (f.languages.Some? ==> f.languages.value == Join(", ", Strings(info["languages"].items)))
      && (f.certifications.Some? <==> "certifications" in info)
      && (f.certifications.Some? ==> f.certifications.value == Join(", ", Strings(info["certifications"].items)))
      && f.summary == SummaryOf(info)
      && f.education == FirstEntryCells(info, "education", "institution", "degree").value
      && f.experience == FirstEntryCells(info, "work_experience", "company", "title").value
      && f.confidence == ConfidenceOf(info)
  {
    var info := Info(data);
    var skills := JoinedList(info, "skills");
    var languages := JoinedList(info, "languages");
    var certifications := JoinedList(info, "certifications");
    var education := FirstEntryCells(info, "education", "institution", "degree");
    var experience := FirstEntryCells(info, "work_experience", "company", "title");
    if skills.Ok? && languages.Ok? && certifications.Ok? && education.Ok? && experience.Ok? then
      Ok(Flat(FilenameCell(data), LanguageOf(data), PersonalOf(info),
              skills.value, languages.value, certifications.value, SummaryOf(info),
              education.value, experience.value, ConfidenceOf(info)))
    else Err(JoinTypeError)
  }

  // ---------------------------------------------------------------------------
  // Properties of the flattened row
  // ---------------------------------------------------------------------------

  /** Lines 131-181: a column is written exactly when the key it is read
      from is present (for education and experience: a non-empty list). */
  lemma FlattenColumnsGated(data: map<string, Value>, c: Col)
    requires WellShaped(data) && FlattenSucceeds(data)
    ensures c in ColumnsOf(Cells(Flatten(data).value)) <==> Gated(data, c)
  {
    FlattenGates(data, c);
    ColumnsPresent(Flatten(data).value, c);
  }

  lemma FlattenGates(data: map<string, Value>, c: Col)
    requires WellShaped(data) && FlattenSucceeds(data)
    ensures Gated(data, c) <==> Opens(Presence(Flatten(data).value), c)
  {
    FlattenPresence(data);
  }

  /** A row has a column exactly when the column's section is present. */
  lemma ColumnsPresent(f: Flat, c: Col)
    ensures c in ColumnsOf(Cells(f)) <==> Opens(Presence(f), c)
  {
    CellGated(f, c);
  }

  /** Which sections a flattened row has. */
  function Presence(f: Flat): Gates {
    Gates(f.filename.Some?, f.language.Some?, f.personal.Some?, f.skills.Some?, f.languages.Some?,
          f.certifications.Some?, f.summary.Some?, f.education.Some?, f.experience.Some?,
          f.confidence.Some?)
  }

  /** A successful flattening has exactly the sections whose keys are present. */
  lemma FlattenPresence(data: map<string, Value>)
    requires WellShaped(data) && FlattenSucceeds(data)
    ensures Presence(Flatten(data).value) == GatesOf(data)
  {
    HeadPresence(data);
    EntryPresence(data);
  }

  /** The sections before the entry lists are present as their keys are. */
  lemma HeadPresence(data: map<string, Value>)
    requires WellShaped(data) && FlattenSucceeds(data)
    ensures var f := Flatten(data).value; var info := Info(data);
      && (f.filename.Some? <==> "filename" in data)
      && (f.language.Some? <==> "language" in data)
      && (f.personal.Some? <==> "personal_info" in info)
      && (f.skills.Some? <==> "skills" in info)
      && (f.languages.Some? <==> "languages" in info)
      && (f.certifications.Some? <==> "certifications" in info)
      && (f.summary.Some? <==> "summary" in info)
      && (f.confidence.Some? <==> "confidence_scores" in info)
  {
  }

  /** The entry columns are present as the entry lists are non-empty. */
  lemma EntryPresence(data: map<string, Value>)
    requires WellShaped(data) && FlattenSucceeds(data)
    ensures var f := Flatten(data).value; var info := Info(data);
      && (f.education.Some? <==> FirstEntry(info, "education").Some?)
      && (f.experience.Some? <==> FirstEntry(info, "work_experience").Some?)
  {
    var f := Flatten(data).value;
    var info := Info(data);
    var e := FirstEntryCells(info, "education", "institution", "degree");
    var x := FirstEntryCells(info, "work_experience", "company", "title");
    assert e.Ok? && x.Ok?;
    assert f.education == e.value && f.experience == x.value;
  }

  /** Each column's cell is present exactly when its section is. */
  lemma CellGated(f: Flat, c: Col)
    ensures Cell(f, c).Some? <==> Opens(Presence(f), c)
  {
    match c
    case Filename => {}
    case Language => {}
    case LanguageConfidence => {}
    case Name => {}
    case Email => {}
    case Phone => {}
    case Address => {}
    case Skills => {}
    case Languages => {}
    case Certifications => {}
    case Summary => {}
    case EducationInstitution => {}
    case EducationDegree => {}
    case EducationDates => {}
    case ExperienceCompany => {}
    case ExperienceTitle => {}
    case ExperienceDates => {}
    case OverallConfidence => {}
    case PersonalInfoConfidence => {}
    case SkillsConfidence => {}
  }

  /** Lines 162-174: only the first entry is flattened, so entries after it
      never change the row. */
  lemma FlattenFirstEntryOnly(data: map<string, Value>, key: string, first: Value, rest: seq<Value>, others: seq<Value>)
    requires key == "education" || key == "work_experience"
    requires WellShaped(data) && "extracted_info" in data
    requires key in Info(data) && Info(data)[key] == List([first] + rest)
    requires forall i :: 0 <= i < |others| ==> others[i].Obj? && DatesShaped(others[i].fields)
    ensures var changed := data["extracted_info" := Obj(Info(data)[key := List([first] + others)])];
      WellShaped(changed) && Flatten(changed) == Flatten(data)
  {
    var info := Info(data);
    var info2 := info[key := List([first] + others)];
    var changed := data["extracted_info" := Obj(info2)];
    assert first == info[key].items[0];
    assert EntriesShaped(List([first] + others));
    assert InfoShaped(info2);
    assert Info(changed) == info2;
    SameSections(data, changed);
  }

  /** Lines 177-181: of the confidence scores only `overall`,
      `personal_info` and `skills` reach the row; any other score, or a
      change to one, leaves the row as it is. */
  lemma FlattenConfidenceOnlyThree(data: map<string, Value>, scores: map<string, Value>)
    requires WellShaped(data) && "extracted_info" in data && "confidence_scores" in Info(data)
    requires var s := Info(data)["confidence_scores"].fields;
      forall k :: k in {"overall", "personal_info", "skills"} ==> Get(scores, k, Str("")) == Get(s, k, Str(""))
    ensures var changed := data["extracted_info" := Obj(Info(data)["confidence_scores" := Obj(scores)])];
      WellShaped(changed) && Flatten(changed) == Flatten(data)
  {
    var info := Info(data);
    var info2 := info["confidence_scores" := Obj(scores)];
    var changed := data["extracted_info" := Obj(info2)];
    assert InfoShaped(info2);
    assert Info(changed) == info2;
    var s := info["confidence_scores"].fields;
    assert Get(scores, "overall", Str("")) == Get(s, "overall", Str(""));
    assert Get(scores, "personal_info", Str("")) == Get(s, "personal_info", Str(""));
    assert Get(scores, "skills", Str("")) == Get(s, "skills", Str(""));
    assert ConfidenceOf(info2) == ConfidenceOf(info);
    SameSections(data, changed);
  }

  /** Lines 167 and 174: a first entry whose `dates` is `None` makes the
      flattening fail, whatever the rest of the result holds. */
  lemma FlattenFailsOnNoneDates(data: map<string, Value>, key: string)
    requires key == "education" || key == "work_experience"
    requires WellShaped(data) && FirstEntry(Info(data), key).Some?
    requires var e := FirstEntry(Info(data), key).value; "dates" in e && e["dates"] == Null
    ensures Flatten(data) == Err(JoinTypeError)
  {
  }

  /** Two results whose sections all agree flatten alike. */
  lemma SameSections(a: map<string, Value>, b: map<string, Value>)
    requires WellShaped(a) && WellShaped(b)
    requires FilenameCell(a) == FilenameCell(b) && LanguageOf(a) == LanguageOf(b)
    requires PersonalOf(Info(a)) == PersonalOf(Info(b)) && SummaryOf(Info(a)) == SummaryOf(Info(b))
    requires ConfidenceOf(Info(a)) == ConfidenceOf(Info(b))
    requires forall k :: k in {"skills", "languages", "certifications"} ==> JoinedList(Info(a), k) == JoinedList(Info(b), k)
    requires FirstEntryCells(Info(a), "education", "institution", "degree")
          == FirstEntryCells(Info(b), "education", "institution", "degree")
    requires FirstEntryCells(Info(a), "work_experience", "company", "title")
          == FirstEntryCells(Info(b), "work_experience", "company", "title")
    ensures Flatten(a) == Flatten(b)
  {
    assert JoinedList(Info(a), "skills") == JoinedList(Info(b), "skills");
    assert JoinedList(Info(a), "languages") == JoinedList(Info(b), "languages");
    assert JoinedList(Info(a), "certifications") == JoinedList(Info(b), "certifications");
  }

  // ---------------------------------------------------------------------------
  // Format dispatch (export_results, export_bulk_results)
  // ---------------------------------------------------------------------------

  datatype Format = JsonFormat | CsvFormat | XlsxFormat

  /** `format.lower()` compared with the three supported names; anything
      else is the `ValueError` of lines 28-29 and 298-299. */
  function ParseFormat(format: string): (r: Result<Format, ExportError>)
    ensures r == Ok(JsonFormat) <==> Lower(format) == "json"
    ensures r == Ok(CsvFormat) <==> Lower(format) == "csv"
    ensures r == Ok(XlsxFormat) <==> Lower(format) == "xlsx"
    ensures r.Err? ==> r.error == UnsupportedFormat(format)
  {
    var f := Lower(format);
    if f == "json" then Ok(JsonFormat)
    else if f == "csv" then Ok(CsvFormat)
    else if f == "xlsx" then Ok(XlsxFormat)
    else Err(UnsupportedFormat(format))
  }

  /** The dispatch ignores case: two spellings that lower-case alike pick
      the same exporter or are refused alike. */
  lemma ParseFormatIgnoresCase(a: string, b: string)
    requires Lower(a) == Lower(b)
    ensures ParseFormat(a).Ok? <==> ParseFormat(b).Ok?
    ensures ParseFormat(a).Ok? ==> ParseFormat(a).value == ParseFormat(b).value
  {
  }

  lemma UpperCaseCsv()
    ensures ParseFormat("CSV") == Ok(CsvFormat)
  {
    assert Lower("CSV") == "csv";
  }

  /** What a single export produces. */
  datatype Content =
    | JsonContent(data: map<string, Value>)
    | CsvContent(row: seq<(Col, Value)>)
      /** The overview row and the raw lists of the Skills, Education and
          Work_Experience sheets; an empty list means the sheet is not written. */
    | ExcelContent(overview: seq<(Col, Value)>, skills: seq<Value>, education: seq<Value>, experience: seq<Value>)

  /** Written to `path`, or handed back to the caller when no path is given. */
  datatype Export = Returned(content: Content) | Written(path: string, content: Content)

  /** Lines 76-90: a detail sheet holds the list under `key` when it is non-empty. */
  function SheetList(info: map<string, Value>, key: string): (r: seq<Value>)
    requires key in info ==> info[key].List?
    ensures key in info ==> r == info[key].items
    ensures key !in info ==> r == []
  {
    if key in info then info[key].items else []
  }

  /** Python's `if output_path:` also treats the empty string as absent. */
  predicate HasPath(outputPath: Option<string>) {
    outputPath.Some? && outputPath.value != ""
  }

  function Deliver(content: Content, outputPath: Option<string>): (r: Export)
    ensures r.content == content
    ensures r.Written? <==> HasPath(outputPath)
    ensures r.Written? ==> r.path == outputPath.value
  {
    if HasPath(outputPath) then Written(outputPath.value, content) else Returned(content)
  }

  /** `export_results(data, format, output_path)` (lines 20-124). */
  function ExportResults(data: map<string, Value>, format: string, outputPath: Option<string>): (r: Result<Export, ExportError>)
    requires WellShaped(data)
    ensures r.Err? && r.error.UnsupportedFormat? <==> ParseFormat(format).Err?
    ensures r.Err? ==> r.error == UnsupportedFormat(format) || r.error == JoinTypeError
    ensures ParseFormat(format) == Ok(JsonFormat) ==> r == Ok(Deliver(JsonContent(data), outputPath))
    ensures ParseFormat(format).Ok? && ParseFormat(format).value != JsonFormat ==> (r.Ok? <==> FlattenSucceeds(data))
    ensures ParseFormat(format) == Ok(CsvFormat) && r.Ok? ==> r.value.content == CsvContent(Cells(Flatten(data).value))
    ensures ParseFormat(format) == Ok(XlsxFormat) && r.Ok? ==>
      var info := Info(data);
      r.value.content == ExcelContent(Cells(Flatten(data).value), SheetList(info, "skills"),
                                      SheetList(info, "education"), SheetList(info, "work_experience"))
    ensures r.Ok? ==> (r.value.Written? <==> HasPath(outputPath))
  {
    var f :- ParseFormat(format);
    match f
    case JsonFormat => Ok(Deliver(JsonContent(data), outputPath))
    case CsvFormat =>
      var flat :- Flatten(data);
      Ok(Deliver(CsvContent(Cells(flat)), outputPath))
    case XlsxFormat =>
      var flat :- Flatten(data);
      var info := Info(data);
      Ok(Deliver(ExcelContent(Cells(flat), SheetList(info, "skills"), SheetList(info, "education"),
                              SheetList(info, "work_experience")), outputPath))
  }

  // ---------------------------------------------------------------------------
  // Bulk export (export_bulk_results and its three exporters)
  // ---------------------------------------------------------------------------

  /** `[self._flatten_data_for_export(result) for result in results]`. */
  function FlattenAll(results: seq<map<string, Value>>): (r: Result<seq<Flat>, ExportError>)
    requires forall i :: 0 <= i < |results| ==> WellShaped(results[i])
    ensures r.Ok? <==> forall i :: 0 <= i < |results| ==> FlattenSucceeds(results[i])
    ensures r.Ok? ==> |r.value| == |results| && forall i :: 0 <= i < |results| ==> r.value[i] == Flatten(results[i]).value
    ensures r.Err? ==> r.error == JoinTypeError
  {
    if results == [] then Ok([])
    else
      var first :- Flatten(results[0]);
      var rest :- FlattenAll(results[1..]);
      assert forall i :: 1 <= i < |results| ==> results[1..][i - 1] == results[i];
      Ok([first] + rest)
  }

  /** The skills list of a result, or nothing (lines 329-331). */
  function SkillList(result: map<string, Value>): seq<Value>
    requires WellShaped(result)
  {
    var info := Info(result);
    if "skills" in info then info["skills"].items else []
  }

  /** Every skill named by any result. */
  function AllSkills(results: seq<map<string, Value>>): (r: set<Value>)
    requires forall i :: 0 <= i < |results| ==> WellShaped(results[i])
    ensures forall s :: s in r <==> exists i :: 0 <= i < |results| && s in SkillList(results[i])
  {
    if results == [] then {}
    else
      var rest := AllSkills(results[1..]);
      assert forall i :: 1 <= i < |results| ==> results[1..][i - 1] == results[i];
      (set s | s in SkillList(results[0])) + rest
  }

  /** How many results list `skill` (lines 336-340). */
  function CountWith(results: seq<map<string, Value>>, skill: Value): (n: nat)
    requires forall i :: 0 <= i < |results| ==> WellShaped(results[i])
    ensures n <= |results|
  {
    if results == [] then 0
    else (if skill in SkillList(results[0]) then 1 else 0) + CountWith(results[1..], skill)
  }

  /** A skill is counted at least once exactly when some result lists it. */
  lemma {:induction false} CountWithPositive(results: seq<map<string, Value>>, skill: Value)
    requires forall i :: 0 <= i < |results| ==> WellShaped(results[i])
    ensures CountWith(results, skill) >= 1 <==> skill in AllSkills(results)
  {
    if results != [] {
      CountWithPositive(results[1..], skill);
      assert forall i :: 1 <= i < |results| ==> results[1..][i - 1] == results[i];
    }
  }

  /** Counting over two batches adds up. */
  lemma {:induction false} CountWithAppend(a: seq<map<string, Value>>, b: seq<map<string, Value>>, skill: Value)
    requires forall i :: 0 <= i < |a| ==> WellShaped(a[i])
    requires forall i :: 0 <= i < |b| ==> WellShaped(b[i])
    ensures CountWith(a + b, skill) == CountWith(a, skill) + CountWith(b, skill)
  {
    if a == [] {
      assert a + b == b;
    } else {
      CountWithAppend(a[1..], b, skill);
      assert (a + b)[0] == a[0];
      assert (a + b)[1..] == a[1..] + b;
    }
  }

  /** The Skills_Frequency sheet: each skill any result names, with the
      number of results naming it, which is at least one. The sheet's row
      order (a sort on the count) is not modelled. */
  function SkillCounts(results: seq<map<string, Value>>): (m: map<Value, nat>)
    requires forall i :: 0 <= i < |results| ==> WellShaped(results[i])
    ensures m.Keys == AllSkills(results)
    ensures forall s :: s in m ==> m[s] == CountWith(results, s)
    ensures forall s :: s in m ==> 1 <= m[s] <= |results|
  {
    assert forall s :: s in AllSkills(results) ==> CountWith(results, s) >= 1 by {
      forall s | s in AllSkills(results) ensures CountWith(results, s) >= 1 {
        CountWithPositive(results, s);
      }
    }
    map s | s in AllSkills(results) :: CountWith(results, s)
  }

  /** One row of the bulk Education or Work_Experience sheet: the file,
      the candidate's name, the entry's own fields and its joined dates. */
  datatype EntryRow = EntryRow(filename: Value, name: Value, fields: seq<Value>, dates: string)

  predicate EntryListShaped(entries: seq<Value>) {
    forall i :: 0 <= i < |entries| ==> entries[i].Obj? && DatesShaped(entries[i].fields)
  }

  /** The rows for the entries of one result (lines 351-360 and 371-379):
      each row reads the candidate's name, so a result without
      `personal_info` fails at its first entry. */
  function RowsOf(filename: Value, info: map<string, Value>, entries: seq<Value>, fields: seq<string>)
    : (r: Result<seq<EntryRow>, ExportError>)
    requires InfoShaped(info) && EntryListShaped(entries)
    ensures r.Ok? <==> entries == [] || ("personal_info" in info && forall i :: 0 <= i < |entries| ==> DatesJoinable(entries[i].fields))
    ensures r.Ok? ==> |r.value| == |entries|
    ensures r.Ok? ==> forall i :: 0 <= i < |entries| ==>
      var e := entries[i].fields;
      && r.value[i].filename == filename
      && r.value[i].name == Get(info["personal_info"].fields, "name", Str(""))
      && |r.value[i].fields| == |fields|
      && (forall k :: 0 <= k < |fields| ==> r.value[i].fields[k] == Get(e, fields[k], Str("")))
      && r.value[i].dates == JoinDates(e).value
    ensures r.Err? && "personal_info" !in info ==> r.error == MissingPersonalInfo
    ensures r.Err? && "personal_info" in info ==> r.error == JoinTypeError
  {
    if entries == [] then Ok([])
    else if "personal_info" !in info then Err(MissingPersonalInfo)
    else
      var e := entries[0].fields;
      var dates :- JoinDates(e);
      var rest :- RowsOf(filename, info, entries[1..], fields);
      var row := EntryRow(filename, Get(info["personal_info"].fields, "name", Str("")),
                          seq(|fields|, k requires 0 <= k < |fields| => Get(e, fields[k], Str(""))), dates);
      assert forall i :: 1 <= i < |entries| ==> entries[1..][i - 1] == entries[i];
      Ok([row] + rest)
  }

  /** The entry list under `key` of a result, or nothing. */
  function EntriesOf(result: map<string, Value>, key: string): (r: seq<Value>)
    requires WellShaped(result) && (key == "education" || key == "work_experience")
    ensures EntryListShaped(r)
  {
    var info := Info(result);
    if key in info then info[key].items else []
  }

  /** The rows of one result succeed. */
  predicate RowsSucceed(result: map<string, Value>, key: string)
    requires WellShaped(result) && (key == "education" || key == "work_experience")
  {
    var entries := EntriesOf(result, key);
    entries == [] || ("personal_info" in Info(result) && forall i :: 0 <= i < |entries| ==> DatesJoinable(entries[i].fields))
  }

  function EntryTotal(results: seq<map<string, Value>>, key: string): nat
    requires forall i :: 0 <= i < |results| ==> WellShaped(results[i])
    requires key == "education" || key == "work_experience"
  {
    if results == [] then 0 else |EntriesOf(results[0], key)| + EntryTotal(results[1..], key)
  }

  /** The rows of one result's entries, under its file name or `Unknown`. */
  function RowsHere(result: map<string, Value>, key: string, fields: seq<string>): Result<seq<EntryRow>, ExportError>
    requires WellShaped(result) && (key == "education" || key == "work_experience")
  {
    RowsOf(Get(result, "filename", Str("Unknown")), Info(result), EntriesOf(result, key), fields)
  }

  /** The loop over the results. */
  function RowsRun(results: seq<map<string, Value>>, key: string, fields: seq<string>): Result<seq<EntryRow>, ExportError>
    requires forall i :: 0 <= i < |results| ==> WellShaped(results[i])
    requires key == "education" || key == "work_experience"
  {
    if results == [] then Ok([])
    else
      var here := RowsHere(results[0], key, fields);
      ResultsTail(results, key);
      var rest := RowsRun(results[1..], key, fields);
      if here.Err? then Err(here.error)
      else if rest.Err? then Err(rest.error)
      else Ok(here.value + rest.value)
  }

  lemma {:induction false} RowsRunFacts(results: seq<map<string, Value>>, key: string, fields: seq<string>)
    requires forall i :: 0 <= i < |results| ==> WellShaped(results[i])
    requires key == "education" || key == "work_experience"
    ensures var r := RowsRun(results, key, fields);
      && (r.Ok? <==> forall i :: 0 <= i < |results| ==> RowsSucceed(results[i], key))
      && (r.Ok? ==> |r.value| == EntryTotal(results, key))
      && (r.Err? ==> r.error == MissingPersonalInfo || r.error == JoinTypeError)
    decreases |results|
  {
    if results != [] {
      ResultsTail(results, key);
      RowsRunFacts(results[1..], key, fields);
    }
  }

  lemma {:induction false} RowsRunAppend(a: seq<map<string, Value>>, b: seq<map<string, Value>>, key: string, fields: seq<string>)
    requires forall i :: 0 <= i < |a + b| ==> WellShaped((a + b)[i])
    requires key == "education" || key == "work_experience"
    ensures forall i :: 0 <= i < |a| ==> WellShaped(a[i])
    ensures forall i :: 0 <= i < |b| ==> WellShaped(b[i])
    ensures RowsRun(a, key, fields).Err? ==> RowsRun(a + b, key, fields) == RowsRun(a, key, fields)
    ensures RowsRun(a, key, fields).Ok? && RowsRun(b, key, fields).Err? ==>
      RowsRun(a + b, key, fields) == RowsRun(b, key, fields)
    ensures RowsRun(a, key, fields).Ok? && RowsRun(b, key, fields).Ok? ==>
      RowsRun(a + b, key, fields) == Ok(RowsRun(a, key, fields).value + RowsRun(b, key, fields).value)
    decreases |a|
  {
    assert forall i :: 0 <= i < |a| ==> a[i] == (a + b)[i];
    assert forall i :: 0 <= i < |b| ==> b[i] == (a + b)[|a| + i];
    if a == [] {
      assert a + b == b;
      var restB := RowsRun(b, key, fields);
      if restB.Ok? {
        ConcatNil(restB.value);
      }
    } else {
      var ab := a + b;
      assert ab[0] == a[0];
      assert ab[1..] == a[1..] + b;
      ResultsTail(ab, key);
      RowsRunAppend(a[1..], b, key, fields);
      var here := RowsHere(a[0], key, fields);
      var restA := RowsRun(a[1..], key, fields);
      var restB := RowsRun(b, key, fields);
      var rest := RowsRun(a[1..] + b, key, fields);
      assert RowsRun(ab, key, fields)
          == if here.Err? then Err(here.error) else if rest.Err? then Err(rest.error) else Ok(here.value + rest.value);
      if here.Ok? && restA.Ok? && restB.Ok? {
        var x, y, z := here.value, restA.value, restB.value;
        assert rest == Ok(y + z);
        assert RowsRun(a, key, fields) == Ok(x + y);
        ConcatAssoc(x, y, z);
      }
    }
  }

  /** The Education (`key == "education"`) or Work_Experience sheet of the
      bulk workbook: one row per entry of every result, results in order
      (EntryRowsAppend); the file name defaults to `Unknown` (EntryRowsOne). */
  function EntryRows(results: seq<map<string, Value>>, key: string, fields: seq<string>)
    : (r: Result<seq<EntryRow>, ExportError>)
    requires forall i :: 0 <= i < |results| ==> WellShaped(results[i])
    requires key == "education" || key == "work_experience"
    ensures r.Ok? <==> forall i :: 0 <= i < |results| ==> RowsSucceed(results[i], key)
    ensures r.Ok? ==> |r.value| == EntryTotal(results, key)
    ensures r.Err? ==> r.error == MissingPersonalInfo || r.error == JoinTypeError
  {
    RowsRunFacts(results, key, fields);
    RowsRun(results, key, fields)
  }

  /** Result order is kept: the rows of two lists of results are those of
      the first list followed by those of the second, and the first
      failing result decides the error. */
  lemma EntryRowsAppend(a: seq<map<string, Value>>, b: seq<map<string, Value>>, key: string, fields: seq<string>)
    requires forall i :: 0 <= i < |a| ==> WellShaped(a[i])
    requires forall i :: 0 <= i < |b| ==> WellShaped(b[i])
    requires key == "education" || key == "work_experience"
    ensures forall i :: 0 <= i < |a + b| ==> WellShaped((a + b)[i])
    ensures EntryRows(a, key, fields).Err? ==> EntryRows(a + b, key, fields) == EntryRows(a, key, fields)
    ensures EntryRows(a, key, fields).Ok? ==>
      EntryRows(a + b, key, fields)
        == (match EntryRows(b, key, fields)
            case Ok(rows) => Ok(EntryRows(a, key, fields).value + rows)
            case Err(e) => Err(e))
  {
    assert forall i :: 0 <= i < |a + b| ==> (a + b)[i] == if i < |a| then a[i] else b[i - |a|];
    RowsRunAppend(a, b, key, fields);
  }

  /** A single result gives the rows of its own entries, under its file
      name or `Unknown`. */
  lemma EntryRowsOne(result: map<string, Value>, key: string, fields: seq<string>)
    requires WellShaped(result) && (key == "education" || key == "work_experience")
    ensures EntryRows([result], key, fields)
         == RowsOf(Get(result, "filename", Str("Unknown")), Info(result), EntriesOf(result, key), fields)
  {
    assert [result][1..] == [];
    assert RowsRun([result][1..], key, fields) == Ok([]);
    var here := RowsHere(result, key, fields);
    if here.Ok? {
      ConcatNil(here.value);
    }
  }

  /** The tail of a list of results keeps their shape, and all rows
      succeed when those of the head and of the tail do. */
  lemma ResultsTail(results: seq<map<string, Value>>, key: string)
    requires results != [] && forall i :: 0 <= i < |results| ==> WellShaped(results[i])
    requires key == "education" || key == "work_experience"
    ensures forall i :: 0 <= i < |results[1..]| ==> WellShaped(results[1..][i])
    ensures (forall i :: 0 <= i < |results| ==> RowsSucceed(results[i], key)) <==>
      RowsSucceed(results[0], key) && forall i :: 0 <= i < |results[1..]| ==> RowsSucceed(results[1..][i], key)
  {
    assert forall i :: 1 <= i < |results| ==> results[1..][i - 1] == results[i];
  }

  /** What a bulk export writes to its path. */
  datatype BulkContent =
    | BulkJson(results: seq<map<string, Value>>)
    | BulkCsv(rows: seq<Flat>)
    | BulkWorkbook(summary: seq<Flat>, skillCounts: map<Value, nat>, education: seq<EntryRow>, experience: seq<EntryRow>)

  /** `export_bulk_results(results, format, output_path)` (lines 290-386).
      The Education and Work_Experience sheets are written only when their
      row lists are non-empty. A skill table with no skills becomes a frame
      without a `Count` column, so sorting it raises `KeyError`: the
      workbook needs at least one skill across the results. */
  function ExportBulkResults(results: seq<map<string, Value>>, format: string)
    : (r: Result<BulkContent, ExportError>)
    requires forall i :: 0 <= i < |results| ==> WellShaped(results[i])
    ensures r.Err? && r.error.UnsupportedFormat? <==> ParseFormat(format).Err?
    ensures ParseFormat(format) == Ok(JsonFormat) ==> r == Ok(BulkJson(results))
    ensures ParseFormat(format) == Ok(CsvFormat) ==>
      (r.Ok? <==> forall i :: 0 <= i < |results| ==> FlattenSucceeds(results[i]))
    ensures ParseFormat(format) == Ok(XlsxFormat) ==>
      (r.Ok? <==> && AllSkills(results) != {}
                  && (forall i :: 0 <= i < |results| ==> FlattenSucceeds(results[i]))
                  && (forall i :: 0 <= i < |results| ==> RowsSucceed(results[i], "education"))
                  && (forall i :: 0 <= i < |results| ==> RowsSucceed(results[i], "work_experience")))
    ensures (&& ParseFormat(format) == Ok(XlsxFormat) && AllSkills(results) == {}
             && forall i :: 0 <= i < |results| ==> FlattenSucceeds(results[i])) ==>
      r == Err(MissingCountColumn)
    ensures r.Ok? && r.value.BulkWorkbook? ==> r.value.skillCounts.Keys == AllSkills(results) != {}
    ensures r.Ok? && r.value.BulkWorkbook? ==>
      && r.value.skillCounts == SkillCounts(results)
      && EntryRows(results, "education", ["institution", "degree", "field"]) == Ok(r.value.education)
      && EntryRows(results, "work_experience", ["company", "title"]) == Ok(r.value.experience)
    ensures r.Ok? && (r.value.BulkCsv? || r.value.BulkWorkbook?) ==>
      var rows := if r.value.BulkCsv? then r.value.rows else r.value.summary;
      |rows| == |results| && forall i :: 0 <= i < |results| ==> rows[i] == Flatten(results[i]).value
  {
    var f :- ParseFormat(format);
    match f
    case JsonFormat => Ok(BulkJson(results))
    case CsvFormat =>
      var rows :- FlattenAll(results);
      Ok(BulkCsv(rows))
    case XlsxFormat =>
      BulkExcel(results)
  }

  /** The workbook of a bulk export (lines 320-386): the Summary sheet is
      flattened first, then the skill table is sorted, then the entry
      sheets are built. */
  function BulkExcel(results: seq<map<string, Value>>): (r: Result<BulkContent, ExportError>)
    requires forall i :: 0 <= i < |results| ==> WellShaped(results[i])
    ensures r.Ok? <==> && AllSkills(results) != {}
                       && (forall i :: 0 <= i < |results| ==> FlattenSucceeds(results[i]))
                       && (forall i :: 0 <= i < |results| ==> RowsSucceed(results[i], "education"))
                       && (forall i :: 0 <= i < |results| ==> RowsSucceed(results[i], "work_experience"))
    ensures (AllSkills(results) == {} && forall i :: 0 <= i < |results| ==> FlattenSucceeds(results[i])) ==>
      r == Err(MissingCountColumn)
    ensures r.Err? ==> !r.error.UnsupportedFormat?
    ensures r.Ok? ==> && r.value.BulkWorkbook?
                      && r.value.skillCounts.Keys == AllSkills(results)
                      && r.value.skillCounts == SkillCounts(results)
                      && EntryRows(results, "education", ["institution", "degree", "field"]) == Ok(r.value.education)
                      && EntryRows(results, "work_experience", ["company", "title"]) == Ok(r.value.experience)
                      && |r.value.summary| == |results|
                      && forall i :: 0 <= i < |results| ==> r.value.summary[i] == Flatten(results[i]).value
  {
    var rows :- FlattenAll(results);
    if AllSkills(results) == {} then Err(MissingCountColumn)
    else EntrySheets(results, rows)
  }

  /** The workbook once the Summary rows are flattened and the skill table
      is non-empty: the Education sheet, then the Work_Experience sheet. */
  function EntrySheets(results: seq<map<string, Value>>, rows: seq<Flat>): (r: Result<BulkContent, ExportError>)
    requires forall i :: 0 <= i < |results| ==> WellShaped(results[i])
    ensures r.Ok? <==> && (forall i :: 0 <= i < |results| ==> RowsSucceed(results[i], "education"))
                       && (forall i :: 0 <= i < |results| ==> RowsSucceed(results[i], "work_experience"))
    ensures r.Err? ==> r.error == MissingPersonalInfo || r.error == JoinTypeError
    ensures r.Ok? ==> && r.value.BulkWorkbook? && r.value.summary == rows
                      && r.value.skillCounts == SkillCounts(results)
                      && EntryRows(results, "education", ["institution", "degree", "field"]) == Ok(r.value.education)
                      && EntryRows(results, "work_experience", ["company", "title"]) == Ok(r.value.experience)
                      && |r.value.education| == EntryTotal(results, "education")
                      && |r.value.experience| == EntryTotal(results, "work_experience")
  {
    var education :- EntryRows(results, "education", ["institution", "degree", "field"]);
    var experience :- EntryRows(results, "work_experience", ["company", "title"]);
    Ok(BulkWorkbook(rows, SkillCounts(results), education, experience))
  }

  // ---------------------------------------------------------------------------
  // The extractor's undated entries meet the flattening
  // ---------------------------------------------------------------------------

  function TextValue(o: Option<string>): Value {
    match o
    case None => Null
    case Some(t) => Str(t)
  }

  /** An extracted dates list as stored in the result: `None` stays `None`. */
  function DatesValue(d: Option<seq<string>>): (v: Value)
    ensures d.None? <==> v == Null
    ensures d.Some? ==> v.List? && AllStrings(v.items) && Strings(v.items) == d.value
  {
    match d
    case None => Null
    case Some(ds) => List(seq(|ds|, i requires 0 <= i < |ds| => Str(ds[i])))
  }

  /** An education entry as the extractor's dictionary (entity_extractor.py lines 146-151). */
  function EducationValue(e: EntityExtractor.EducationEntry): (v: Value)
    ensures v.Obj? && DatesShaped(v.fields)
    ensures "dates" in v.fields && v.fields["dates"] == DatesValue(e.dates)
  {
    Obj(map["institution" := Str(e.institution), "degree" := TextValue(e.degree),
            "field" := TextValue(e.field), "dates" := DatesValue(e.dates)])
  }

  function EducationListValue(es: seq<EntityExtractor.EducationEntry>): (v: Value)
    ensures EntriesShaped(v) && |v.items| == |es|
    ensures forall i :: 0 <= i < |es| ==> v.items[i] == EducationValue(es[i])
  {
    List(seq(|es|, i requires 0 <= i < |es| => EducationValue(es[i])))
  }

  /** An education sentence naming an organisation but no date is
      extracted with `dates` set to `None`
      (entity_extractor.py lines 140-151). */
  lemma UndatedEducationSentence(doc: EntityExtractor.Doc, code: string)
    requires code == "eng" || code == "ind"
    requires doc.sents != []
    requires EntityExtractor.Mentions(doc.sents[0],
      EntityExtractor.Bilingual(code, EntityExtractor.EducationKeywordsEng, EntityExtractor.EducationKeywordsInd).value)
    requires exists e :: e in doc.sents[0].ents && e.tag == EntityExtractor.Org
    requires forall e :: e in doc.sents[0].ents ==> e.tag != EntityExtractor.Date
    ensures var es := EntityExtractor.ExtractEducation(doc, code).value;
      es != [] && es[0].dates.None?
  {
    var keywords := EntityExtractor.Bilingual(code, EntityExtractor.EducationKeywordsEng, EntityExtractor.EducationKeywordsInd).value;
    var first := EntityExtractor.EducationOf(doc.sents[0], keywords);
    assert first.Some?;
    EntityExtractor.EducationEntriesCons(doc.sents, keywords);
    assert EntityExtractor.EducationEntries(doc.sents, keywords)
        == [first.value] + EntityExtractor.EducationEntries(doc.sents[1..], keywords);
  }

  /** A result holding the extractor's education list for such a document
      cannot be exported as CSV or Excel: the flattening joins the first
      entry's `None` dates and fails. */
  lemma UndatedEducationBreaksExport(doc: EntityExtractor.Doc, code: string, data: map<string, Value>)
    requires code == "eng" || code == "ind"
    requires doc.sents != []
    requires EntityExtractor.Mentions(doc.sents[0],
      EntityExtractor.Bilingual(code, EntityExtractor.EducationKeywordsEng, EntityExtractor.EducationKeywordsInd).value)
    requires exists e :: e in doc.sents[0].ents && e.tag == EntityExtractor.Org
    requires forall e :: e in doc.sents[0].ents ==> e.tag != EntityExtractor.Date
    requires WellShaped(data) && "education" in Info(data)
    requires Info(data)["education"] == EducationListValue(EntityExtractor.ExtractEducation(doc, code).value)
    ensures Flatten(data) == Err(JoinTypeError)
  {
    UndatedEducationSentence(doc, code);
    var es := EntityExtractor.ExtractEducation(doc, code).value;
    assert FirstEntry(Info(data), "education") == Some(EducationValue(es[0]).fields);
    FlattenFailsOnNoneDates(data, "education");
  }

  /** A work entry as the extractor's dictionary (entity_extractor.py lines 173-178). */
  function ExperienceValue(e: EntityExtractor.ExperienceEntry): (v: Value)
    ensures v.Obj? && DatesShaped(v.fields)
    ensures "dates" in v.fields && v.fields["dates"] == DatesValue(e.dates)
  {
    Obj(map["company" := Str(e.company), "title" := TextValue(e.title), "dates" := DatesValue(e.dates),
            "responsibilities" := List(seq(|e.responsibilities|, i requires 0 <= i < |e.responsibilities| =>
                                               Str(e.responsibilities[i])))])
  }

  function ExperienceListValue(es: seq<EntityExtractor.ExperienceEntry>): (v: Value)
    ensures EntriesShaped(v) && |v.items| == |es|
    ensures forall i :: 0 <= i < |es| ==> v.items[i] == ExperienceValue(es[i])
  {
    List(seq(|es|, i requires 0 <= i < |es| => ExperienceValue(es[i])))
  }

  /** The work-experience counterpart of `UndatedEducationBreaksExport`
      (entity_extractor.py lines 167-178). */
  lemma UndatedExperienceBreaksExport(doc: EntityExtractor.Doc, code: string, data: map<string, Value>)
    requires code == "eng" || code == "ind"
    requires doc.sents != []
    requires EntityExtractor.Mentions(doc.sents[0],
      EntityExtractor.Bilingual(code, EntityExtractor.ExperienceKeywordsEng, EntityExtractor.ExperienceKeywordsInd).value)
    requires exists e :: e in doc.sents[0].ents && e.tag == EntityExtractor.Org
    requires forall e :: e in doc.sents[0].ents ==> e.tag != EntityExtractor.Date
    requires WellShaped(data) && "work_experience" in Info(data)
    requires Info(data)["work_experience"] == ExperienceListValue(EntityExtractor.ExtractExperience(doc, code).value)
    ensures Flatten(data) == Err(JoinTypeError)
  {
    var keywords := EntityExtractor.Bilingual(code, EntityExtractor.ExperienceKeywordsEng, EntityExtractor.ExperienceKeywordsInd).value;
    var first := EntityExtractor.ExperienceOf(doc.sents[0], keywords);
    assert first.Some?;
    var es := EntityExtractor.ExtractExperience(doc, code).value;
    EntityExtractor.ExperienceEntriesCons(doc.sents, keywords);
    assert es == [first.value] + EntityExtractor.ExperienceEntries(doc.sents[1..], keywords);
    assert FirstEntry(Info(data), "work_experience") == Some(ExperienceValue(es[0]).fields);
    FlattenFailsOnNoneDates(data, "work_experience");
  }
}

=== FILE: json.dfy ===
/**
 * A JSON-like value: the nested dictionaries, lists and scalars the
 * extraction result is made of once it leaves the typed extractor.
 * Dictionary key order is not represented.
 */
module Json {

  datatype Value =
    | Null
    | Bool(b: bool)
    | Num(x: real)
    | Str(s: string)
    | List(items: seq<Value>)
    | Obj(fields: map<string, Value>)
}

=== FILE: skills_matcher.dfy ===
/**
 * The skills matcher: exact dictionary lookup, fuzzy lookup over the 1- to
 * 4-word phrases of the text, de-duplication that keeps the first entry of
 * highest confidence, and the hard/soft split.
 *
 * The fuzzy scorer (`fuzz.token_sort_ratio`) is a parameter; the skill
 * dictionary of each language is a sequence whose order stands for the
 * iteration order of the Python set it is loaded into.
 */
module SkillsMatcher {
  import opened Wrappers
  import opened Text

  datatype MatchKind = Exact | Fuzzy

  /** One entry of the result of `extract_skills`. */
  datatype SkillMatch = SkillMatch(skill: string, confidence: real, kind: MatchKind)

  /** The matcher's state once loaded: one dictionary per language and the
      configured fuzzy threshold (a score on the 0..100 scale). */
  datatype Matcher = Matcher(eng: seq<string>, ind: seq<string>, threshold: real)

  /** A similarity score of a phrase against a dictionary entry. */
  type Scorer = (string, string) -> real

  // ---------------------------------------------------------------------------
  // Exact phase
  // ---------------------------------------------------------------------------

  /** A dictionary skill matches exactly when its lower-case form occurs in
      the lower-cased text. */
  predicate MatchesExactly(textLower: string, skill: string) {
    Contains(textLower, Lower(skill))
  }

  /** The exact phase: one entry of confidence 1.0 per dictionary skill that
      matches exactly, in dictionary order. */
  function ExactMatches(dict: seq<string>, textLower: string): (r: seq<SkillMatch>)
    ensures forall m :: m in r ==>
      m.skill in dict && m == SkillMatch(m.skill, 1.0, Exact) && MatchesExactly(textLower, m.skill)
    ensures forall s :: s in dict && MatchesExactly(textLower, s) ==> SkillMatch(s, 1.0, Exact) in r
  {
    if dict == [] then []
    else
      var head := if MatchesExactly(textLower, dict[0]) then [SkillMatch(dict[0], 1.0, Exact)] else [];
      head + ExactMatches(dict[1..], textLower)
  }

  /** Some exact entry already carries `skill`. */
  predicate HasSkill(ms: seq<SkillMatch>, skill: string) {
    exists i :: 0 <= i < |ms| && ms[i].skill == skill
  }

  // ---------------------------------------------------------------------------
  // Candidate phrases
  // ---------------------------------------------------------------------------

  /** The phrase of `j` words starting at word `i`. */
  function Gram(words: seq<string>, i: nat, j: nat): string
    requires i + j <= |words|
  {
    Join(" ", words[i..i + j])
  }

  /** A run of one to four consecutive words. */
  ghost predicate IsRun(words: seq<string>, p: string) {
    exists i: nat, j: nat :: 1 <= j <= 4 && i + j <= |words| && p == Gram(words, i, j)
  }

  /** The phrases starting at word `i` of `j` words and more, up to four
      words and the end of the text. */
  function GramsAt(words: seq<string>, i: nat, j: nat): (r: seq<string>)
    requires 1 <= j
    ensures forall p :: p in r <==> exists k: nat :: j <= k <= 4 && i + k <= |words| && p == Gram(words, i, k)
    decreases 5 - j
  {
    if j > 4 || i + j > |words| then []
    else
      var rest := GramsAt(words, i, j + 1);
      [Gram(words, i, j)] + rest
  }

  /** The phrases starting at word `i` or later, by start then by length. */
  function PhrasesFrom(words: seq<string>, i: nat): (r: seq<string>)
    ensures forall p :: p in r <==>
      exists a: nat, k: nat :: i <= a && 1 <= k <= 4 && a + k <= |words| && p == Gram(words, a, k)
    decreases |words| - i
  {
    if i >= |words| then []
    else GramsAt(words, i, 1) + PhrasesFrom(words, i + 1)
  }

  /** The candidate phrases of the text's words (lines 76-80): exactly the
      runs of one to four consecutive words. */
  function Phrases(words: seq<string>): (r: seq<string>)
    ensures forall p :: p in r <==> IsRun(words, p)
  {
    PhrasesFrom(words, 0)
  }

  // ---------------------------------------------------------------------------
  // Fuzzy phase
  // ---------------------------------------------------------------------------

  /** The best scoring entry of `dict` for `phrase` with a score of at least
      `cutoff`: the first entry of maximal score, since a later entry
      replaces the current one only when it scores strictly higher. */
  function Best(phrase: string, dict: seq<string>, scorer: Scorer, cutoff: real): (r: Option<nat>)
    ensures r.Some? ==> r.value < |dict| && scorer(phrase, dict[r.value]) >= cutoff
    ensures r.Some? ==> forall j :: 0 <= j < |dict| ==> scorer(phrase, dict[j]) <= scorer(phrase, dict[r.value])
    ensures r.Some? ==> forall j :: 0 <= j < r.value ==> scorer(phrase, dict[j]) < scorer(phrase, dict[r.value])
    ensures r.None? <==> forall j :: 0 <= j < |dict| ==> scorer(phrase, dict[j]) < cutoff
    decreases |dict|
  {
    if dict == [] then None
    else
      var n := |dict| - 1;
      var prefix := Best(phrase, dict[..n], scorer, cutoff);
      assert forall j :: 0 <= j < n ==> dict[..n][j] == dict[j];
      var score := scorer(phrase, dict[n]);
      if score >= cutoff && (prefix.None? || score > scorer(phrase, dict[prefix.value])) then Some(n)
      else prefix
  }

  /** What one candidate phrase contributes: nothing when it is shorter than
      three characters, has no entry at the cutoff, or its best entry was
      already matched exactly; else a fuzzy entry of confidence score/100. */
  function PhraseMatch(phrase: string, dict: seq<string>, exact: seq<SkillMatch>,
                       scorer: Scorer, cutoff: real): (r: Option<SkillMatch>)
    ensures |phrase| < 3 ==> r.None?
    ensures r.Some? ==> && r.value.kind == Fuzzy && r.value.skill in dict
                        && !HasSkill(exact, r.value.skill)
                        && scorer(phrase, r.value.skill) >= cutoff
                        && r.value.confidence == scorer(phrase, r.value.skill) / 100.0
                        && forall t :: t in dict ==> scorer(phrase, t) <= scorer(phrase, r.value.skill)
    ensures var best := Best(phrase, dict, scorer, cutoff);
      r.Some? <==> |phrase| >= 3 && best.Some? && !HasSkill(exact, dict[best.value])
    ensures r.Some? ==> r.value.skill == dict[Best(phrase, dict, scorer, cutoff).value]
  {
    if |phrase| < 3 then None
    else
      match Best(phrase, dict, scorer, cutoff)
      case Some(k) =>
        if HasSkill(exact, dict[k]) then None
        else Some(SkillMatch(dict[k], scorer(phrase, dict[k]) / 100.0, Fuzzy))
      case None => None
  }

  /** The fuzzy phase, phrase by phrase. */
  function FuzzyMatches(phrases: seq<string>, dict: seq<string>, exact: seq<SkillMatch>,
                        scorer: Scorer, cutoff: real): (r: seq<SkillMatch>)
    ensures forall m :: m in r ==> exists p :: p in phrases && PhraseMatch(p, dict, exact, scorer, cutoff) == Some(m)
    ensures forall p :: p in phrases && PhraseMatch(p, dict, exact, scorer, cutoff).Some? ==>
      PhraseMatch(p, dict, exact, scorer, cutoff).value in r
  {
    FuzzyRunMembers(phrases, dict, exact, scorer, cutoff);
    FuzzyRun(phrases, dict, exact, scorer, cutoff)
  }

  /** What one phrase adds to the fuzzy phase. */
  function FuzzyHead(p: string, dict: seq<string>, exact: seq<SkillMatch>, scorer: Scorer, cutoff: real): seq<SkillMatch> {
    match PhraseMatch(p, dict, exact, scorer, cutoff) case Some(m) => [m] case None => []
  }

  /** The loop over the phrases, each adding its match in turn. */
  function FuzzyRun(phrases: seq<string>, dict: seq<string>, exact: seq<SkillMatch>,
                    scorer: Scorer, cutoff: real): seq<SkillMatch>
  {
    if phrases == [] then []
    else FuzzyHead(phrases[0], dict, exact, scorer, cutoff) + FuzzyRun(phrases[1..], dict, exact, scorer, cutoff)
  }

  /** The loop keeps exactly the matches of its phrases. */
  lemma {:induction false} FuzzyRunMembers(phrases: seq<string>, dict: seq<string>, exact: seq<SkillMatch>,
                                           scorer: Scorer, cutoff: real)
    ensures forall m :: m in FuzzyRun(phrases, dict, exact, scorer, cutoff) ==>
      exists p :: p in phrases && PhraseMatch(p, dict, exact, scorer, cutoff) == Some(m)
    ensures forall p :: p in phrases && PhraseMatch(p, dict, exact, scorer, cutoff).Some? ==>
      PhraseMatch(p, dict, exact, scorer, cutoff).value in FuzzyRun(phrases, dict, exact, scorer, cutoff)
    decreases |phrases|
  {
    if phrases != [] {
      FuzzyRunMembers(phrases[1..], dict, exact, scorer, cutoff);
      assert forall p :: p in phrases <==> p == phrases[0] || p in phrases[1..] by {
        assert phrases == [phrases[0]] + phrases[1..];
      }
    }
  }

  lemma {:induction false} FuzzyRunAppend(a: seq<string>, b: seq<string>, dict: seq<string>,
                                          exact: seq<SkillMatch>, scorer: Scorer, cutoff: real)
    ensures FuzzyRun(a + b, dict, exact, scorer, cutoff)
         == FuzzyRun(a, dict, exact, scorer, cutoff) + FuzzyRun(b, dict, exact, scorer, cutoff)
    decreases |a|
  {
    if a == [] {
      assert a + b == b;
    } else {
      var head := FuzzyHead(a[0], dict, exact, scorer, cutoff);
      assert (a + b)[0] == a[0] && (a + b)[1..] == a[1..] + b;
      FuzzyRunAppend(a[1..], b, dict, exact, scorer, cutoff);
      calc {
        FuzzyRun(a + b, dict, exact, scorer, cutoff);
        head + FuzzyRun(a[1..] + b, dict, exact, scorer, cutoff);
        head + (FuzzyRun(a[1..], dict, exact, scorer, cutoff) + FuzzyRun(b, dict, exact, scorer, cutoff));
        (head + FuzzyRun(a[1..], dict, exact, scorer, cutoff)) + FuzzyRun(b, dict, exact, scorer, cutoff);
      }
    }
  }

  /** The fuzzy phase keeps phrase order: the matches of two runs of
      phrases are those of the first run followed by those of the second. */
  lemma FuzzyMatchesAppend(a: seq<string>, b: seq<string>, dict: seq<string>,
                           exact: seq<SkillMatch>, scorer: Scorer, cutoff: real)
    ensures FuzzyMatches(a + b, dict, exact, scorer, cutoff)
         == FuzzyMatches(a, dict, exact, scorer, cutoff) + FuzzyMatches(b, dict, exact, scorer, cutoff)
  {
    FuzzyRunAppend(a, b, dict, exact, scorer, cutoff);
  }

  /** One phrase contributes exactly its own match, if any. */
  lemma FuzzyMatchesOne(p: string, dict: seq<string>, exact: seq<SkillMatch>, scorer: Scorer, cutoff: real)
    ensures FuzzyMatches([p], dict, exact, scorer, cutoff)
         == match PhraseMatch(p, dict, exact, scorer, cutoff) case Some(m) => [m] case None => []
  {
    assert [p][1..] == [];
    assert FuzzyRun([p], dict, exact, scorer, cutoff) == FuzzyHead(p, dict, exact, scorer, cutoff) + [];
  }

  // ---------------------------------------------------------------------------
  // Merge
  // ---------------------------------------------------------------------------

  /** The position of the first entry carrying `skill`, if any. */
  function IndexOf(acc: seq<SkillMatch>, skill: string): (r: Option<nat>)
    ensures r.Some? ==> r.value < |acc| && acc[r.value].skill == skill
    ensures r.Some? ==> forall j :: 0 <= j < r.value ==> acc[j].skill != skill
    ensures r.None? ==> forall i :: 0 <= i < |acc| ==> acc[i].skill != skill
  {
    IndexFrom(acc, skill, 0)
  }

  /** The position of the first entry from `i` on carrying `skill`. */
  function IndexFrom(acc: seq<SkillMatch>, skill: string, i: nat): (r: Option<nat>)
    requires i <= |acc|
    ensures r.Some? ==> i <= r.value < |acc| && acc[r.value].skill == skill
    ensures r.Some? ==> forall j :: i <= j < r.value ==> acc[j].skill != skill
    ensures r.None? ==> forall j :: i <= j < |acc| ==> acc[j].skill != skill
    decreases |acc| - i
  {
    if i == |acc| then None
    else if acc[i].skill == skill then Some(i)
    else IndexFrom(acc, skill, i + 1)
  }

  /** The skills of a list of entries, in order. */
  function Skills(ms: seq<SkillMatch>): (ss: seq<string>)
    ensures |ss| == |ms| && forall i :: 0 <= i < |ms| ==> ss[i] == ms[i].skill
  {
    seq(|ms|, i requires 0 <= i < |ms| => ms[i].skill)
  }

  predicate Distinct(ss: seq<string>) {
    forall i, j :: 0 <= i < j < |ss| ==> ss[i] != ss[j]
  }

  /** `ss` lists every skill of `ms` once, in the order of first sighting. */
  predicate SkillListOf(ms: seq<SkillMatch>, ss: seq<string>) {
    && Distinct(ss)
    && (forall k :: 0 <= k < |ms| ==> ms[k].skill in ss)
    && (forall i :: 0 <= i < |ss| ==> IndexOf(ms, ss[i]).Some?)
    && (forall i, j :: 0 <= i < j < |ss| ==> IndexOf(ms, ss[i]).value < IndexOf(ms, ss[j]).value)
  }

  /** One step of the de-duplication loop: a new skill is appended; a known
      one is replaced in place only by a strictly higher confidence. */
  function MergeOne(acc: seq<SkillMatch>, m: SkillMatch): seq<SkillMatch> {
    match IndexOf(acc, m.skill)
    case Some(i) => if m.confidence > acc[i].confidence then acc[i := m] else acc
    case None => acc + [m]
  }

  /** `e`, at position `k` of `ms`, is the first entry of maximal
      confidence among those carrying its skill. */
  predicate WinnerAt(ms: seq<SkillMatch>, e: SkillMatch, k: nat) {
    && k < |ms| && ms[k] == e
    && (forall j :: 0 <= j < |ms| && ms[j].skill == e.skill ==> ms[j].confidence <= e.confidence)
    && (forall j :: 0 <= j < k && ms[j].skill == e.skill ==> ms[j].confidence < e.confidence)
  }

  ghost predicate IsWinner(ms: seq<SkillMatch>, e: SkillMatch) {
    exists k: nat :: WinnerAt(ms, e, k)
  }

  ghost predicate AllWinners(ms: seq<SkillMatch>, r: seq<SkillMatch>) {
    forall i :: 0 <= i < |r| ==> IsWinner(ms, r[i])
  }

  /** `r` de-duplicates `ms`: one entry per skill of `ms`, in the order the
      skills were first seen, each the first entry of highest confidence
      for its skill. */
  ghost predicate Deduplicates(ms: seq<SkillMatch>, r: seq<SkillMatch>) {
    SkillListOf(ms, Skills(r)) && AllWinners(ms, r)
  }

  /** The de-duplication loop (lines 110-117). */
  function Merge(ms: seq<SkillMatch>): (r: seq<SkillMatch>)
    ensures Deduplicates(ms, r)
    decreases |ms|
  {
    if ms == [] then []
    else
      var n := |ms| - 1;
      var acc := Merge(ms[..n]);
      MergeLast(ms, acc);
      MergeOne(acc, ms[n])
  }

  /** The merge invariant, stated for the last entry of `ms`. */
  lemma MergeLast(ms: seq<SkillMatch>, acc: seq<SkillMatch>)
    requires ms != [] && Deduplicates(ms[..|ms| - 1], acc)
    ensures Deduplicates(ms, MergeOne(acc, ms[|ms| - 1]))
  {
    var n := |ms| - 1;
    MergeStep(ms[..n], acc, ms[n]);
    assert ms[..n] + [ms[n]] == ms;
  }

  /** The merge invariant survives one more entry. */
  lemma MergeStep(ms: seq<SkillMatch>, acc: seq<SkillMatch>, m: SkillMatch)
    requires Deduplicates(ms, acc)
    ensures Deduplicates(ms + [m], MergeOne(acc, m))
  {
    match IndexOf(acc, m.skill)
    case Some(i) =>
      assert m.skill in Skills(acc);
      SkillListKnown(ms, m, Skills(acc));
      if m.confidence > acc[i].confidence {
        MergeReplaces(ms, acc, m, i);
      } else {
        MergeKeeps(ms, acc, m, i);
      }
    case None =>
      SkillListNew(ms, m, Skills(acc));
      MergeAppends(ms, acc, m);
  }

  /** Appending an entry does not move the first sighting of a skill that
      was already seen. */
  lemma FirstSightingStays(ms: seq<SkillMatch>, m: SkillMatch, s: string)
    requires IndexOf(ms, s).Some?
    ensures IndexOf(ms + [m], s) == IndexOf(ms, s)
  {
    var k := IndexOf(ms, s).value;
    assert (ms + [m])[k] == ms[k];
    assert forall j :: 0 <= j < |ms| ==> (ms + [m])[j] == ms[j];
  }

  /** A skill list survives an entry whose skill it already holds. */
  lemma {:induction false} SkillListKnown(ms: seq<SkillMatch>, m: SkillMatch, ss: seq<string>)
    requires SkillListOf(ms, ss) && m.skill in ss
    ensures SkillListOf(ms + [m], ss)
  {
    forall i | 0 <= i < |ss| ensures IndexOf(ms + [m], ss[i]) == IndexOf(ms, ss[i]) {
      FirstSightingStays(ms, m, ss[i]);
    }
    forall k | 0 <= k < |ms + [m]| ensures (ms + [m])[k].skill in ss {
      if k < |ms| { assert (ms + [m])[k] == ms[k]; }
    }
  }

  /** A skill list grows by the skill of an entry it does not hold. */
  lemma {:induction false} SkillListNew(ms: seq<SkillMatch>, m: SkillMatch, ss: seq<string>)
    requires SkillListOf(ms, ss) && m.skill !in ss
    ensures SkillListOf(ms + [m], ss + [m.skill])
  {
    var ms' := ms + [m];
    var ss' := ss + [m.skill];
    forall i | 0 <= i < |ss| ensures IndexOf(ms', ss[i]) == IndexOf(ms, ss[i]) {
      FirstSightingStays(ms, m, ss[i]);
    }
    NewSkillLast(ms, m, ss);
    forall k | 0 <= k < |ms'| ensures ms'[k].skill in ss' {
      if k < |ms| { assert ms'[k] == ms[k]; }
    }
    DistinctAppend(ss, m.skill);
    SightedAppend(ms, m, ss);
    OrderedAppend(ms, m, ss);
  }

  lemma DistinctAppend(ss: seq<string>, x: string)
    requires Distinct(ss) && x !in ss
    ensures Distinct(ss + [x])
  {
    assert forall i :: 0 <= i < |ss| ==> (ss + [x])[i] == ss[i];
  }

  /** Every skill of `ss + [m.skill]` is sighted in `ms + [m]`, when those
      of `ss` are sighted in `ms` at the same place. */
  lemma SightedAppend(ms: seq<SkillMatch>, m: SkillMatch, ss: seq<string>)
    requires forall i :: 0 <= i < |ss| ==> IndexOf(ms + [m], ss[i]) == IndexOf(ms, ss[i]) && IndexOf(ms, ss[i]).Some?
    requires IndexOf(ms + [m], m.skill) == Some(|ms|)
    ensures forall i :: 0 <= i < |ss + [m.skill]| ==> IndexOf(ms + [m], (ss + [m.skill])[i]).Some?
  {
    var ss' := ss + [m.skill];
    forall i | 0 <= i < |ss'| ensures IndexOf(ms + [m], ss'[i]).Some? {
      if i < |ss| { assert ss'[i] == ss[i]; }
    }
  }

  /** The first sightings of `ss + [m.skill]` in `ms + [m]` are in order,
      when those of `ss` are unchanged and `m.skill` is sighted last. */
  lemma OrderedAppend(ms: seq<SkillMatch>, m: SkillMatch, ss: seq<string>)
    requires forall i :: 0 <= i < |ss| ==> IndexOf(ms + [m], ss[i]) == IndexOf(ms, ss[i]) && IndexOf(ms, ss[i]).Some?
    requires forall i, j :: 0 <= i < j < |ss| ==> IndexOf(ms, ss[i]).value < IndexOf(ms, ss[j]).value
    requires IndexOf(ms + [m], m.skill) == Some(|ms|)
    ensures forall i, j :: 0 <= i < j < |ss + [m.skill]| ==>
      IndexOf(ms + [m], (ss + [m.skill])[i]).value < IndexOf(ms + [m], (ss + [m.skill])[j]).value
  {
    var ss' := ss + [m.skill];
    forall i, j | 0 <= i < j < |ss'| ensures IndexOf(ms + [m], ss'[i]).value < IndexOf(ms + [m], ss'[j]).value {
      assert ss'[i] == ss[i];
      if j < |ss| {
        assert ss'[j] == ss[j];
      } else {
        assert ss'[j] == m.skill;
      }
    }
  }

  /** A skill first seen in the appended entry is first sighted there. */
  lemma NewSkillLast(ms: seq<SkillMatch>, m: SkillMatch, ss: seq<string>)
    requires forall k :: 0 <= k < |ms| ==> ms[k].skill in ss
    requires m.skill !in ss
    ensures IndexOf(ms + [m], m.skill) == Some(|ms|)
  {
    var ms' := ms + [m];
    assert forall j :: 0 <= j < |ms| ==> ms'[j] == ms[j] && ms[j].skill != m.skill;
    assert ms'[|ms|].skill == m.skill;
  }

  /** A winner for another skill stays the winner when `m` is appended. */
  lemma WinnerSurvives(ms: seq<SkillMatch>, m: SkillMatch, e: SkillMatch)
    requires IsWinner(ms, e) && e.skill != m.skill
    ensures IsWinner(ms + [m], e)
  {
    var k: nat :| WinnerAt(ms, e, k);
    assert WinnerAt(ms + [m], e, k);
  }

  /** Merge step for a skill not seen before: it is appended. */
  lemma {:induction false} MergeAppends(ms: seq<SkillMatch>, acc: seq<SkillMatch>, m: SkillMatch)
    requires AllWinners(ms, acc) && IndexOf(acc, m.skill).None?
    requires IndexOf(ms, m.skill).None?
    ensures AllWinners(ms + [m], MergeOne(acc, m))
    ensures Skills(MergeOne(acc, m)) == Skills(acc) + [m.skill]
  {
    var ms' := ms + [m];
    var r := acc + [m];
    assert MergeOne(acc, m) == r;
    forall x | 0 <= x < |r| ensures IsWinner(ms', r[x]) {
      if x < |acc| {
        WinnerSurvives(ms, m, acc[x]);
      } else {
        assert WinnerAt(ms', r[x], |ms|);
      }
    }
    assert Skills(r) == Skills(acc) + [m.skill];
  }

  /** Merge step for a known skill with a strictly higher confidence: the
      entry is replaced in place. */
  lemma {:induction false} MergeReplaces(ms: seq<SkillMatch>, acc: seq<SkillMatch>, m: SkillMatch, i: nat)
    requires AllWinners(ms, acc) && IndexOf(acc, m.skill) == Some(i)
    requires Distinct(Skills(acc))
    requires m.confidence > acc[i].confidence
    ensures AllWinners(ms + [m], MergeOne(acc, m))
    ensures Skills(MergeOne(acc, m)) == Skills(acc)
  {
    var ms' := ms + [m];
    var r := acc[i := m];
    assert MergeOne(acc, m) == r;
    var k: nat :| WinnerAt(ms, acc[i], k);
    forall x | 0 <= x < |r| ensures IsWinner(ms', r[x]) {
      if x == i {
        assert WinnerAt(ms', r[x], |ms|);
      } else {
        assert Skills(acc)[x] != Skills(acc)[i];
        WinnerSurvives(ms, m, acc[x]);
      }
    }
    assert Skills(r) == Skills(acc);
  }

  /** Merge step for a known skill without a higher confidence: nothing
      changes. */
  lemma {:induction false} MergeKeeps(ms: seq<SkillMatch>, acc: seq<SkillMatch>, m: SkillMatch, i: nat)
    requires AllWinners(ms, acc) && IndexOf(acc, m.skill) == Some(i)
    requires Distinct(Skills(acc))
    requires m.confidence <= acc[i].confidence
    ensures AllWinners(ms + [m], MergeOne(acc, m))
    ensures MergeOne(acc, m) == acc
  {
    var ms' := ms + [m];
    var k: nat :| WinnerAt(ms, acc[i], k);
    assert WinnerAt(ms', acc[i], k);
    forall x | 0 <= x < |acc| ensures IsWinner(ms', acc[x]) {
      if x != i {
        assert Skills(acc)[x] != Skills(acc)[i];
        WinnerSurvives(ms, m, acc[x]);
      }
    }
  }

  // ---------------------------------------------------------------------------
  // extract_skills
  // ---------------------------------------------------------------------------

  /** The dictionary of a supported language code. */
  function DictionaryFor(matcher: Matcher, code: string): seq<string> {
    if code == "ind" then matcher.ind else matcher.eng
  }

  /** The exact phase over the lower-cased text (lines 62-72). */
  function ExactPhase(dict: seq<string>, text: string): seq<SkillMatch> {
    ExactMatches(dict, Lower(text))
  }

  /** The candidate phrases of the lower-cased text. */
  function TextPhrases(text: string): seq<string> {
    Phrases(Split(Lower(text)))
  }

  /** The fuzzy phase over the text's phrases (lines 76-105). */
  function FuzzyPhase(dict: seq<string>, text: string, scorer: Scorer, cutoff: real): seq<SkillMatch> {
    FuzzyMatches(TextPhrases(text), dict, ExactPhase(dict, text), scorer, cutoff)
  }

  /** Whether `extract_skills` returns early with no skills (lines 51-59). */
  predicate ReturnsEarly(matcher: Matcher, text: string, code: string) {
    text == "" || (code != "eng" && code != "ind") || DictionaryFor(matcher, code) == []
  }

  /** `extract_skills(text, lang_code)`. */
  function ExtractSkills(matcher: Matcher, text: string, code: string, scorer: Scorer): (r: seq<SkillMatch>)
    ensures ReturnsEarly(matcher, text, code) ==> r == []
    ensures !ReturnsEarly(matcher, text, code) ==>
      var dict := DictionaryFor(matcher, code);
      Deduplicates(ExactPhase(dict, text) + FuzzyPhase(dict, text, scorer, matcher.threshold), r)
  {
    if ReturnsEarly(matcher, text, code) then []
    else
      var dict := DictionaryFor(matcher, code);
      Merge(ExactPhase(dict, text) + FuzzyPhase(dict, text, scorer, matcher.threshold))
  }

  /** The error `extract_skills` raises as written. */
  datatype SkillsError = ValueError

  /** Whether some candidate phrase of at least three characters has a
      dictionary entry at the cutoff, so that `process.extract` returns a
      non-empty list for it. */
  predicate SomeFuzzyHit(phrases: seq<string>, dict: seq<string>, scorer: Scorer, cutoff: real) {
    exists i :: 0 <= i < |phrases| && |phrases[i]| >= 3 && Best(phrases[i], dict, scorer, cutoff).Some?
  }

  /** `extract_skills` as written. With a plain collection of choices,
      rapidfuzz's `process.extract` returns (choice, score, index) triples,
      so unpacking the first into two names (line 98) raises `ValueError`
      at the first phrase that has a match. Without such a phrase the fuzzy
      phase adds nothing and only the exact matches are returned. */
  function ExtractSkillsAsWritten(matcher: Matcher, text: string, code: string, scorer: Scorer)
    : (r: Result<seq<SkillMatch>, SkillsError>)
    ensures ReturnsEarly(matcher, text, code) ==> r == Ok([])
    ensures !ReturnsEarly(matcher, text, code) ==>
      (r.Err? <==> SomeFuzzyHit(TextPhrases(text), DictionaryFor(matcher, code), scorer, matcher.threshold))
    ensures r.Ok? ==> r.value == ExtractSkills(matcher, text, code, scorer)
    ensures r.Ok? && !ReturnsEarly(matcher, text, code) ==>
      Deduplicates(ExactPhase(DictionaryFor(matcher, code), text), r.value)
  {
    if ReturnsEarly(matcher, text, code) then Ok([])
    else
      var dict := DictionaryFor(matcher, code);
      if SomeFuzzyHit(TextPhrases(text), dict, scorer, matcher.threshold) then Err(ValueError)
      else
        NoHitNoFuzzy(TextPhrases(text), dict, ExactPhase(dict, text), scorer, matcher.threshold);
        assert ExactPhase(dict, text) + FuzzyPhase(dict, text, scorer, matcher.threshold) == ExactPhase(dict, text);
        Ok(ExtractSkills(matcher, text, code, scorer))
  }

  /** Without a phrase that has a match, the fuzzy phase is empty. */
  lemma NoHitNoFuzzy(phrases: seq<string>, dict: seq<string>, exact: seq<SkillMatch>, scorer: Scorer, cutoff: real)
    requires !SomeFuzzyHit(phrases, dict, scorer, cutoff)
    ensures FuzzyMatches(phrases, dict, exact, scorer, cutoff) == []
  {
    forall p | p in phrases ensures PhraseMatch(p, dict, exact, scorer, cutoff).None? {
      var i :| 0 <= i < |phrases| && phrases[i] == p;
      assert !(|phrases[i]| >= 3 && Best(phrases[i], dict, scorer, cutoff).Some?);
    }
    FuzzyRunEmpty(phrases, dict, exact, scorer, cutoff);
  }

  /** Phrases without a match add nothing. */
  lemma {:induction false} FuzzyRunEmpty(phrases: seq<string>, dict: seq<string>, exact: seq<SkillMatch>,
                                         scorer: Scorer, cutoff: real)
    requires forall p :: p in phrases ==> PhraseMatch(p, dict, exact, scorer, cutoff).None?
    ensures FuzzyRun(phrases, dict, exact, scorer, cutoff) == []
    decreases |phrases|
  {
    if phrases != [] {
      assert phrases[0] in phrases;
      assert forall p :: p in phrases[1..] ==> p in phrases;
      FuzzyRunEmpty(phrases[1..], dict, exact, scorer, cutoff);
    }
  }

  /** The discrepancy on the smallest input: with `python` in the English
      dictionary and a scorer that rates every pair 100, the text `python`
      is reported as an exact skill by the intended behaviour, while the
      code as written raises `ValueError` on the phrase `python`. */
  lemma UnpackingRaises()
    ensures var matcher := Matcher(["python"], [], 80.0);
      var scorer: Scorer := (a, b) => 100.0;
      && ExtractSkillsAsWritten(matcher, "python", "eng", scorer) == Err(ValueError)
      && SkillMatch("python", 1.0, Exact) in ExtractSkills(matcher, "python", "eng", scorer)
  {
    var matcher := Matcher(["python"], [], 80.0);
    var scorer: Scorer := (a, b) => 100.0;
    PythonRaises(matcher, "python", scorer);
    PythonReported(matcher, scorer);
  }

  lemma PythonRaises(matcher: Matcher, text: string, scorer: Scorer)
    requires matcher == Matcher(["python"], [], 80.0) && text == "python" && scorer("python", "python") == 100.0
    ensures ExtractSkillsAsWritten(matcher, text, "eng", scorer) == Err(ValueError)
  {
    PythonWord(text);
    WordHit(matcher, text, scorer);
    PythonRuns(matcher, text);
    HitRaises(matcher, text, "eng", scorer);
  }

  lemma PythonRuns(matcher: Matcher, text: string)
    requires matcher == Matcher(["python"], [], 80.0) && text == "python"
    ensures !ReturnsEarly(matcher, text, "eng")
  {
  }

  /** A phrase with a match makes the code as written raise. */
  lemma HitRaises(matcher: Matcher, text: string, code: string, scorer: Scorer)
    requires !ReturnsEarly(matcher, text, code)
    requires SomeFuzzyHit(TextPhrases(text), DictionaryFor(matcher, code), scorer, matcher.threshold)
    ensures ExtractSkillsAsWritten(matcher, text, code, scorer) == Err(ValueError)
  {
  }

  lemma PythonReported(matcher: Matcher, scorer: Scorer)
    requires matcher == Matcher(["python"], [], 80.0)
    ensures SkillMatch("python", 1.0, Exact) in ExtractSkills(matcher, "python", "eng", scorer)
  {
    PythonLower();
    assert OccursAt("python", "python", 0);
    ExactSkillsReported(matcher, "python", "eng", scorer, "python");
  }

  /** A lower-case word of three or more characters that is the first
      entry of the English dictionary, and scores at the threshold against
      itself, is a phrase with a match. */
  lemma WordHit(matcher: Matcher, w: string, scorer: Scorer)
    requires IsWord(w) && Lower(w) == w && |w| >= 3
    requires matcher.eng != [] && matcher.eng[0] == w && scorer(w, w) >= matcher.threshold
    ensures SomeFuzzyHit(TextPhrases(w), DictionaryFor(matcher, "eng"), scorer, matcher.threshold)
  {
    WordIsPhrase(w);
    var ps := TextPhrases(w);
    var i :| 0 <= i < |ps| && ps[i] == w;
    var dict := DictionaryFor(matcher, "eng");
    assert scorer(w, dict[0]) >= matcher.threshold;
  }

  lemma PythonWord(w: string)
    requires w == "python"
    ensures IsWord(w) && Lower(w) == w
  {
    forall i | 0 <= i < |w| ensures Lower(w)[i] == w[i] && !IsSpace(w[i]) {
      assert 'a' <= w[i] <= 'z';
    }
  }

  lemma PythonLower()
    ensures Lower("python") == "python"
  {
    PythonWord("python");
  }

  /** A lower-case word is one of its own candidate phrases. */
  lemma WordIsPhrase(w: string)
    requires IsWord(w) && Lower(w) == w
    ensures w in TextPhrases(w)
  {
    SplitWord(w);
    assert Gram([w], 0, 1) == w;
    assert IsRun(Split(Lower(w)), w);
  }

  /** Where an entry of the result comes from: an exact entry has
      confidence 1.0 and its skill occurs in the text; a fuzzy entry's skill
      does not, and it scored at least the threshold against a run of one to
      four words of at least three characters, its confidence being that
      score over 100. */
  ghost predicate Justified(text: string, threshold: real, scorer: Scorer, m: SkillMatch) {
    || (m.kind == Exact && m.confidence == 1.0 && MatchesExactly(Lower(text), m.skill))
    || (&& m.kind == Fuzzy && !MatchesExactly(Lower(text), m.skill)
        && exists p :: IsRun(Split(Lower(text)), p) && |p| >= 3 && scorer(p, m.skill) >= threshold
                       && m.confidence == scorer(p, m.skill) / 100.0)
  }

  /** A dictionary skill that occurs in the text is carried by an exact
      entry. */
  lemma ExactCovers(dict: seq<string>, text: string, s: string)
    requires s in dict && MatchesExactly(Lower(text), s)
    ensures HasSkill(ExactPhase(dict, text), s)
  {
    var exact := ExactPhase(dict, text);
    assert SkillMatch(s, 1.0, Exact) in exact;
    var x :| 0 <= x < |exact| && exact[x] == SkillMatch(s, 1.0, Exact);
  }

  /** The fuzzy phase yields the score-derived entry of some candidate
      phrase. */
  lemma FuzzyOrigin(dict: seq<string>, text: string, scorer: Scorer, cutoff: real, m: SkillMatch)
    requires m in FuzzyPhase(dict, text, scorer, cutoff)
    ensures exists p :: p in TextPhrases(text) && PhraseMatch(p, dict, ExactPhase(dict, text), scorer, cutoff) == Some(m)
  {
  }

  /** Every candidate of the fuzzy phase is a justified dictionary skill. */
  lemma FuzzyJustified(dict: seq<string>, text: string, scorer: Scorer, cutoff: real, m: SkillMatch)
    requires m in FuzzyPhase(dict, text, scorer, cutoff)
    ensures m.skill in dict && !HasSkill(ExactPhase(dict, text), m.skill)
    ensures Justified(text, cutoff, scorer, m)
  {
    var exact := ExactPhase(dict, text);
    FuzzyOrigin(dict, text, scorer, cutoff, m);
    var p :| p in TextPhrases(text) && PhraseMatch(p, dict, exact, scorer, cutoff) == Some(m);
    PhraseIsRun(text, p);
    NotExactlyMatched(dict, text, m.skill);
    FuzzyEntryJustified(text, cutoff, scorer, m, p);
  }

  lemma PhraseIsRun(text: string, p: string)
    requires p in TextPhrases(text)
    ensures IsRun(Split(Lower(text)), p)
  {
  }

  /** A dictionary skill the exact phase did not report does not occur in the text. */
  lemma NotExactlyMatched(dict: seq<string>, text: string, s: string)
    requires s in dict && !HasSkill(ExactPhase(dict, text), s)
    ensures !MatchesExactly(Lower(text), s)
  {
    if MatchesExactly(Lower(text), s) {
      ExactCovers(dict, text, s);
      assert false;
    }
  }

  lemma FuzzyEntryJustified(text: string, cutoff: real, scorer: Scorer, m: SkillMatch, p: string)
    requires m.kind == Fuzzy && !MatchesExactly(Lower(text), m.skill)
    requires IsRun(Split(Lower(text)), p) && |p| >= 3 && scorer(p, m.skill) >= cutoff
    requires m.confidence == scorer(p, m.skill) / 100.0
    ensures Justified(text, cutoff, scorer, m)
  {
  }

  /** Every candidate of either phase is a justified dictionary skill. */
  lemma CandidatesJustified(dict: seq<string>, text: string, scorer: Scorer, cutoff: real)
    ensures forall m :: m in ExactPhase(dict, text) + FuzzyPhase(dict, text, scorer, cutoff) ==>
      m.skill in dict && Justified(text, cutoff, scorer, m)
  {
    var exact := ExactPhase(dict, text);
    var fuzzy := FuzzyPhase(dict, text, scorer, cutoff);
    forall m: SkillMatch | m in exact + fuzzy ensures m.skill in dict && Justified(text, cutoff, scorer, m) {
      if m !in exact {
        FuzzyJustified(dict, text, scorer, cutoff, m);
      }
    }
  }

  /** Every entry of the result is a dictionary skill of the language that
      is justified by the text, and no skill appears twice. */
  lemma ExtractSkillsSound(matcher: Matcher, text: string, code: string, scorer: Scorer)
    ensures var r := ExtractSkills(matcher, text, code, scorer);
      && Distinct(Skills(r))
      && forall m :: m in r ==> m.skill in DictionaryFor(matcher, code) && Justified(text, matcher.threshold, scorer, m)
  {
    var r := ExtractSkills(matcher, text, code, scorer);
    if !ReturnsEarly(matcher, text, code) {
      var dict := DictionaryFor(matcher, code);
      var all := ExactPhase(dict, text) + FuzzyPhase(dict, text, scorer, matcher.threshold);
      CandidatesJustified(dict, text, scorer, matcher.threshold);
      forall m: SkillMatch | m in r ensures m.skill in dict && Justified(text, matcher.threshold, scorer, m) {
        var i :| 0 <= i < |r| && r[i] == m;
        assert IsWinner(all, r[i]);
        var k: nat :| WinnerAt(all, r[i], k);
        assert all[k] in all;
      }
    }
  }

  /** Every dictionary skill that occurs in the text is reported as an
      exact match of confidence 1.0, since no fuzzy entry carries it and the
      merge keeps the first entry of highest confidence. */
  lemma {:induction false} ExactSkillsReported(matcher: Matcher, text: string, code: string, scorer: Scorer, s: string)
    requires !ReturnsEarly(matcher, text, code)
    requires s in DictionaryFor(matcher, code) && MatchesExactly(Lower(text), s)
    ensures SkillMatch(s, 1.0, Exact) in ExtractSkills(matcher, text, code, scorer)
  {
    var dict := DictionaryFor(matcher, code);
    var exact := ExactPhase(dict, text);
    var fuzzy := FuzzyPhase(dict, text, scorer, matcher.threshold);
    var r := ExtractSkills(matcher, text, code, scorer);
    var x := ExactEntry(dict, text, s);
    FuzzyLacks(dict, text, scorer, matcher.threshold, s);
    var i, k := WinnerOfSkill(exact + fuzzy, r, x);
    ExactWinner(exact, fuzzy, s, k);
  }

  /** The exact entry of a skill that occurs in the text. */
  lemma ExactEntry(dict: seq<string>, text: string, s: string) returns (x: nat)
    requires s in dict && MatchesExactly(Lower(text), s)
    ensures x < |ExactPhase(dict, text)| && ExactPhase(dict, text)[x] == SkillMatch(s, 1.0, Exact)
    ensures HasSkill(ExactPhase(dict, text), s)
  {
    var exact := ExactPhase(dict, text);
    assert SkillMatch(s, 1.0, Exact) in exact;
    x :| 0 <= x < |exact| && exact[x] == SkillMatch(s, 1.0, Exact);
  }

  /** No fuzzy entry carries a skill that has an exact entry. */
  lemma FuzzyLacks(dict: seq<string>, text: string, scorer: Scorer, cutoff: real, s: string)
    requires HasSkill(ExactPhase(dict, text), s)
    ensures forall m :: m in FuzzyPhase(dict, text, scorer, cutoff) ==> m.skill != s
  {
    forall m | m in FuzzyPhase(dict, text, scorer, cutoff) ensures m.skill != s {
      FuzzyJustified(dict, text, scorer, cutoff, m);
    }
  }

  /** Every skill of `all` has its winner in a de-duplicated `r`. */
  lemma WinnerOfSkill(all: seq<SkillMatch>, r: seq<SkillMatch>, x: nat) returns (i: nat, k: nat)
    requires Deduplicates(all, r) && x < |all|
    ensures i < |r| && r[i].skill == all[x].skill && WinnerAt(all, r[i], k)
  {
    assert all[x].skill in Skills(r);
    i :| i < |r| && Skills(r)[i] == all[x].skill;
    assert IsWinner(all, r[i]);
    k :| WinnerAt(all, r[i], k);
  }

  /** An entry for a skill no fuzzy entry carries is an exact one. */
  lemma ExactWinner(exact: seq<SkillMatch>, fuzzy: seq<SkillMatch>, s: string, k: nat)
    requires forall m :: m in exact ==> m == SkillMatch(m.skill, 1.0, Exact)
    requires forall m :: m in fuzzy ==> m.skill != s
    requires k < |exact + fuzzy| && (exact + fuzzy)[k].skill == s
    ensures (exact + fuzzy)[k] == SkillMatch(s, 1.0, Exact)
  {
    if k >= |exact| {
      assert false;
    } else {
      assert (exact + fuzzy)[k] == exact[k];
      assert exact[k] in exact;
    }
  }

  /** With a scorer on the 0..100 scale, every confidence lies in (0, 1]
      for a positive threshold. */
  lemma ConfidenceInRange(matcher: Matcher, text: string, code: string, scorer: Scorer)
    requires forall a, b :: scorer(a, b) <= 100.0
    requires matcher.threshold > 0.0
    ensures forall m :: m in ExtractSkills(matcher, text, code, scorer) ==>
      0.0 < m.confidence <= 1.0
  {
    ExtractSkillsSound(matcher, text, code, scorer);
  }

  // ---------------------------------------------------------------------------
  // categorize_skills
  // ---------------------------------------------------------------------------

  /** The soft-skill keywords of both languages (lines 125-135), already in
      lower case. */
  const SoftKeywords: seq<string> := [
    "communication", "leadership", "teamwork", "management", "organization",
    "problem solving", "creativity", "critical thinking", "adaptability",
    "komunikasi", "kepemimpinan", "kerja tim", "manajemen", "organisasi",
    "pemecahan masalah", "kreativitas", "berpikir kritis", "adaptasi"]

  /** A skill is soft when its lower-case form contains a keyword of
      either language. */
  predicate IsSoft(skill: string) {
    ContainsAny(Lower(skill), SoftKeywords)
  }

  /** The skills `x` of `ss` whose `soft(x)` is `keep`, in order. */
  function Select(ss: seq<string>, soft: string -> bool, keep: bool): seq<string> {
    if ss == [] then []
    else Select(ss[..|ss| - 1], soft, keep) + (if soft(ss[|ss| - 1]) == keep then [ss[|ss| - 1]] else [])
  }

  /** The selected skills are exactly the input's skills with the wanted
      value of `soft`. */
  lemma {:induction false} SelectMembers(ss: seq<string>, soft: string -> bool, keep: bool)
    ensures forall x :: x in Select(ss, soft, keep) ==> x in ss && soft(x) == keep
    ensures forall x :: x in ss && soft(x) == keep ==> x in Select(ss, soft, keep)
    decreases |ss|
  {
    if ss != [] {
      var n := |ss| - 1;
      SelectMembers(ss[..n], soft, keep);
      assert ss == ss[..n] + [ss[n]];
    }
  }

  /** One more skill at the end goes to the end of its list. */
  lemma SelectSnoc(p: seq<string>, x: string, soft: string -> bool, keep: bool)
    ensures Select(p + [x], soft, keep) == Select(p, soft, keep) + (if soft(x) == keep then [x] else [])
  {
    assert (p + [x])[..|p|] == p;
  }

  /** Selecting from a concatenation is selecting from each part. */
  lemma {:induction false} SelectDistributes(a: seq<string>, b: seq<string>, soft: string -> bool, keep: bool)
    ensures Select(a + b, soft, keep) == Select(a, soft, keep) + Select(b, soft, keep)
    decreases |b|
  {
    if b == [] {
      assert a + b == a;
    } else {
      var c, x := b[..|b| - 1], b[|b| - 1];
      var t := if soft(x) == keep then [x] else [];
      SelectDistributes(a, c, soft, keep);
      SelectSnoc(a + c, x, soft, keep);
      SelectSnoc(c, x, soft, keep);
      SnocSplit(a, b);
      calc {
        Select(a + b, soft, keep);
        Select(a + c, soft, keep) + t;
        Select(a, soft, keep) + Select(c, soft, keep) + t;
        Select(a, soft, keep) + Select(b, soft, keep);
      }
    }
  }

  /** A non-empty `b` is its front and its last element. */
  lemma SnocSplit<T>(a: seq<T>, b: seq<T>)
    requires b != []
    ensures b[..|b| - 1] + [b[|b| - 1]] == b
    ensures (a + b[..|b| - 1]) + [b[|b| - 1]] == a + b
  {
  }

  /** The two selections split the input, with multiplicities. */
  lemma {:induction false} SelectPartition(ss: seq<string>, soft: string -> bool)
    ensures multiset(Select(ss, soft, false)) + multiset(Select(ss, soft, true)) == multiset(ss)
    decreases |ss|
  {
    if ss != [] {
      var n := |ss| - 1;
      SelectPartition(ss[..n], soft);
      assert ss == ss[..n] + [ss[n]];
    }
  }

  /** The skills of `ss` that are soft, in order. */
  function SoftOf(ss: seq<string>): (r: seq<string>)
    ensures forall x :: x in r ==> x in ss && IsSoft(x)
    ensures forall x :: x in ss && IsSoft(x) ==> x in r
  {
    SelectMembers(ss, IsSoft, true);
    Select(ss, IsSoft, true)
  }

  /** The skills of `ss` that are not soft, in order. */
  function HardOf(ss: seq<string>): (r: seq<string>)
    ensures forall x :: x in r ==> x in ss && !IsSoft(x)
    ensures forall x :: x in ss && !IsSoft(x) ==> x in r
  {
    SelectMembers(ss, IsSoft, false);
    Select(ss, IsSoft, false)
  }

  /** Both lists keep the input order: splitting a concatenation is
      splitting each part and concatenating the results. */
  lemma SplitDistributes(a: seq<string>, b: seq<string>)
    ensures SoftOf(a + b) == SoftOf(a) + SoftOf(b)
    ensures HardOf(a + b) == HardOf(a) + HardOf(b)
  {
    SelectDistributes(a, b, IsSoft, true);
    SelectDistributes(a, b, IsSoft, false);
  }

  /** A single skill is soft or hard according to its keywords. */
  lemma SplitOne(x: string)
    ensures SoftOf([x]) == (if IsSoft(x) then [x] else [])
    ensures HardOf([x]) == (if IsSoft(x) then [] else [x])
  {
    SelectSnoc([], x, IsSoft, true);
    SelectSnoc([], x, IsSoft, false);
    assert [] + [x] == [x];
  }

  /** Every skill lands in exactly one of the two lists. */
  lemma SplitIsPartition(ss: seq<string>)
    ensures multiset(HardOf(ss)) + multiset(SoftOf(ss)) == multiset(ss)
  {
    SelectPartition(ss, IsSoft);
  }

  datatype Categories = Categories(hard: seq<string>, soft: seq<string>)

  /** `categorize_skills(skills)`: one pass that appends each skill to the
      soft or the hard list. */
  method CategorizeSkills(skills: seq<SkillMatch>) returns (c: Categories)
    ensures c.soft == SoftOf(Skills(skills)) && c.hard == HardOf(Skills(skills))
    ensures forall x :: x in c.soft ==> IsSoft(x)
    ensures forall x :: x in c.hard ==> !IsSoft(x)
    ensures multiset(c.hard) + multiset(c.soft) == multiset(Skills(skills))
  {
    var hard: seq<string> := [];
    var soft: seq<string> := [];
    ghost var ss := Skills(skills);
    for i := 0 to |skills|
      invariant hard == HardOf(ss[..i]) && soft == SoftOf(ss[..i])
    {
      assert ss[..i + 1][..i] == ss[..i];
      var skill := skills[i].skill;
      if IsSoft(skill) {
        soft := soft + [skill];
      } else {
        hard := hard + [skill];
      }
    }
    assert ss[..|skills|] == ss;
    SplitIsPartition(ss);
    c := Categories(hard, soft);
  }
}

=== FILE: text.dfy ===
/**
 * The Python `str` operations the extraction layer relies on, stated over
 * `string` (= `seq<char>`): whitespace and digit classes, ASCII lower-casing,
 * substring search (`in`, `find`), `split()`, `strip()`, `join`, slicing with
 * clamped bounds and `replace(old, new, 1)`.
 */
module Text {
  import opened Wrappers

  /** The characters for which Python's `str.isspace()` holds; `split()`,
      `strip()` and the regex class `\s` all use this set. */
  predicate IsSpace(c: char) {
    c in Spaces
  }

  const Spaces: set<char> := {
    ' ', '\t', '\n', '\U{B}', '\U{C}', '\r', '\U{1C}', '\U{1D}', '\U{1E}', '\U{1F}',
    '\U{85}', '\U{A0}', '\U{1680}', '\U{2000}', '\U{2001}', '\U{2002}', '\U{2003}',
    '\U{2004}', '\U{2005}', '\U{2006}', '\U{2007}', '\U{2008}', '\U{2009}', '\U{200A}',
    '\U{2028}', '\U{2029}', '\U{202F}', '\U{205F}', '\U{3000}'
  }

  /** An ASCII decimal digit (the regex class `\d` restricted to ASCII). */
  predicate IsDigit(c: char) {
    '0' <= c <= '9'
  }

  predicate AllDigits(s: string) {
    forall i :: 0 <= i < |s| ==> IsDigit(s[i])
  }

  /** A regex word character (`\w`), restricted to ASCII. */
  predicate IsWordChar(c: char) {
    IsDigit(c) || ('a' <= c <= 'z') || ('A' <= c <= 'Z') || c == '_'
  }

  /** The regex assertion `\b` at offset `i` of `s`: a word character on
      exactly one side of the offset. */
  predicate WordBoundary(s: string, i: nat)
    requires i <= |s|
  {
    var before := i > 0 && IsWordChar(s[i - 1]);
    var after := i < |s| && IsWordChar(s[i]);
    before != after
  }

  function DigitValue(c: char): (d: nat)
    requires IsDigit(c)
    ensures d < 10
  {
    (c as int) - ('0' as int)
  }

  /** `int(s)` for a string of ASCII digits. */
  function NumberOf(s: string): (n: nat)
    requires AllDigits(s)
    ensures |s| <= 1 ==> n < 10
    ensures |s| <= 2 ==> n < 100
  {
    if |s| == 0 then 0 else NumberOf(s[..|s| - 1]) * 10 + DigitValue(s[|s| - 1])
  }

  function LowerChar(c: char): char {
    if 'A' <= c <= 'Z' then ((c as int) + 32) as char else c
  }

  /** `s.lower()`, restricted to ASCII letters. */
  function Lower(s: string): (r: string)
    ensures |r| == |s|
    ensures forall i :: 0 <= i < |s| ==> r[i] == LowerChar(s[i])
  {
    seq(|s|, i requires 0 <= i < |s| => LowerChar(s[i]))
  }

  /** `p` occurs in `s` starting at offset `i`. */
  predicate OccursAt(s: string, p: string, i: nat) {
    i + |p| <= |s| && s[i..i + |p|] == p
  }

  function FindFrom(s: string, p: string, i: nat): (r: Option<nat>)
    requires i <= |s|
    ensures r.Some? ==> i <= r.value && OccursAt(s, p, r.value)
    ensures r.Some? ==> forall j: nat :: i <= j < r.value ==> !OccursAt(s, p, j)
    ensures r.None? ==> forall j: nat :: i <= j ==> !OccursAt(s, p, j)
    decreases |s| - i
  {
    if OccursAt(s, p, i) then Some(i)
    else if i == |s| then None
    else FindFrom(s, p, i + 1)
  }

  /** `s.find(p)`: the first offset at which `p` occurs, if any. */
  function Find(s: string, p: string): (r: Option<nat>)
    ensures r.Some? ==> OccursAt(s, p, r.value)
    ensures r.Some? ==> forall j: nat :: j < r.value ==> !OccursAt(s, p, j)
    ensures r.None? ==> forall j: nat :: !OccursAt(s, p, j)
  {
    FindFrom(s, p, 0)
  }

  /** Python's `p in s` for strings. */
  predicate Contains(s: string, p: string) {
    Find(s, p).Some?
  }

  lemma ContainsIff(s: string, p: string)
    ensures Contains(s, p) <==> exists j :: OccursAt(s, p, j)
  {
  }

  /** A string occurs in a longer one that contains it as a piece. */
  lemma ContainsPiece(a: string, p: string, b: string)
    ensures Contains(a + p + b, p)
  {
    assert (a + p + b)[|a|..|a| + |p|] == p;
    assert OccursAt(a + p + b, p, |a|);
  }

  /** `any(w in s for w in words)`: some word of the list occurs in `s`. */
  predicate ContainsAny(s: string, words: seq<string>) {
    exists i :: 0 <= i < |words| && Contains(s, words[i])
  }

  /** The least offset `k` in `[i, n]` with `p(k)`: the order in which a
      regex search tries start offsets. */
  function FirstFrom(p: nat -> bool, i: nat, n: nat): (r: Option<nat>)
    requires i <= n + 1
    ensures r.Some? ==> i <= r.value <= n && p(r.value)
    ensures r.Some? ==> forall k: nat :: i <= k < r.value ==> !p(k)
    ensures r.None? ==> forall k: nat :: i <= k <= n ==> !p(k)
    decreases n + 1 - i
  {
    if i > n then None
    else if p(i) then Some(i)
    else FirstFrom(p, i + 1, n)
  }

  function Min(a: nat, b: nat): (m: nat)
    ensures m <= a && m <= b && (m == a || m == b)
  {
    if a <= b then a else b
  }

  /** Python's `s[a:b]` for non-negative bounds: both are clamped to `|s|`
      and a reversed range gives the empty string. */
  function Slice(s: string, a: nat, b: nat): (r: string)
    ensures a <= b <= |s| ==> r == s[a..b]
    ensures b <= a ==> r == []
    ensures |r| <= |s|
    ensures a <= b ==> |r| <= b - a
  {
    var lo := if a < |s| then a else |s|;
    var hi := if b < |s| then b else |s|;
    if lo >= hi then [] else s[lo..hi]
  }

  /** `s.replace(target, replacement, 1)`: only the first occurrence is replaced. */
  function ReplaceOnce(s: string, target: string, replacement: string): string {
    match Find(s, target)
    case Some(i) => s[..i] + replacement + s[i + |target|..]
    case None => s
  }

  /** The longest prefix of `s` made of whitespace, removed. */
  function SkipSpaces(s: string): (r: string)
    ensures |r| <= |s| && r == s[|s| - |r|..]
    ensures r == [] || !IsSpace(r[0])
    ensures forall i :: 0 <= i < |s| - |r| ==> IsSpace(s[i])
  {
    if s == [] || !IsSpace(s[0]) then s else SkipSpaces(s[1..])
  }

  /** The longest suffix of `s` made of whitespace, removed. */
  function SkipTrailingSpaces(s: string): (r: string)
    ensures |r| <= |s| && r == s[..|r|]
    ensures r == [] || !IsSpace(r[|r| - 1])
    ensures forall i :: |r| <= i < |s| ==> IsSpace(s[i])
  {
    if s == [] || !IsSpace(s[|s| - 1]) then s else SkipTrailingSpaces(s[..|s| - 1])
  }

  /** Concatenation is associative; a lemma of its own keeps the step
      cheap where many other facts are in scope. */
  lemma ConcatAssoc<T>(x: seq<T>, y: seq<T>, z: seq<T>)
    ensures x + (y + z) == (x + y) + z
  {
  }

  lemma ConcatNil<T>(x: seq<T>)
    ensures x + [] == x && [] + x == x
  {
  }

  /** `s.strip()`. */
  function Strip(s: string): (r: string)
    ensures r == [] || (!IsSpace(r[0]) && !IsSpace(r[|r| - 1]))
    ensures |r| <= |s|
  {
    SkipTrailingSpaces(SkipSpaces(s))
  }

  /** A text without whitespace at either end is its own `strip()`. */
  lemma StripKeepsTrimmed(s: string)
    requires s == [] || (!IsSpace(s[0]) && !IsSpace(s[|s| - 1]))
    ensures Strip(s) == s
  {
    assert SkipSpaces(s) == s;
  }

  /** The leading run of non-whitespace characters of `s`. */
  function WordPrefix(s: string): (w: string)
    ensures |w| <= |s| && w == s[..|w|]
    ensures forall i :: 0 <= i < |w| ==> !IsSpace(w[i])
    ensures |w| == |s| || IsSpace(s[|w|])
  {
    if s == [] || IsSpace(s[0]) then [] else [s[0]] + WordPrefix(s[1..])
  }

  predicate IsWord(w: string) {
    w != [] && forall i :: 0 <= i < |w| ==> !IsSpace(w[i])
  }

  /** `s.split()` with no separator: the maximal runs of non-whitespace. */
  function Split(s: string): (words: seq<string>)
    ensures forall k :: 0 <= k < |words| ==> IsWord(words[k])
    decreases |s|
  {
    var t := SkipSpaces(s);
    if t == [] then []
    else
      var w := WordPrefix(t);
      assert w != [] by { assert !IsSpace(t[0]); }
      var rest := Split(t[|w|..]);
      WordsCons(w, rest);
      [w] + rest
  }

  /** A single word splits into itself. */
  lemma SplitWord(w: string)
    requires IsWord(w)
    ensures Split(w) == [w]
  {
    assert SkipSpaces(w) == w;
    var p := WordPrefix(w);
    assert |p| == |w|;
    assert p == w;
    assert w[|p|..] == [];
    assert Split([]) == [];
  }

  lemma WordsCons(w: string, rest: seq<string>)
    requires IsWord(w) && forall k :: 0 <= k < |rest| ==> IsWord(rest[k])
    ensures forall k :: 0 <= k < |[w] + rest| ==> IsWord(([w] + rest)[k])
  {
  }

  /** `sep.join(xs)`. */
  function Join(sep: string, xs: seq<string>): string
    decreases |xs|
  {
    if |xs| == 0 then ""
    else if |xs| == 1 then xs[0]
    else xs[0] + sep + Join(sep, xs[1..])
  }

  /** Joining grows at the back the way Python's `join` is usually pictured:
      one more item appends the separator and that item. */
  lemma {:induction false} JoinSnoc(sep: string, xs: seq<string>, x: string)
    requires |xs| > 0
    ensures Join(sep, xs + [x]) == Join(sep, xs) + sep + x
    decreases |xs|
  {
    if |xs| == 1 {
      assert xs + [x] == [xs[0], x];
      assert [xs[0], x][1..] == [x];
    } else {
      assert (xs + [x])[1..] == xs[1..] + [x];
      JoinSnoc(sep, xs[1..], x);
    }
  }

  /** The joined text is as long as its pieces plus one separator between
      each neighbouring pair. */
  function SumLengths(xs: seq<string>): nat {
    if xs == [] then 0 else |xs[0]| + SumLengths(xs[1..])
  }

  lemma {:induction false} JoinLength(sep: string, xs: seq<string>)
    requires |xs| > 0
    ensures |Join(sep, xs)| == SumLengths(xs) + (|xs| - 1) * |sep|
    decreases |xs|
  {
    if |xs| > 1 {
      JoinLength(sep, xs[1..]);
    }
  }
  /** Lower-casing commutes with taking a prefix. */
  lemma LowerPrefix(s: string, n: nat)
    requires n <= |s|
    ensures Lower(s[..n]) == Lower(s)[..n]
  {
  }

  /** A piece missing from a text is missing from each of its prefixes. */
  lemma PrefixKeepsAbsence(s: string, n: nat, p: string)
    requires n <= |s| && !Contains(s, p)
    ensures !Contains(s[..n], p)
  {
    forall j: nat | OccursAt(s[..n], p, j) ensures OccursAt(s, p, j) {
      PrefixOccurrence(s, n, p, j);
    }
    NoOccurrenceNotContained(s[..n], p);
  }

  /** An occurrence in a prefix is an occurrence in the text. */
  lemma PrefixOccurrence(s: string, n: nat, p: string, j: nat)
    requires n <= |s| && OccursAt(s[..n], p, j)
    ensures OccursAt(s, p, j) && j + |p| <= n
  {
    assert s[..n][j..j + |p|] == s[j..j + |p|];
  }

  lemma NoOccurrenceNotContained(s: string, p: string)
    requires forall j: nat :: !OccursAt(s, p, j)
    ensures !Contains(s, p)
  {
  }

  /** A non-empty piece does not occur before its first occurrence. */
  lemma NothingBeforeFirst(s: string, p: string)
    requires p != [] && Contains(s, p)
    ensures !Contains(s[..Find(s, p).value], p)
  {
    var f := Find(s, p).value;
    forall j: nat ensures !OccursAt(s[..f], p, j) {
      if j < f {
        if j + |p| <= f {
          assert !OccursAt(s, p, j);
          assert s[..f][j..j + |p|] == s[j..j + |p|];
        }
      }
    }
    NoOccurrenceNotContained(s[..f], p);
  }

  /** `replace(t, "", 1)` removes the first occurrence only: an occurrence
      after it survives. */
  lemma ReplaceOnceKeepsLater(s: string, t: string, i: nat, j: nat)
    requires OccursAt(s, t, i) && OccursAt(s, t, j) && i + |t| <= j
    ensures Contains(ReplaceOnce(s, t, ""), t)
  {
    var f := Find(s, t).value;
    assert f <= i;
    var head := s[..f];
    var tail := s[f + |t|..];
    var r := head + tail;
    assert r == ReplaceOnce(s, t, "");
    SliceOfRight(head, tail, j - |t|, j);
    assert tail[j - |t| - f..j - f] == s[j..j + |t|];
    assert OccursAt(r, t, j - |t|);
  }

  /** A slice that lies in the right part of a concatenation. */
  lemma SliceOfRight(a: string, b: string, lo: nat, hi: nat)
    requires |a| <= lo <= hi <= |a| + |b|
    ensures (a + b)[lo..hi] == b[lo - |a|..hi - |a|]
  {
    assert forall k :: lo <= k < hi ==> (a + b)[k] == b[k - |a|];
  }

  /** A piece whose first two characters never appear together in a
      text is absent from it. */
  lemma AbsentWithoutStart(s: string, p: string)
    requires |p| >= 2
    requires forall i, j :: 0 <= i && j == i + 1 && i + |p| <= |s| ==> s[i] != p[0] || s[j] != p[1]
    ensures !Contains(s, p)
  {
    forall j: nat
      ensures !OccursAt(s, p, j)
    {
      if j + |p| <= |s| {
        assert s[j..j + |p|][0] == s[j] && s[j..j + |p|][1] == s[j + 1];
      }
    }
  }

  /** Where `strip()` starts: the result is the piece of `s` from there. */
  function StripStart(s: string): (a: nat)
    ensures a + |Strip(s)| <= |s| && Strip(s) == s[a..a + |Strip(s)|]
  {
    var t := SkipSpaces(s);
    var r := Strip(s);
    assert r == t[..|r|];
    |s| - |t|
  }
}

=== FILE: utils.dfy ===
/**
 * The pure helpers of the utility class: the recursive dictionary merge,
 * the text clean-up, the file-extension checks and the language-name
 * table. Paths follow POSIX `os.path` rules (`/` is the only separator).
 */
module Utils {
  import opened Wrappers
  import opened Text
  import opened Json

  // ---------------------------------------------------------------------------
  // merge_dictionaries
  // ---------------------------------------------------------------------------

  /** Both values are dictionaries, so they are merged rather than replaced. */
  predicate BothDicts(a: map<string, Value>, b: map<string, Value>, k: string) {
    k in a && k in b && a[k].Obj? && b[k].Obj?
  }

  /** `merge_dictionaries(dict1, dict2)` (lines 173-187). */
  function MergeDictionaries(a: map<string, Value>, b: map<string, Value>): (r: map<string, Value>)
    ensures r.Keys == a.Keys + b.Keys
    ensures forall k :: k in a && k !in b ==> r[k] == a[k]
    ensures forall k :: k in b && !BothDicts(a, b, k) ==> r[k] == b[k]
    ensures forall k :: BothDicts(a, b, k) ==> r[k].Obj? && r[k].fields.Keys == a[k].fields.Keys + b[k].fields.Keys
    decreases Obj(b)
  {
    map k | k in a.Keys + b.Keys ::
      if BothDicts(a, b, k) then Obj(MergeDictionaries(a[k].fields, b[k].fields))
      else if k in b then b[k]
      else a[k]
  }

  /** Merging with an empty dictionary on the right changes nothing. */
  lemma MergeEmptyRight(d: map<string, Value>)
    ensures MergeDictionaries(d, map[]) == d
  {
  }

  /** Merging into an empty dictionary gives the other one back. */
  lemma MergeEmptyLeft(d: map<string, Value>)
    ensures MergeDictionaries(map[], d) == d
  {
  }

  /** When the second dictionary holds no nested dictionary, the merge is
      the plain update `dict1 | dict2`. */
  lemma MergeShallow(a: map<string, Value>, b: map<string, Value>)
    requires forall k :: k in b ==> !b[k].Obj?
    ensures MergeDictionaries(a, b) == a + b
  {
  }

  /** Merging a dictionary with itself gives it back, at every depth. */
  lemma {:induction false} MergeIdempotent(d: map<string, Value>)
    ensures MergeDictionaries(d, d) == d
    decreases Obj(d)
  {
    var r := MergeDictionaries(d, d);
    forall k | k in d
      ensures r[k] == d[k]
    {
      if d[k].Obj? {
        assert BothDicts(d, d, k);
        MergeIdempotent(d[k].fields);
      }
    }
  }

  // ---------------------------------------------------------------------------
  // cleanup_text
  // ---------------------------------------------------------------------------

  /** The characters 0x20 to 0x7E. */
  predicate Printable(c: char) {
    ' ' <= c <= '~'
  }

  /** The characters `[^\x20-\x7E\n\t\r]` does not remove. */
  predicate Kept(c: char) {
    Printable(c) || c == '\n' || c == '\t' || c == '\r'
  }

  /** The only whitespace left is the plain space. */
  predicate OnlyPlainSpaces(s: string) {
    forall i :: 0 <= i < |s| && IsSpace(s[i]) ==> s[i] == ' '
  }

  /** Every space is followed by a non-whitespace character or ends the text. */
  predicate NoSpaceRuns(s: string) {
    forall i, j :: 0 <= i < |s| && j == i + 1 && j < |s| && s[i] == ' ' ==> !IsSpace(s[j])
  }

  predicate AllKept(s: string) {
    forall i :: 0 <= i < |s| ==> Kept(s[i])
  }

  /** `re.sub(r'\s+', ' ', s)`: every maximal whitespace run becomes one space. */
  function CollapseSpaces(s: string): (r: string)
    ensures r == [] <==> s == []
    ensures s != [] && !IsSpace(s[0]) ==> !IsSpace(r[0])
    ensures s != [] && IsSpace(s[0]) ==> r[0] == ' '
    ensures OnlyPlainSpaces(r) && NoSpaceRuns(r)
    ensures AllKept(s) ==> AllKept(r)
    decreases |s|
  {
    if s == [] then []
    else if IsSpace(s[0]) then
      var t := SkipSpaces(s);
      assert |t| < |s| by {
        assert t == [] || !IsSpace(t[0]);
      }
      assert AllKept(s) ==> AllKept(t) by {
        assert t == s[|s| - |t|..];
      }
      [' '] + CollapseSpaces(t)
    else
      [s[0]] + CollapseSpaces(s[1..])
  }

  /** `re.sub(r'[^\x20-\x7E\n\t\r]', '', s)`. */
  function KeepPrintable(s: string): (r: string)
    ensures |r| <= |s|
    ensures AllKept(r)
    ensures OnlyPlainSpaces(s) ==> OnlyPlainSpaces(r)
  {
    if s == [] then []
    else
      (if Kept(s[0]) then [s[0]] else []) + KeepPrintable(s[1..])
  }

  /** The removal keeps each kept character where it was and drops the
      rest: removing from a concatenation is removing from each part. */
  lemma {:induction false} KeepPrintableAppend(a: string, b: string)
    ensures KeepPrintable(a + b) == KeepPrintable(a) + KeepPrintable(b)
    decreases |a|
  {
    if a == [] {
      assert a + b == b;
    } else {
      var k := if Kept(a[0]) then [a[0]] else [];
      assert (a + b)[0] == a[0] && (a + b)[1..] == a[1..] + b;
      KeepPrintableAppend(a[1..], b);
      calc {
        KeepPrintable(a + b);
        k + KeepPrintable(a[1..] + b);
        k + (KeepPrintable(a[1..]) + KeepPrintable(b));
        (k + KeepPrintable(a[1..])) + KeepPrintable(b);
      }
    }
  }

  /** Every kept character survives as often as it occurs; the others are
      gone (`AllKept`). */
  lemma {:induction false} KeepPrintableCounts(s: string)
    ensures forall c :: Kept(c) ==> multiset(KeepPrintable(s))[c] == multiset(s)[c]
    decreases |s|
  {
    if s != [] {
      KeepPrintableCounts(s[1..]);
      assert s == [s[0]] + s[1..];
      assert multiset(s) == multiset([s[0]]) + multiset(s[1..]);
      var k := if Kept(s[0]) then [s[0]] else [];
      assert KeepPrintable(s) == k + KeepPrintable(s[1..]);
      assert multiset(KeepPrintable(s)) == multiset(k) + multiset(KeepPrintable(s[1..]));
    }
  }

  /** On one character the removal keeps it exactly when it is kept. */
  lemma KeepPrintableOne(c: char)
    ensures KeepPrintable([c]) == (if Kept(c) then [c] else [])
  {
    assert [c][1..] == [];
  }

  /** The non-whitespace characters of `s`, in order. */
  function NonSpaces(s: string): string {
    if s == [] then [] else (if IsSpace(s[0]) then [] else [s[0]]) + NonSpaces(s[1..])
  }

  lemma {:induction false} NonSpacesAppend(a: string, b: string)
    ensures NonSpaces(a + b) == NonSpaces(a) + NonSpaces(b)
    decreases |a|
  {
    if a == [] {
      assert a + b == b;
    } else {
      var n := if IsSpace(a[0]) then [] else [a[0]];
      assert (a + b)[0] == a[0] && (a + b)[1..] == a[1..] + b;
      NonSpacesAppend(a[1..], b);
      calc {
        NonSpaces(a + b);
        n + NonSpaces(a[1..] + b);
        n + (NonSpaces(a[1..]) + NonSpaces(b));
        (n + NonSpaces(a[1..])) + NonSpaces(b);
      }
    }
  }

  /** A text made of whitespace only has no non-whitespace character. */
  lemma {:induction false} NonSpacesOfBlank(s: string)
    requires forall i :: 0 <= i < |s| ==> IsSpace(s[i])
    ensures NonSpaces(s) == []
    decreases |s|
  {
    if s != [] {
      assert forall i :: 0 <= i < |s| - 1 ==> s[1..][i] == s[i + 1];
      NonSpacesOfBlank(s[1..]);
    }
  }

  /** `strip()` removes whitespace only. */
  lemma StripKeepsNonSpaces(s: string)
    ensures NonSpaces(Strip(s)) == NonSpaces(s)
  {
    SkipKeepsNonSpaces(s);
    SkipTrailingKeepsNonSpaces(SkipSpaces(s));
  }

  lemma SkipKeepsNonSpaces(s: string)
    ensures NonSpaces(SkipSpaces(s)) == NonSpaces(s)
  {
    var t := SkipSpaces(s);
    var head := s[..|s| - |t|];
    assert s == head + t;
    assert forall i :: 0 <= i < |head| ==> head[i] == s[i];
    NonSpacesOfBlank(head);
    NonSpacesAppend(head, t);
  }

  lemma SkipTrailingKeepsNonSpaces(t: string)
    ensures NonSpaces(SkipTrailingSpaces(t)) == NonSpaces(t)
  {
    var r := SkipTrailingSpaces(t);
    var tail := t[|r|..];
    assert t == r + tail;
    assert forall i :: 0 <= i < |tail| ==> tail[i] == t[|r| + i];
    NonSpacesOfBlank(tail);
    NonSpacesAppend(r, tail);
  }

  /** Collapsing whitespace keeps every non-whitespace character, in order. */
  lemma {:induction false} CollapseKeepsNonSpaces(s: string)
    ensures NonSpaces(CollapseSpaces(s)) == NonSpaces(s)
    decreases |s|
  {
    if s != [] {
      if IsSpace(s[0]) {
        var t := SkipSpaces(s);
        SkipKeepsNonSpaces(s);
        CollapseKeepsNonSpaces(t);
        SpaceThen(CollapseSpaces(t));
      } else {
        CollapseKeepsNonSpaces(s[1..]);
        WordCharThen(s[0], CollapseSpaces(s[1..]));
      }
    }
  }

  /** A word (no whitespace) is copied as it is: collapsing `w + x` gives
      `w` followed by the collapse of `x`. */
  lemma {:induction false} CollapseWordThen(w: string, x: string)
    requires forall i :: 0 <= i < |w| ==> !IsSpace(w[i])
    ensures CollapseSpaces(w + x) == w + CollapseSpaces(x)
    decreases |w|
  {
    if w != [] {
      var wx := w + x;
      assert wx[0] == w[0] && !IsSpace(wx[0]);
      assert wx[1..] == w[1..] + x;
      assert CollapseSpaces(wx) == [w[0]] + CollapseSpaces(w[1..] + x);
      CollapseWordThen(w[1..], x);
      ConcatAssoc([w[0]], w[1..], CollapseSpaces(x));
      assert [w[0]] + w[1..] == w;
    } else {
      ConcatNil(x);
      ConcatNil(CollapseSpaces(x));
    }
  }

  /** Skipping a whitespace run in front of a text that does not start
      with whitespace leaves that text. */
  lemma {:induction false} SkipRun(u: string, x: string)
    requires forall i :: 0 <= i < |u| ==> IsSpace(u[i])
    requires x == [] || !IsSpace(x[0])
    ensures SkipSpaces(u + x) == x
    decreases |u|
  {
    if u == [] {
      assert u + x == x;
    } else {
      assert (u + x)[0] == u[0] && (u + x)[1..] == u[1..] + x;
      SkipRun(u[1..], x);
    }
  }

  /** A maximal whitespace run, whatever its length and characters,
      becomes exactly one plain space. */
  lemma CollapseRunThen(u: string, x: string)
    requires u != [] && forall i :: 0 <= i < |u| ==> IsSpace(u[i])
    requires x == [] || !IsSpace(x[0])
    ensures CollapseSpaces(u + x) == [' '] + CollapseSpaces(x)
  {
    assert (u + x)[0] == u[0];
    SkipRun(u, x);
  }

  /** `re.sub(r'\s+', ' ', "a\tb")` is `"a b"`: a tab between two words
      becomes one space and the words stay apart. */
  lemma CollapseTabExample(a: char, b: char)
    requires !IsSpace(a) && !IsSpace(b)
    ensures CollapseSpaces([a, '\t', b]) == [a, ' ', b]
  {
    assert IsSpace('\t');
    CollapseRunThen(['\t'], [b]);
    CollapseWordThen([b], []);
    CollapseWordThen([a], ['\t'] + [b]);
    assert [a, '\t', b] == [a] + (['\t'] + [b]);
  }

  lemma SpaceThen(t: string)
    ensures NonSpaces([' '] + t) == NonSpaces(t)
  {
    assert ([' '] + t)[1..] == t;
  }

  lemma WordCharThen(c: char, t: string)
    requires !IsSpace(c)
    ensures NonSpaces([c] + t) == [c] + NonSpaces(t)
  {
    assert ([c] + t)[1..] == t;
  }

  /** Removing non-printable characters and dropping whitespace commute. */
  lemma {:induction false} NonSpacesOfKept(s: string)
    ensures NonSpaces(KeepPrintable(s)) == KeepPrintable(NonSpaces(s))
    decreases |s|
  {
    if s != [] {
      var c := s[0];
      var k := if Kept(c) then [c] else [];
      var n := if IsSpace(c) then [] else [c];
      NonSpacesOfKept(s[1..]);
      NonSpacesAppend(k, KeepPrintable(s[1..]));
      KeepPrintableAppend(n, NonSpaces(s[1..]));
      assert NonSpaces(k) == KeepPrintable(n) by {
        if Kept(c) { assert [c][1..] == []; }
        if !IsSpace(c) { KeepPrintableOne(c); }
      }
    }
  }

  /** A kept character that is not a tab, newline or carriage return is printable. */
  lemma PrintableWhenPlain(s: string)
    requires AllKept(s) && OnlyPlainSpaces(s)
    ensures forall i :: 0 <= i < |s| ==> Printable(s[i])
    ensures '\n' !in s
  {
    forall i | 0 <= i < |s| ensures Printable(s[i]) {
      assert Kept(s[i]);
    }
  }

  /** The length of the run of newlines that starts `s`. */
  function NewlineRun(s: string): (n: nat)
    ensures n <= |s|
    ensures forall i :: 0 <= i < n ==> s[i] == '\n'
    ensures n < |s| ==> s[n] != '\n'
  {
    if s == [] || s[0] != '\n' then 0 else 1 + NewlineRun(s[1..])
  }

  /** `re.sub(r'\n{3,}', '\n\n', s)`. */
  function CollapseNewlines(s: string): (r: string)
    ensures '\n' !in s ==> r == s
    decreases |s|
  {
    if s == [] then []
    else if s[0] == '\n' then
      var n := NewlineRun(s);
      (if n >= 3 then "\n\n" else s[..n]) + CollapseNewlines(s[n..])
    else
      assert '\n' !in s ==> '\n' !in s[1..];
      [s[0]] + CollapseNewlines(s[1..])
  }

  /** No run of three or more newlines. */
  predicate NoNewlineTriple(s: string) {
    forall i :: 0 <= i && i + 2 < |s| ==> !(s[i] == '\n' && s[i + 1] == '\n' && s[i + 2] == '\n')
  }

  /** The characters of `s` other than newlines, in order. */
  function NonNewlines(s: string): string {
    if s == [] then [] else (if s[0] == '\n' then [] else [s[0]]) + NonNewlines(s[1..])
  }

  lemma {:induction false} NonNewlinesAppend(a: string, b: string)
    ensures NonNewlines(a + b) == NonNewlines(a) + NonNewlines(b)
    decreases |a|
  {
    if a == [] {
      assert a + b == b;
    } else {
      assert (a + b)[0] == a[0] && (a + b)[1..] == a[1..] + b;
      NonNewlinesAppend(a[1..], b);
    }
  }

  lemma {:induction false} NonNewlinesOfRun(s: string)
    requires forall i :: 0 <= i < |s| ==> s[i] == '\n'
    ensures NonNewlines(s) == []
    decreases |s|
  {
    if s != [] {
      NonNewlinesOfRun(s[1..]);
    }
  }

  /** Gluing a short run of newlines, or one other character, in front of
      a text without triples that does not itself start with a newline
      after the run, keeps the text free of triples. */
  lemma JoinNoTriple(a: string, b: string)
    requires |a| <= 2 && NoNewlineTriple(b)
    requires (|a| == 1 && a[0] != '\n') || b == [] || b[0] != '\n'
    ensures NoNewlineTriple(a + b)
  {
    var r := a + b;
    forall i | 0 <= i && i + 2 < |r| ensures !(r[i] == '\n' && r[i + 1] == '\n' && r[i + 2] == '\n') {
      if i >= |a| {
        assert r[i] == b[i - |a|] && r[i + 1] == b[i - |a| + 1] && r[i + 2] == b[i - |a| + 2];
      } else if |a| == 1 && a[0] != '\n' {
        assert r[i] == a[0];
      } else {
        assert r[|a|] == b[0];
      }
    }
  }

  lemma NoTripleSuffix(s: string, k: nat)
    requires NoNewlineTriple(s) && k <= |s|
    ensures NoNewlineTriple(s[k..])
  {
    var t := s[k..];
    forall i | 0 <= i && i + 2 < |t| ensures !(t[i] == '\n' && t[i + 1] == '\n' && t[i + 2] == '\n') {
      assert t[i] == s[k + i] && t[i + 1] == s[k + i + 1] && t[i + 2] == s[k + i + 2];
    }
  }

  /** The collapsed text starts as the text does. */
  lemma CollapseNewlinesHead(s: string)
    requires s != []
    ensures CollapseNewlines(s) != [] && CollapseNewlines(s)[0] == s[0]
  {
    if s[0] == '\n' {
      var n := NewlineRun(s);
      var chunk := if n >= 3 then "\n\n" else s[..n];
      assert chunk != [] && chunk[0] == '\n';
      assert CollapseNewlines(s) == chunk + CollapseNewlines(s[n..]);
    }
  }

  /** `re.sub(r'\n{3,}', '\n\n', s)` leaves no run of three newlines. */
  lemma {:induction false} CollapseNewlinesNoTriple(s: string)
    ensures NoNewlineTriple(CollapseNewlines(s))
    decreases |s|
  {
    if s != [] {
      if s[0] == '\n' {
        var n := NewlineRun(s);
        var chunk := if n >= 3 then "\n\n" else s[..n];
        CollapseNewlinesNoTriple(s[n..]);
        var rest := CollapseNewlines(s[n..]);
        if s[n..] != [] {
          CollapseNewlinesHead(s[n..]);
          assert rest[0] == s[n];
        }
        assert CollapseNewlines(s) == chunk + rest;
        JoinNoTriple(chunk, rest);
      } else {
        CollapseNewlinesNoTriple(s[1..]);
        var rest := CollapseNewlines(s[1..]);
        assert CollapseNewlines(s) == [s[0]] + rest;
        JoinNoTriple([s[0]], rest);
      }
    }
  }

  /** The collapse keeps every character other than a newline, in order. */
  lemma {:induction false} CollapseNewlinesKeepsText(s: string)
    ensures NonNewlines(CollapseNewlines(s)) == NonNewlines(s)
    decreases |s|
  {
    if s != [] {
      if s[0] == '\n' {
        var n := NewlineRun(s);
        var chunk := if n >= 3 then "\n\n" else s[..n];
        CollapseNewlinesKeepsText(s[n..]);
        var rest := CollapseNewlines(s[n..]);
        assert CollapseNewlines(s) == chunk + rest;
        assert s == s[..n] + s[n..];
        NonNewlinesAppend(chunk, rest);
        NonNewlinesAppend(s[..n], s[n..]);
        NonNewlinesOfRun(chunk);
        NonNewlinesOfRun(s[..n]);
      } else {
        CollapseNewlinesKeepsText(s[1..]);
        var rest := CollapseNewlines(s[1..]);
        assert CollapseNewlines(s) == [s[0]] + rest;
        NonNewlinesAppend([s[0]], rest);
        NonNewlinesAppend([s[0]], s[1..]);
        assert s == [s[0]] + s[1..];
      }
    }
  }

  /** A text already free of triples is left as it is. */
  lemma {:induction false} CollapseNewlinesKeepsCollapsed(s: string)
    requires NoNewlineTriple(s)
    ensures CollapseNewlines(s) == s
    decreases |s|
  {
    if s != [] {
      if s[0] == '\n' {
        var n := NewlineRun(s);
        if |s| >= 3 {
          assert !(s[0] == '\n' && s[1] == '\n' && s[2] == '\n');
        }
        assert n < 3;
        NoTripleSuffix(s, n);
        CollapseNewlinesKeepsCollapsed(s[n..]);
        assert s == s[..n] + s[n..];
      } else {
        NoTripleSuffix(s, 1);
        CollapseNewlinesKeepsCollapsed(s[1..]);
        assert s == [s[0]] + s[1..];
      }
    }
  }

  /** No two neighbouring spaces. */
  predicate SingleSpaced(s: string) {
    forall i, j :: 0 <= i < |s| && j == i + 1 && j < |s| ==> !(s[i] == ' ' && s[j] == ' ')
  }

  /** `cleanup_text(text)` (lines 93-108), with `None` for Python's `None`. */
  function CleanupText(text: Option<string>): (r: string)
    ensures text.None? || text.value == [] ==> r == ""
    ensures forall i :: 0 <= i < |r| ==> Printable(r[i])
    ensures r == [] || (r[0] != ' ' && r[|r| - 1] != ' ')
  {
    match text
    case None => ""
    case Some(t) =>
      if t == [] then ""
      else
        CleanupShape(t);
        Strip(CollapseNewlines(KeepPrintable(CollapseSpaces(t))))
  }

  /** What reaches the newline step is printable and spaced with plain
      spaces only: the step keeps it, and the strip leaves printable text
      with no space at either end. */
  lemma CleanupShape(s: string)
    ensures var kept := KeepPrintable(CollapseSpaces(s));
      && CollapseNewlines(kept) == kept
      && var r := Strip(CollapseNewlines(kept));
      && (forall i :: 0 <= i < |r| ==> Printable(r[i]))
      && (r == [] || (r[0] != ' ' && r[|r| - 1] != ' '))
  {
    var kept := KeepPrintable(CollapseSpaces(s));
    PrintableWhenPlain(kept);
    StripKeeps(kept);
  }

  /** What the clean-up keeps: the non-whitespace characters of the result
      are those of the input that the removal keeps, in their order; only
      whitespace is added, merged or dropped. */
  lemma CleanupKeepsContent(s: string)
    ensures NonSpaces(CleanupText(Some(s))) == KeepPrintable(NonSpaces(s))
  {
    if s != [] {
      var collapsed := CollapseSpaces(s);
      CleanupShape(s);
      StripKeepsNonSpaces(KeepPrintable(collapsed));
      NonSpacesOfKept(collapsed);
      CollapseKeepsNonSpaces(s);
    }
  }

  /** Whitespace runs are gone before the newline step, so that step
      changes nothing: the clean-up is the strip of the printable part of
      the collapsed text. */
  lemma CleanupSkipsNewlines(s: string)
    requires s != []
    ensures CleanupText(Some(s)) == Strip(KeepPrintable(CollapseSpaces(s)))
  {
    CleanupShape(s);
  }

  /** What `strip()` keeps of a printable text is printable. */
  lemma StripKeeps(s: string)
    requires forall i :: 0 <= i < |s| ==> Printable(s[i])
    ensures forall i :: 0 <= i < |Strip(s)| ==> Printable(Strip(s)[i])
    ensures Strip(s) == [] || (Strip(s)[0] != ' ' && Strip(s)[|Strip(s)| - 1] != ' ')
  {
    var a := StripStart(s);
    var r := Strip(s);
    PieceKeeps(s, a, r);
  }

  /** `strip()` keeps single spacing. */
  lemma StripKeepsSingleSpaced(s: string)
    requires SingleSpaced(s)
    ensures SingleSpaced(Strip(s))
  {
    var a := StripStart(s);
    var r := Strip(s);
    PieceSpacing(s, a, r);
  }

  /** A contiguous piece of a printable text is printable. */
  lemma PieceKeeps(s: string, a: nat, r: string)
    requires a + |r| <= |s| && r == s[a..a + |r|]
    requires forall i :: 0 <= i < |s| ==> Printable(s[i])
    ensures forall i :: 0 <= i < |r| ==> Printable(r[i])
  {
    assert forall i :: 0 <= i < |r| ==> r[i] == s[a + i];
  }

  /** A contiguous piece of a single-spaced text is single-spaced. */
  lemma PieceSpacing(s: string, a: nat, r: string)
    requires a + |r| <= |s| && r == s[a..a + |r|]
    requires SingleSpaced(s)
    ensures SingleSpaced(r)
  {
    assert forall i :: 0 <= i < |r| ==> r[i] == s[a + i];
  }

  /** A text already single-spaced with plain spaces is left alone by the
      whitespace collapse. */
  lemma {:induction false} CollapseKeepsSingleSpaced(s: string)
    requires OnlyPlainSpaces(s) && NoSpaceRuns(s)
    ensures CollapseSpaces(s) == s
    decreases |s|
  {
    if s != [] {
      SingleSpacedTail(s);
      CollapseKeepsSingleSpaced(s[1..]);
      if IsSpace(s[0]) {
        SingleSpaceSkipped(s);
      }
    }
  }

  lemma SingleSpacedTail(s: string)
    requires s != [] && OnlyPlainSpaces(s) && NoSpaceRuns(s)
    ensures OnlyPlainSpaces(s[1..]) && NoSpaceRuns(s[1..])
  {
    assert forall i :: 0 <= i < |s| - 1 ==> s[1..][i] == s[i + 1];
  }

  /** A lone space is all that the whitespace skip removes. */
  lemma SingleSpaceSkipped(s: string)
    requires s != [] && IsSpace(s[0]) && NoSpaceRuns(s) && OnlyPlainSpaces(s)
    ensures SkipSpaces(s) == s[1..]
  {
    assert s[0] == ' ';
    assert s[1..] == [] || !IsSpace(s[1..][0]);
  }

  /** Whitespace is collapsed before the non-printable characters are
      removed, so a control character between two spaces leaves a double
      space behind. */
  lemma CleanupLeavesDoubleSpace()
    ensures CleanupText(Some("a \U{1} b")) == "a  b"
  {
    CleanupSkipsNewlines("a \U{1} b");
    CollapseExample();
    KeepExample();
    StripKeepsTrimmed("a  b");
  }

  lemma CollapseExample()
    ensures CollapseSpaces("a \U{1} b") == "a \U{1} b"
  {
    var s := "a \U{1} b";
    assert !IsSpace(s[0]) && !IsSpace(s[2]) && !IsSpace(s[4]);
    CollapseKeepsSingleSpaced(s);
  }

  lemma KeepExample()
    ensures KeepPrintable("a \U{1} b") == "a  b"
  {
    var s := "a \U{1} b";
    assert s[1..][1..][1..] == " b";
    assert KeepPrintable(" b"[1..]) == "b";
    assert KeepPrintable(" b") == " b";
    assert KeepPrintable(s[1..][1..]) == " b";
    assert KeepPrintable(s[1..]) == "  b";
  }

  /** Cleaning that output again changes it, so the clean-up is not
      idempotent. */
  lemma CleanupNotIdempotent()
    ensures CleanupText(Some(CleanupText(Some("a \U{1} b")))) != CleanupText(Some("a \U{1} b"))
  {
    CleanupLeavesDoubleSpace();
    CleanupNoLonger("a  b");
    CollapseDoubleSpace();
  }

  lemma CollapseDoubleSpace()
    ensures |CollapseSpaces("a  b")| == 3
  {
    assert "a  b"[1..] == "  b";
    CollapseSpacesB();
  }

  lemma CollapseSpacesB()
    ensures CollapseSpaces("  b") == " b"
  {
    SkipTwoSpaces();
    assert "b"[1..] == [];
    assert CollapseSpaces("b") == "b";
  }

  lemma SkipTwoSpaces()
    ensures SkipSpaces("  b") == "b"
  {
    assert SkipSpaces("b") == "b";
    assert " b" == [' '] + "b";
    SkipSpaceCons("b");
    assert "  b" == [' '] + " b";
    SkipSpaceCons(" b");
  }

  lemma SkipSpaceCons(s: string)
    ensures SkipSpaces([' '] + s) == SkipSpaces(s)
  {
    assert ([' '] + s)[1..] == s;
  }

  /** The clean-up never makes a text longer than its collapsed form. */
  lemma CleanupNoLonger(s: string)
    requires s != []
    ensures |CleanupText(Some(s))| <= |CollapseSpaces(s)|
  {
    CleanupSkipsNewlines(s);
  }

  /** The clean-up as intended: whitespace is collapsed again once the
      non-printable characters are gone, so no double space survives. */
  function CleanupTextCorrected(text: Option<string>): (r: string)
    ensures text.None? || text.value == [] ==> r == ""
    ensures forall i :: 0 <= i < |r| ==> Printable(r[i])
    ensures r == [] || (r[0] != ' ' && r[|r| - 1] != ' ')
    ensures SingleSpaced(r)
  {
    match text
    case None => ""
    case Some(t) =>
      if t == [] then ""
      else
        var collapsed := CollapseSpaces(KeepPrintable(CollapseSpaces(t)));
        CorrectedShape(collapsed);
        Strip(CollapseNewlines(collapsed))
  }

  /** A collapsed printable text has no newline, is single-spaced, and
      keeps both properties through the strip. */
  lemma CorrectedShape(collapsed: string)
    requires AllKept(collapsed) && OnlyPlainSpaces(collapsed) && NoSpaceRuns(collapsed)
    ensures CollapseNewlines(collapsed) == collapsed
    ensures var r := Strip(collapsed);
      && (forall i :: 0 <= i < |r| ==> Printable(r[i]))
      && (r == [] || (r[0] != ' ' && r[|r| - 1] != ' '))
      && SingleSpaced(r)
  {
    PrintableWhenPlain(collapsed);
    assert SingleSpaced(collapsed);
    StripKeeps(collapsed);
    StripKeepsSingleSpaced(collapsed);
  }

  // ---------------------------------------------------------------------------
  // File extensions
  // ---------------------------------------------------------------------------

  /** `s.rfind(c)`. */
  function LastIndex(s: string, c: char): (r: Option<nat>)
    ensures r.Some? ==> r.value < |s| && s[r.value] == c && forall j :: r.value < j < |s| ==> s[j] != c
    ensures r.None? ==> c !in s
  {
    if s == [] then None
    else if s[|s| - 1] == c then Some(|s| - 1)
    else
      var r := LastIndex(s[..|s| - 1], c);
      assert s == s[..|s| - 1] + [s[|s| - 1]];
      r
  }

  /** The last occurrence of `c` is at `i` when `c` is at `i` and not after it. */
  lemma {:induction false} LastIndexAt(s: string, c: char, i: nat)
    requires i < |s| && s[i] == c && forall j :: i < j < |s| ==> s[j] != c
    ensures LastIndex(s, c) == Some(i)
    decreases |s|
  {
    if i < |s| - 1 {
      var t := s[..|s| - 1];
      assert forall j :: i < j < |t| ==> t[j] == s[j];
      LastIndexAt(t, c, i);
    }
  }

  /** The offset where the file name starts: just after the last `/`. */
  function NameStart(p: string): (n: nat)
    ensures n <= |p|
    ensures forall j :: n <= j < |p| ==> p[j] != '/'
  {
    match LastIndex(p, '/')
    case Some(i) => i + 1
    case None => 0
  }

  /** `os.path.splitext(p)[1]`: from the last dot of the file name, unless
      the file name has only dots before it. */
  function Extension(p: string): (ext: string)
    ensures ExtensionShaped(ext)
  {
    var start := NameStart(p);
    match LastIndex(p, '.')
    case Some(dot) =>
      if dot >= start && exists k :: start <= k < dot && p[k] != '.' then
        var ext := p[dot..];
        assert forall j :: 0 <= j < |ext| ==> ext[j] == p[dot + j];
        ext
      else []
    case None => []
  }

  /** `s.lstrip('.')`. */
  function StripLeadingDots(s: string): (r: string)
    ensures |r| <= |s| && r == s[|s| - |r|..]
    ensures r == [] || r[0] != '.'
  {
    if s == [] || s[0] != '.' then s else StripLeadingDots(s[1..])
  }

  /** `get_file_extension(file_path)` (lines 66-69). */
  function GetFileExtension(p: string): (r: string)
    ensures '.' !in r && '/' !in r
    ensures NoUpper(r)
  {
    var ext := Lower(Extension(p));
    LowerKeepsExtension(Extension(p));
    var r := StripLeadingDots(ext);
    DotlessTail(ext, r);
    r
  }

  /** An extension is a dot followed by neither dots nor slashes. */
  predicate ExtensionShaped(ext: string) {
    ext == [] || (ext[0] == '.' && '.' !in ext[1..] && '/' !in ext)
  }

  /** No upper-case ASCII letter. */
  predicate NoUpper(s: string) {
    forall i :: 0 <= i < |s| ==> !('A' <= s[i] <= 'Z')
  }

  /** Lower-casing keeps the dots and slashes of an extension. */
  lemma LowerKeepsExtension(ext: string)
    requires ExtensionShaped(ext)
    ensures ExtensionShaped(Lower(ext)) && NoUpper(Lower(ext))
  {
    var low := Lower(ext);
    if ext != [] {
      assert forall i :: 0 <= i < |low| - 1 ==> low[1..][i] == LowerChar(ext[1..][i]);
    }
  }

  /** A suffix of an extension that does not start with a dot has no dot. */
  lemma DotlessTail(ext: string, r: string)
    requires ExtensionShaped(ext) && NoUpper(ext)
    requires |r| <= |ext| && r == ext[|ext| - |r|..] && (r == [] || r[0] != '.')
    ensures '.' !in r && '/' !in r && NoUpper(r)
  {
    assert forall i :: 0 <= i < |r| ==> r[i] == ext[|ext| - |r| + i];
    if r != [] {
      assert |r| < |ext|;
      assert forall i :: 0 <= i < |r| ==> r[i] == ext[1..][|ext| - |r| - 1 + i];
    }
  }

  /** `is_supported_format(file_path, supported_formats)` (lines 71-75). */
  predicate IsSupportedFormat(p: string, formats: seq<string>) {
    GetFileExtension(p) in formats
  }

  /** A file name ending in `.ext` has extension `ext`, lower-cased. */
  lemma ExtensionRoundTrip(stem: string, ext: string)
    requires stem != [] && stem[|stem| - 1] != '.' && stem[|stem| - 1] != '/'
    requires '.' !in ext && '/' !in ext
    ensures GetFileExtension(stem + "." + ext) == Lower(ext)
  {
    DottedExtension(stem, ext);
    LowerDotted(ext);
    var low := Lower(ext);
    assert ("." + low)[1..] == low;
    assert StripLeadingDots(low) == low;
  }

  /** The extension of `stem.ext` is `.ext`. */
  lemma DottedExtension(stem: string, ext: string)
    requires stem != [] && stem[|stem| - 1] != '.' && stem[|stem| - 1] != '/'
    requires '.' !in ext && '/' !in ext
    ensures Extension(stem + "." + ext) == "." + ext
  {
    var p := stem + "." + ext;
    var dot := |stem|;
    assert forall j :: dot < j < |p| ==> p[j] == ext[j - dot - 1];
    LastIndexAt(p, '.', dot);
    assert p[dot - 1] == stem[dot - 1];
    assert NameStart(p) <= dot - 1;
    assert p[dot..] == "." + ext;
  }

  /** Lower-casing `.ext` lower-cases `ext` and adds no dot to it. */
  lemma LowerDotted(ext: string)
    requires '.' !in ext
    ensures Lower("." + ext) == "." + Lower(ext)
    ensures '.' !in Lower(ext)
  {
  }

  /** So the format check accepts exactly the listed extensions. */
  lemma SupportedIff(stem: string, ext: string, formats: seq<string>)
    requires stem != [] && stem[|stem| - 1] != '.' && stem[|stem| - 1] != '/'
    requires '.' !in ext && '/' !in ext
    ensures IsSupportedFormat(stem + "." + ext, formats) <==> Lower(ext) in formats
  {
    ExtensionRoundTrip(stem, ext);
  }

  /** A file name whose only dot is its first character, such as
      `.bashrc`, has no extension. */
  lemma DotFileHasNoExtension(dir: string, name: string)
    requires name != [] && name[0] == '.' && '.' !in name[1..] && '/' !in name
    ensures GetFileExtension(dir + "/" + name) == ""
  {
    var p := dir + "/" + name;
    var start := |dir| + 1;
    assert forall j :: start <= j < |p| ==> p[j] == name[j - start];
    assert forall j :: start < j < |p| ==> p[j] == name[1..][j - start - 1];
    LastIndexAt(p, '/', |dir|);
    LastIndexAt(p, '.', start);
  }

  // ---------------------------------------------------------------------------
  // translate_language_name
  // ---------------------------------------------------------------------------

  /** The table of lines 159-169, indexed by UI language then language code. */
  function LanguageNames(ui: string, code: string): (r: Option<string>)
    ensures r.Some? <==> (ui == "eng" || ui == "ind") && (code == "eng" || code == "ind")
  {
    if ui == "eng" && code == "eng" then Some("English")
    else if ui == "eng" && code == "ind" then Some("Indonesian")
    else if ui == "ind" && code == "eng" then Some("Bahasa Inggris")
    else if ui == "ind" && code == "ind" then Some("Bahasa Indonesia")
    else None
  }

  /** `translate_language_name(lang_code, ui_lang_code)` (lines 157-171). */
  function TranslateLanguageName(code: string, ui: string): (r: string)
    ensures LanguageNames(ui, code).Some? ==> r == LanguageNames(ui, code).value
    ensures LanguageNames(ui, code).None? ==> r == code
  {
    LanguageNames(ui, code).GetOr(code)
  }

  /** A code comes back unchanged exactly when the pair is not in the
      table: no table entry equals its own key. */
  lemma TranslateUnchangedIff(code: string, ui: string)
    ensures TranslateLanguageName(code, ui) == code <==> LanguageNames(ui, code).None?
  {
  }
}

=== FILE: validation.dfy ===
/**
 * The validator: per-field validity flags for an extracted record and the
 * weighted scores computed from them.
 *
 * A field that is missing from its dictionary and a field whose value is
 * `None` are both `None` here; Python treats the two alike because every
 * check reads `key in d and d[key]`. The two full-string regexes (e-mail
 * and phone) are parameters.
 */
module Validation {
  import opened Wrappers
  import opened Text

  /** The full-string matches of the e-mail and phone regexes. */
  datatype Patterns = Patterns(emailFull: string -> bool, phoneFull: string -> bool)

  /** Python truthiness of an optional string or list. */
  predicate Present<T>(o: Option<seq<T>>) {
    o.Some? && o.value != []
  }

  // ---------------------------------------------------------------------------
  // Personal information
  // ---------------------------------------------------------------------------

  datatype PersonalFields = PersonalFields(name: Option<string>, email: Option<string>,
                                           phone: Option<string>, address: Option<string>)

  datatype Flags = Flags(name: bool, email: bool, phone: bool, address: bool)

  datatype ValidatedPersonal = ValidatedPersonal(fields: PersonalFields, flags: Flags)

  /** Lines 54-59: a name is valid when it has at least one word and at
      least three characters. */
  predicate NameValid(name: Option<string>) {
    Present(name) && |Split(name.value)| >= 1 && |name.value| >= 3
  }

  /** A name is valid exactly when it is three characters or longer and
      not all whitespace. */
  lemma NameValidIff(name: Option<string>)
    ensures NameValid(name) <==> name.Some? && |name.value| >= 3 && exists i :: 0 <= i < |name.value| && !IsSpace(name.value[i])
  {
    if name.Some? {
      SplitEmptyIff(name.value);
    }
  }

  /** `s.split()` is empty exactly when `s` is all whitespace. */
  lemma SplitEmptyIff(s: string)
    ensures Split(s) == [] <==> forall i :: 0 <= i < |s| ==> IsSpace(s[i])
  {
    var t := SkipSpaces(s);
    if t != [] {
      assert s[|s| - |t|] == t[0];
    }
  }

  /** The characters `re.sub(r'[\s\-\(\)\.]', '', phone)` removes. */
  predicate IsPhoneFormatting(c: char) {
    IsSpace(c) || c == '-' || c == '(' || c == ')' || c == '.'
  }

  /** The phone number without its formatting characters. */
  function CleanPhone(s: string): (r: string)
    ensures |r| <= |s|
    ensures forall i :: 0 <= i < |r| ==> !IsPhoneFormatting(r[i])
    ensures forall c :: !IsPhoneFormatting(c) ==> multiset(r)[c] == multiset(s)[c]
    ensures forall c :: IsPhoneFormatting(c) ==> multiset(r)[c] == 0
  {
    if s == [] then []
    else
      assert s == [s[0]] + s[1..];
      (if IsPhoneFormatting(s[0]) then [] else [s[0]]) + CleanPhone(s[1..])
  }

  /** Lines 70-77: the full-string regex and at least seven characters
      once formatting is removed. */
  predicate PhoneValid(phone: Option<string>, patterns: Patterns) {
    Present(phone) && patterns.phoneFull(phone.value) && |CleanPhone(phone.value)| >= 7
  }

  /** Whatever the regex accepts, a phone of fewer than seven characters is
      never valid, and one made only of formatting characters never is. */
  lemma ShortPhoneInvalid(phone: string, patterns: Patterns)
    requires |phone| < 7 || forall i :: 0 <= i < |phone| ==> IsPhoneFormatting(phone[i])
    ensures !PhoneValid(Some(phone), patterns)
  {
  }

  /** `validate_personal_info(personal_info)` (lines 49-87): the fields are
      kept and the four flags added. */
  function ValidatePersonalInfo(p: PersonalFields, patterns: Patterns): (v: ValidatedPersonal)
    ensures v.fields == p
    ensures v.flags.name <==> NameValid(p.name)
    ensures v.flags.email <==> Present(p.email) && patterns.emailFull(p.email.value)
    ensures v.flags.phone <==> PhoneValid(p.phone, patterns)
    ensures v.flags.address <==> Present(p.address) && |p.address.value| >= 10
    ensures !Present(p.name) && !Present(p.email) && !Present(p.phone) && !Present(p.address) ==>
      v.flags == Flags(false, false, false, false)
  {
    ValidatedPersonal(p, Flags(
      NameValid(p.name),
      Present(p.email) && patterns.emailFull(p.email.value),
      PhoneValid(p.phone, patterns),
      Present(p.address) && |p.address.value| >= 10))
  }

  // ---------------------------------------------------------------------------
  // Education and work entries
  // ---------------------------------------------------------------------------

  datatype EducationFields = EducationFields(institution: Option<string>, degree: Option<string>,
                                             field: Option<string>, dates: Option<seq<string>>)

  datatype ValidatedEducation = ValidatedEducation(entry: EducationFields, institutionValid: bool,
                                                   degreeValid: bool, datesValid: bool, valid: bool)

  datatype ExperienceFields = ExperienceFields(company: Option<string>, title: Option<string>,
                                               dates: Option<seq<string>>, responsibilities: Option<seq<string>>)

  datatype ValidatedExperience = ValidatedExperience(entry: ExperienceFields, companyValid: bool, titleValid: bool,
                                                     datesValid: bool, responsibilitiesValid: bool, valid: bool)

  /** A present optional text of at least `n` characters. */
  predicate AtLeast(o: Option<string>, n: nat) {
    Present(o) && |o.value| >= n
  }

  /** `validate_education(education)` (lines 89-119). */
  function ValidateEducation(e: EducationFields): (v: ValidatedEducation)
    ensures v.entry == e
    ensures v.institutionValid <==> AtLeast(e.institution, 3)
    ensures v.degreeValid <==> Present(e.degree)
    ensures v.datesValid <==> Present(e.dates)
    ensures v.valid == v.institutionValid
  {
    var dates := Present(e.dates) && |e.dates.value| > 0;
    ValidatedEducation(e, AtLeast(e.institution, 3), Present(e.degree), dates, AtLeast(e.institution, 3))
  }

  /** `validate_work_experience(experience)` (lines 121-158). */
  function ValidateExperience(x: ExperienceFields): (v: ValidatedExperience)
    ensures v.entry == x
    ensures v.companyValid <==> AtLeast(x.company, 2)
    ensures v.titleValid <==> Present(x.title)
    ensures v.datesValid <==> Present(x.dates)
    ensures v.responsibilitiesValid <==> Present(x.responsibilities)
    ensures v.valid == v.companyValid
  {
    var dates := Present(x.dates) && |x.dates.value| > 0;
    var resp := Present(x.responsibilities) && |x.responsibilities.value| > 0;
    ValidatedExperience(x, AtLeast(x.company, 2), Present(x.title), dates, resp, AtLeast(x.company, 2))
  }

  /** An entry whose institution is too short is never valid, whatever
      else it holds; one with a long enough institution always is. */
  lemma EducationValidityIsInstitution(e: EducationFields)
    ensures ValidateEducation(e).valid <==> e.institution.Some? && |e.institution.value| >= 3
  {
  }

  // ---------------------------------------------------------------------------
  // Skills
  // ---------------------------------------------------------------------------

  /** `validate_skills(skills)` (lines 160-166): the skills of at least two
      characters, in order. */
  function ValidateSkills(skills: seq<string>): (r: seq<string>)
    ensures |r| <= |skills|
    ensures forall i :: 0 <= i < |r| ==> |r[i]| >= 2
    ensures forall s :: s in r <==> s in skills && |s| >= 2
  {
    if skills == [] then []
    else
      assert skills == [skills[0]] + skills[1..];
      (if |skills[0]| >= 2 then [skills[0]] else []) + ValidateSkills(skills[1..])
  }

  /** Filtering commutes with concatenation, so the kept skills stay in
      their original order. */
  lemma {:induction false} ValidateSkillsKeepsOrder(a: seq<string>, b: seq<string>)
    ensures ValidateSkills(a + b) == ValidateSkills(a) + ValidateSkills(b)
    decreases |a|
  {
    if a != [] {
      assert (a + b)[1..] == a[1..] + b;
      ValidateSkillsKeepsOrder(a[1..], b);
    } else {
      assert a + b == b;
    }
  }

  /** Every skill of at least two characters is kept as many times as it
      occurs, and no other. */
  lemma {:induction false} ValidateSkillsCounts(skills: seq<string>)
    ensures forall s :: |s| >= 2 ==> multiset(ValidateSkills(skills))[s] == multiset(skills)[s]
    ensures forall s :: |s| < 2 ==> multiset(ValidateSkills(skills))[s] == 0
    decreases |skills|
  {
    if skills != [] {
      ValidateSkillsCounts(skills[1..]);
      assert skills == [skills[0]] + skills[1..];
    }
  }

  /** Filtering twice is filtering once. */
  lemma {:induction false} ValidateSkillsIdempotent(skills: seq<string>)
    ensures ValidateSkills(ValidateSkills(skills)) == ValidateSkills(skills)
    decreases |skills|
  {
    if skills != [] {
      var head := if |skills[0]| >= 2 then [skills[0]] else [];
      ValidateSkillsKeepsOrder(head, ValidateSkills(skills[1..]));
      ValidateSkillsIdempotent(skills[1..]);
      if head != [] {
        assert head[1..] == [];
      }
    }
  }

  // ---------------------------------------------------------------------------
  // Scores
  // ---------------------------------------------------------------------------

  function Count(b: bool): nat {
    if b then 1 else 0
  }

  /** The number of validity flags set. */
  function FlagCount(f: Flags): (n: nat)
    ensures n <= 4
    ensures n == 4 <==> f.name && f.email && f.phone && f.address
    ensures n == 0 <==> !f.name && !f.email && !f.phone && !f.address
  {
    Count(f.name) + Count(f.email) + Count(f.phone) + Count(f.address)
  }

  /** `compute_personal_info_score(personal_info)` (lines 191-207): `None`
      stands for an empty dictionary; a dictionary without a flag counts it
      as unset. */
  function PersonalScore(flags: Option<Flags>): (r: real)
    ensures 0.0 <= r <= 1.0
    ensures r == 1.0 <==> flags.Some? && (FlagCount(flags.value) == 4 || (flags.value.name && flags.value.email && FlagCount(flags.value) >= 3))
    ensures flags.Some? && flags.value.name && flags.value.email ==> r >= 2.0 / 3.0
    ensures flags.None? ==> r == 0.0
    ensures flags.Some? && flags.value.name && flags.value.email ==>
      r == (if FlagCount(flags.value) >= 3 then 1.0 else 2.0 / 3.0)
    ensures flags.Some? && !(flags.value.name && flags.value.email) ==>
      r * 4.0 == FlagCount(flags.value) as real
  {
    match flags
    case None => 0.0
    case Some(f) =>
      var n := FlagCount(f) as real;
      if f.name && f.email then (if 1.0 <= n / 3.0 then 1.0 else n / 3.0)
      else n / 4.0
  }

  /** The empty-dictionary branch changes nothing: a dictionary with no
      flag set scores the same. */
  lemma EmptyPersonalScore()
    ensures PersonalScore(None) == PersonalScore(Some(Flags(false, false, false, false))) == 0.0
  {
  }

  /** Pointwise order on flags: every flag of `f` is also set in `g`. */
  predicate FlagsBelow(f: Flags, g: Flags) {
    (f.name ==> g.name) && (f.email ==> g.email) && (f.phone ==> g.phone) && (f.address ==> g.address)
  }

  /** Setting more validity flags never lowers the personal score. */
  lemma PersonalScoreMonotone(f: Flags, g: Flags)
    requires FlagsBelow(f, g)
    ensures PersonalScore(Some(f)) <= PersonalScore(Some(g))
  {
    var m := FlagCount(f);
    var n := FlagCount(g);
    assert m <= n;
  }

  /** Lines 209-229: 1.0 when some entry is valid, else 0.0. */
  function EntriesScore(valid: seq<bool>): (r: real)
    ensures r == 1.0 <==> exists i :: 0 <= i < |valid| && valid[i]
    ensures r == 0.0 <==> forall i :: 0 <= i < |valid| ==> !valid[i]
  {
    if valid == [] then 0.0
    else if ValidCount(valid) > 0 then 1.0
    else 0.0
  }

  /** The number of valid entries, as `sum(1 for e in entries if e.get('valid'))`. */
  function ValidCount(valid: seq<bool>): (n: nat)
    ensures n <= |valid|
    ensures n > 0 <==> exists i :: 0 <= i < |valid| && valid[i]
  {
    if valid == [] then 0
    else
      var rest := ValidCount(valid[1..]);
      assert forall i :: 1 <= i < |valid| ==> valid[1..][i - 1] == valid[i];
      Count(valid[0]) + rest
  }

  /** `compute_education_score(education)` (lines 209-218). */
  function EducationScore(entries: seq<ValidatedEducation>): (r: real)
    ensures r == 1.0 <==> exists i :: 0 <= i < |entries| && entries[i].valid
    ensures r == 0.0 <==> forall i :: 0 <= i < |entries| ==> !entries[i].valid
  {
    var valid := seq(|entries|, i requires 0 <= i < |entries| => entries[i].valid);
    assert forall i :: 0 <= i < |entries| ==> valid[i] == entries[i].valid;
    EntriesScore(valid)
  }

  /** `compute_experience_score(experience)` (lines 220-229). */
  function ExperienceScore(entries: seq<ValidatedExperience>): (r: real)
    ensures r == 1.0 <==> exists i :: 0 <= i < |entries| && entries[i].valid
    ensures r == 0.0 <==> forall i :: 0 <= i < |entries| ==> !entries[i].valid
  {
    var valid := seq(|entries|, i requires 0 <= i < |entries| => entries[i].valid);
    assert forall i :: 0 <= i < |entries| ==> valid[i] == entries[i].valid;
    EntriesScore(valid)
  }

  /** `compute_skills_score(skills)` (lines 231-245). */
  function SkillsScore(skills: seq<string>): (r: real)
    ensures 0.0 <= r <= 1.0
    ensures r == 1.0 <==> |skills| >= 5
    ensures r == 0.8 <==> 3 <= |skills| < 5
    ensures r == 0.5 <==> 1 <= |skills| < 3
    ensures r == 0.0 <==> skills == []
  {
    if skills == [] then 0.0
    else if |skills| >= 5 then 1.0
    else if |skills| >= 3 then 0.8
    else 0.5
  }

  /** More skills never lower the skills score. */
  lemma SkillsScoreMonotone(a: seq<string>, b: seq<string>)
    requires |a| <= |b|
    ensures SkillsScore(a) <= SkillsScore(b)
  {
  }

  /** The weighted sum of lines 168-189. */
  function Weighted(personal: real, education: real, experience: real, skills: real): real {
    0.4 * personal + 0.2 * education + 0.2 * experience + 0.2 * skills
  }

  /** Weights 0.4, 0.2, 0.2 and 0.2 sum to one, so scores in [0, 1] give an
      overall score in [0, 1], reaching 1 only when every part is 1. */
  lemma WeightedInRange(p: real, e: real, x: real, s: real)
    requires 0.0 <= p <= 1.0 && 0.0 <= e <= 1.0 && 0.0 <= x <= 1.0 && 0.0 <= s <= 1.0
    ensures 0.0 <= Weighted(p, e, x, s) <= 1.0
    ensures Weighted(p, e, x, s) == 1.0 <==> p == 1.0 && e == 1.0 && x == 1.0 && s == 1.0
  {
  }

  // ---------------------------------------------------------------------------
  // validate_extracted_data
  // ---------------------------------------------------------------------------

  /** The extracted record; every key is optional and `other` holds the keys
      the validator does not look at. */
  datatype Data<O> = Data(personalInfo: Option<PersonalFields>, education: Option<seq<EducationFields>>,
                          workExperience: Option<seq<ExperienceFields>>, skills: Option<seq<string>>,
                          other: O)

  datatype Scores = Scores(overall: real, personalInfo: real, education: real, experience: real, skills: real)

  datatype ValidatedData<O> = ValidatedData(
    personalInfo: Option<ValidatedPersonal>,
    education: Option<seq<ValidatedEducation>>,
    workExperience: Option<seq<ValidatedExperience>>,
    skills: Option<seq<string>>,
    other: O,
    validation: Scores)

  function MapEducation(es: seq<EducationFields>): (r: seq<ValidatedEducation>)
    ensures |r| == |es| && forall i :: 0 <= i < |es| ==> r[i] == ValidateEducation(es[i])
  {
    seq(|es|, i requires 0 <= i < |es| => ValidateEducation(es[i]))
  }

  function MapExperience(xs: seq<ExperienceFields>): (r: seq<ValidatedExperience>)
    ensures |r| == |xs| && forall i :: 0 <= i < |xs| ==> r[i] == ValidateExperience(xs[i])
  {
    seq(|xs|, i requires 0 <= i < |xs| => ValidateExperience(xs[i]))
  }

  /** `validate_extracted_data(data)` (lines 15-47): the copy keeps every
      key, replaces the four it validates when they are present, and adds
      the scores. */
  function ValidateExtractedData<O>(d: Data<O>, patterns: Patterns): (v: ValidatedData<O>)
    ensures v.other == d.other
    ensures v.personalInfo.Some? <==> d.personalInfo.Some?
    ensures v.education.Some? <==> d.education.Some?
    ensures v.workExperience.Some? <==> d.workExperience.Some?
    ensures v.skills.Some? <==> d.skills.Some?
    ensures v.personalInfo.Some? ==> v.personalInfo.value.fields == d.personalInfo.value
    ensures v.education.Some? ==> |v.education.value| == |d.education.value|
    ensures v.workExperience.Some? ==> |v.workExperience.value| == |d.workExperience.value|
    ensures 0.0 <= v.validation.overall <= 1.0
    ensures v.validation.overall == Weighted(v.validation.personalInfo, v.validation.education,
                                             v.validation.experience, v.validation.skills)
    ensures v.validation.personalInfo == 0.0 <==>
      d.personalInfo.None? || FlagCount(v.personalInfo.value.flags) == 0
    ensures d.personalInfo.Some? ==> v.personalInfo == Some(ValidatePersonalInfo(d.personalInfo.value, patterns))
    ensures v.education.Some? ==> forall i :: 0 <= i < |v.education.value| ==>
      v.education.value[i] == ValidateEducation(d.education.value[i])
    ensures v.workExperience.Some? ==> forall i :: 0 <= i < |v.workExperience.value| ==>
      v.workExperience.value[i] == ValidateExperience(d.workExperience.value[i])
    ensures d.skills.Some? ==> v.skills == Some(ValidateSkills(d.skills.value))
    ensures v.validation.personalInfo == PersonalScore(if v.personalInfo.Some? then Some(v.personalInfo.value.flags) else None)
    ensures v.validation.education == EducationScore(if v.education.Some? then v.education.value else [])
    ensures v.validation.experience == ExperienceScore(if v.workExperience.Some? then v.workExperience.value else [])
    ensures v.validation.skills == SkillsScore(if v.skills.Some? then v.skills.value else [])
  {
    var personal := match d.personalInfo
      case Some(p) => Some(ValidatePersonalInfo(p, patterns))
      case None => None;
    var education := match d.education
      case Some(es) => Some(MapEducation(es))
      case None => None;
    var experience := match d.workExperience
      case Some(xs) => Some(MapExperience(xs))
      case None => None;
    var skills := match d.skills
      case Some(ss) => Some(ValidateSkills(ss))
      case None => None;
    var p := PersonalScore(match personal case Some(v) => Some(v.flags) case None => None);
    var e := EducationScore(education.GetOr([]));
    var x := ExperienceScore(experience.GetOr([]));
    var s := SkillsScore(skills.GetOr([]));
    WeightedInRange(p, e, x, s);
    ValidatedData(personal, education, experience, skills, d.other, Scores(Weighted(p, e, x, s), p, e, x, s))
  }
}

=== FILE: wrappers.dfy ===
/**
 * Failure-compatible wrappers shared by every module of the model.
 * - Option<T> stands for Python's `None`-or-value.
 * - Result<T, E> stands for a call that either returns or raises.
 */
module Wrappers {

  datatype Option<+T> = None | Some(value: T) {

    predicate IsFailure() {
      None?
    }

    function PropagateFailure<U>(): Option<U>
      requires None?
    {
      None
    }

    function Extract(): T
      requires Some?
    {
      value
    }

    /** The value, or `default` when there is none. */
    function GetOr(default: T): T {
      match this
      case Some(v) => v
      case None => default
    }
  }

  datatype Result<+T, +E> = Ok(value: T) | Err(error: E) {

    predicate IsFailure() {
      Err?
    }

    function PropagateFailure<U>(): Result<U, E>
      requires Err?
    {
      Err(error)
    }

    function Extract(): T
      requires Ok?
    {
      value
    }
  }
}
